=== FILE: README.md ===
# TIKR scraper core, modelled in Dafny

This project models the working core of a browser extension that reads
financial tables from TIKR stock pages. The extension has three scripts:

- **Page-world scraper (`tikr_scraper.js`).**
  - `run` walks a list of job keys through a catalogue of seven report sections. For each job it navigates, sets the period toggle, waits for a table, and turns the page's tables into Markdown. It then publishes progress and a final report.
  - `tableAddAll` adds every chartable row of the current financial table to the site's chart.
  - `downloadCSV` saves the chart's series as a CSV file.
  - A listener dispatches commands arriving over the page bridge.
- **Isolated-world content script (`content.js`).**
  - It runs the click-to-copy pick mode.
  - It relays page-world messages to the service worker.
  - It forwards worker commands to the page world.
  - It signals that it is ready.
- **Service worker (`background.js`).**
  - It keeps, per tab, the last command the side panel asked for, and injects both scripts.
  - It delivers the kept command when that tab's content script reports ready.
  - It re-broadcasts results to the panel.

Every operation is a pure function over immutable values. Loops the source
writes out are also given as methods with invariants:

- the table scan of `waitForTable`;
- the query comparison of `urlsMatch`;
- the job loop of `run`;
- the row loop of `tableAddAll`;
- the guard that keeps a second injection from registering a second listener.

The browser is not modelled. What a script reads from the browser is a parameter:

- the page's tables, as rows of cell texts;
- the document title;
- whether navigation arrived;
- the successive polls of the page;
- the chart's series;
- whether a store commit succeeded.

What a script sends, injects or relays is part of the result.

Messages are JSON values (`Json.Json`). Object fields are read as
`JSON.parse` leaves them, so the last binding of a key wins. Truthiness, `||`
and `??` are modelled exactly. So is the way a property lookup on a plain
object literal finds members every object inherits: a job key or tab named
`toString` finds a function, not `undefined`.

Each operation has a partner: an inverse, a reference definition, or an
invariant, connected to it by a lemma over all inputs.

- **Markdown.** The table serialiser is paired with a GFM-style table reader. Reading the serialised text back gives the cleaned, filtered and padded cells.
- **CSV.** The exporter is paired with a CSV reader. Reading the text back gives the header and one record per date.
- **Page title.** `getMeta` is paired with title builders for the two title shapes the site uses.
- **URLs.** `urlsMatch` is shown to be symmetric and to be set equality for queries without repeated keys.
- **Loops.** The written-out loops equal their declarative definitions.
- **Message path.** A scrape request is followed from the side panel to the page world and back.

## Model

| member | source | states |
|---|---|---|
| Json.OrElse | tikr-definitive-scrapper/tikr_scraper.js:583 | `v \|\| fallback`: a truthy value is kept. Absent, `null`, `false`, `0` and `""` all give the fallback. |
| Json.Coalesce | tikr-definitive-scrapper/background.js:49 | `v ?? fallback`: only an absent or `null` value falls back. Other falsy values are kept. |
| Catalog.LookupJob | tikr-definitive-scrapper/tikr_scraper.js:19-27 | `JOBS[key]` finds a job exactly for the seven catalogue keys, and that key's own entry. A member every object inherits is found as a non-job value. Anything else is missing. |
| Catalog.JobOf | tikr-definitive-scrapper/tikr_scraper.js:266-290 | A catalogue job gives its own section, tab and label. An inherited member has none of them, so each reads as "undefined". |
| Catalog.CatalogFacts | tikr-definitive-scrapper/tikr_scraper.js:19-27 | Seven distinct keys with distinct labels, none of them an inherited member name. Exactly the four "financials" jobs and the "estimates" job are the ones the period toggle applies to. |
| Catalog.LookupFindsEntry | tikr-definitive-scrapper/tikr_scraper.js:258 | Each catalogue key looks up its own job. |
| Strings.Trim | tikr-definitive-scrapper/tikr_scraper.js:31 | `trim()`: the result has no white space at either end. It is the slice of the input that starts right after the leading white space. |
| Strings.TrimAround | tikr-definitive-scrapper/tikr_scraper.js:31 | `trim` removes exactly the white space around a text that has none at its own ends. |
| Strings.Collapse | tikr-definitive-scrapper/tikr_scraper.js:31 | `replace(/\s+/g, " ")`: every white-space character left is a plain blank, and no two blanks are adjacent. A text that starts with a non-blank keeps its first character. |
| Strings.Clean | tikr-definitive-scrapper/tikr_scraper.js:31 | Collapsing then trimming leaves no line break, no blank at either end and no double blank. |
| Strings.CollapseKeepsNonSpace | tikr-definitive-scrapper/tikr_scraper.js:31 | Collapsing white-space runs keeps every other character of the input, in order, and adds none. |
| Strings.CleanKeepsNonSpace | tikr-definitive-scrapper/tikr_scraper.js:31 | Cleaning removes white space only: the non-white-space characters of the result are exactly those of the input, in order. |
| Strings.EscapePipes | tikr-definitive-scrapper/tikr_scraper.js:30 | Every `\|` in the escaped text is preceded by a backslash. The text is empty only when the input is. It keeps the input's last character and starts with the input's first character or a backslash. |
| Strings.UnescapeEscape | tikr-definitive-scrapper/tikr_scraper.js:30 | Dropping the backslash before each pipe undoes the escape, for every text. |
| Strings.SplitJoin | tikr-definitive-scrapper/tikr_scraper.js:73 | `split(c)` after a join with `c` gives the parts back when no part holds `c`. |
| Strings.LastIndexOf | tikr-definitive-scrapper/tikr_scraper.js:65-66 | `lastIndexOf`: the position of the last occurrence, with none after it, or -1 exactly when the character is absent. |
| Strings.IndexOf | tikr-definitive-scrapper/tikr_scraper.js:73 | The position of the first occurrence, with none before it, or -1 exactly when the character is absent. |
| Strings.ToLower | tikr-definitive-scrapper/tikr_scraper.js:344 | Lower-casing keeps the length and maps each character on its own. |
| Meta.Ticker | tikr-definitive-scrapper/tikr_scraper.js:65-67 | The ticker is trimmed and holds no `(`. It is empty when the title lacks either paren. |
| Meta.TickerIsSpan | tikr-definitive-scrapper/tikr_scraper.js:65-67 | When a `(` after position 0 is followed by a `)` with no `)` after it and no `(` between them, the ticker is the trimmed text between that pair. When no such pair exists, the ticker is empty. |
| Meta.NoOpenNoTicker | tikr-definitive-scrapper/tikr_scraper.js:65-67 | A title with no `(` between position 1 and its last `)` has an empty ticker, so a leading `(` alone is not enough. |
| Meta.BeforeParen | tikr-definitive-scrapper/tikr_scraper.js:65-68 | The text before the paren is trimmed. With a `(` after position 0 followed by a last `)` and no `(` between them, it is the trimmed text before that `(`. Otherwise it is the whole title, trimmed. |
| Meta.StripSuffix | tikr-definitive-scrapper/tikr_scraper.js:79 | The site-suffix pattern is cut away at its first match, and everything after it goes too. The result is a prefix of the text, with no match anywhere before the cut. |
| Meta.PriceAndName | tikr-definitive-scrapper/tikr_scraper.js:71-79 | A price is found only as the first blank-delimited word, and only when it holds a currency sign. The name is trimmed. |
| Meta.GetMeta | tikr-definitive-scrapper/tikr_scraper.js:62-82 | The title is kept verbatim and the ticker is the one between the last parens. The name has no surrounding blanks. A non-empty price has a currency sign and no blank. |
| Meta.SplitFirst | tikr-definitive-scrapper/tikr_scraper.js:73-74 | `split(" ")` has a second element exactly when the text holds a blank. Its first element is everything before the first blank. |
| Meta.TickerOfTitle | tikr-definitive-scrapper/tikr_scraper.js:65-68 | In `<head>(<ticker>)<tail>`, with a non-empty head, no paren inside the ticker and no `)` in the tail, the ticker is the trimmed text between the parens and the text before the paren is the trimmed head. |
| Meta.TitleParts | tikr-definitive-scrapper/tikr_scraper.js:65-68 | `<text> (<ticker>)<tail>` splits into the ticker and the text before the paren. |
| Meta.PricedSplit | tikr-definitive-scrapper/tikr_scraper.js:73-77 | A leading currency word and a name split back into the two. |
| Meta.MetaOfTitle | tikr-definitive-scrapper/tikr_scraper.js:62-82 | Round trip: a priced title built from a price, a name and a ticker gives those parts back. |
| Meta.PlainFirstWord | tikr-definitive-scrapper/tikr_scraper.js:73-74 | The first word of `<name> \| TIKR` lies inside the name, so it has no currency sign either. |
| Meta.SiteSuffixAt | tikr-definitive-scrapper/tikr_scraper.js:79 | A trailing `\| TIKR` matches the suffix pattern at its pipe. |
| Meta.PlainSuffix | tikr-definitive-scrapper/tikr_scraper.js:79 | Stripping the suffix of `<name> \| TIKR` leaves the name and the blank before the pipe. |
| Meta.NoPipeNoSuffix | tikr-definitive-scrapper/tikr_scraper.js:79 | A name without a pipe has nothing to strip. |
| Meta.PlainSplit | tikr-definitive-scrapper/tikr_scraper.js:73-79 | A title whose first word has no currency sign has no price, and is all name. |
| Meta.MetaOfPlainTitle | tikr-definitive-scrapper/tikr_scraper.js:62-82 | Round trip: `<name> \| TIKR` gives back the name, with no ticker and no price. |
| Urls.Param | tikr-definitive-scrapper/tikr_scraper.js:109-110 | `searchParams.get(k)`: absent exactly when no pair has key `k`. Otherwise it is the value of the first such pair. |
| Urls.ParamOr | tikr-definitive-scrapper/tikr_scraper.js:321 | `get(k) \|\| fallback`: a present, non-empty first value bound to `k` is returned. A missing key or an empty value gives the fallback. |
| Urls.CheckCovered | tikr-definitive-scrapper/tikr_scraper.js:109 | The early-exit loop returns true exactly when every pair of one query is what the other's `get` returns for its key. |
| Urls.UrlsMatchMethod | tikr-definitive-scrapper/tikr_scraper.js:102-113 | The early-exit code decides exactly the declarative match: same origin, same path and both coverage loops, or text equality when a URL does not parse. |
| Urls.UrlsMatch | tikr-definitive-scrapper/tikr_scraper.js:102-113 | When either text fails to parse, two URLs match exactly when the texts are equal. When both parse, a match means the same origin and the same path, and every parameter one URL has is one the other URL gives the same value. |
| Urls.UrlsMatchSymmetric | tikr-definitive-scrapper/tikr_scraper.js:102-113 | Matching is symmetric. |
| Urls.OriginOrPathDiffers | tikr-definitive-scrapper/tikr_scraper.js:106 | A different origin or path never matches, whatever the queries hold. |
| Urls.UnparsableIsTextEquality | tikr-definitive-scrapper/tikr_scraper.js:112 | When either text fails to parse, matching is string equality. |
| Urls.ParamOfDistinct | tikr-definitive-scrapper/tikr_scraper.js:109-110 | With no repeated key, `get(k) == v` exactly when `(k, v)` is one of the pairs. |
| Urls.DistinctQueriesMatchAsSets | tikr-definitive-scrapper/tikr_scraper.js:107-111 | For queries without repeated keys, two parsed URLs match exactly when their origins, paths and sets of pairs are equal. Parameter order does not matter. |
| Urls.DistinctIsReflexive | tikr-definitive-scrapper/tikr_scraper.js:102-113 | A URL without repeated keys matches itself. |
| Urls.RepeatedKeyNotReflexive | tikr-definitive-scrapper/tikr_scraper.js:109-110 | A key bound twice to different values makes a URL fail to match itself. |
| Markdown.ContentNorm | tikr-definitive-scrapper/content.js:14-15 | The content script's `norm` is the pipe-escaped, collapsed and trimmed text. `null` and `undefined` give "". |
| Markdown.ContentNormAgrees | tikr-definitive-scrapper/content.js:14-15 | The content script's `norm` and the page script's agree on every string, despite the extra `trim` in the content script's `esc`. |
| Markdown.KeptRows | tikr-definitive-scrapper/tikr_scraper.js:220-223 | Exactly the rows with at least one non-empty cell survive, and there are never more of them than rows in the table. |
| Markdown.KeptRowsAtPositions | tikr-definitive-scrapper/tikr_scraper.js:220-223 | The k-th surviving row is the table's row at the k-th position whose row survives, so the filter keeps table order and keeps each row once. |
| Markdown.KeptRowsInOrder | tikr-definitive-scrapper/tikr_scraper.js:220-223 | The surviving rows are the table's rows at the surviving positions, in table order and each once. No surviving row is left out. |
| Markdown.Width | tikr-definitive-scrapper/tikr_scraper.js:225 | The width is the cell count of the widest surviving row. |
| Markdown.Pad | tikr-definitive-scrapper/tikr_scraper.js:226 | A padded row is exactly `w` cells: its own, then empty ones. |
| Markdown.Separator | tikr-definitive-scrapper/tikr_scraper.js:228 | The separator row is `w` cells of `---`. |
| Markdown.Lines | tikr-definitive-scrapper/tikr_scraper.js:227-230 | The emitted rows are the padded header, the separator, then every padded body row in order. |
| Markdown.LinesCells | tikr-definitive-scrapper/tikr_scraper.js:225-230 | Every emitted row has the same width. Each surviving cell sits at its own row and column, and the rest is empty. |
| Markdown.TableToMarkdown | tikr-definitive-scrapper/tikr_scraper.js:217-231 | The Markdown is empty exactly when no row survives normalisation. |
| Markdown.TableToMdAgrees | tikr-definitive-scrapper/content.js:17-31 | The content script's `tableToMd` produces the same text as the page script's `tableToMarkdown` for every table. |
| Markdown.TableToMd | tikr-definitive-scrapper/content.js:17-31 | The content script's Markdown is empty exactly when no row keeps a non-empty cell after its `norm`. |
| Markdown.MarkdownShape | tikr-definitive-scrapper/tikr_scraper.js:224-230 | A non-empty result has one line per surviving row plus the separator. Every line is as wide as the widest row, and some row reaches that width. |
| Markdown.KeepEscaped | tikr-definitive-scrapper/tikr_scraper.js:221-222 | Escaping pipes does not change whether a row survives. |
| Markdown.KeptEscaped | tikr-definitive-scrapper/tikr_scraper.js:221-222 | Filtering rows commutes with escaping their cells. |
| Markdown.NormIsEscapedClean | tikr-definitive-scrapper/tikr_scraper.js:30-31 | `norm` on every cell is cleaning followed by escaping. |
| Markdown.RowRoundTrip | tikr-definitive-scrapper/tikr_scraper.js:230 | Reading back one rendered line gives its cells, unescaped. |
| Markdown.RenderRoundTrip | tikr-definitive-scrapper/tikr_scraper.js:230 | Reading back the joined lines gives every row's cells, unescaped. |
| Markdown.EscapedLinesRoundTrip | tikr-definitive-scrapper/tikr_scraper.js:221-230 | Rendering escaped cells and reading them back gives the unescaped cells exactly. |
| Markdown.TextOfCleaned | tikr-definitive-scrapper/tikr_scraper.js:217-231 | The Markdown is the render of the escaped lines of the cleaned, filtered table. |
| Markdown.MarkdownRoundTrip | tikr-definitive-scrapper/tikr_scraper.js:217-231 | Round trip: reading the serialised text back gives the cleaned cells of the surviving rows. They come with the separator row and each is padded to the widest, or there is nothing when no row survives. |
| Csv.Stamps | tikr-definitive-scrapper/tikr_scraper.js:468-471 | The collected timestamps are exactly those of some point of some series. |
| Csv.SortDistinct | tikr-definitive-scrapper/tikr_scraper.js:472 | `[...new Set(xs)].sort((a, b) => a - b)` is strictly increasing, with exactly the elements of `xs`. |
| Csv.SortedUnique | tikr-definitive-scrapper/tikr_scraper.js:472 | Two strictly increasing sequences with the same elements are equal, so the date axis does not depend on how it is sorted. |
| Csv.Dates | tikr-definitive-scrapper/tikr_scraper.js:467-472 | The date axis holds every timestamp of every series once, in ascending order. |
| Csv.LastNamed | tikr-definitive-scrapper/tikr_scraper.js:475-479 | The series whose map `dataMap.get(name)` returns: the last series with that name, none after it has the name, and none exactly when no series has it. |
| Csv.DataForIsLastNamed | tikr-definitive-scrapper/tikr_scraper.js:475-479 | The points read for a name are those of the last series with that name, or none when no series has it. |
| Csv.ValueAt | tikr-definitive-scrapper/tikr_scraper.js:478 | The per-series map answers with the last point at that timestamp, and with nothing when there is none. |
| Csv.Render | tikr-definitive-scrapper/tikr_scraper.js:489-490 | `v != null ? v : ""`: a missing value is the empty field, a present one is its text. |
| Csv.HeaderRow | tikr-definitive-scrapper/tikr_scraper.js:483 | The header is "Date", then every series name in input order. |
| Csv.DataRow | tikr-definitive-scrapper/tikr_scraper.js:486-493 | A record is the day of its timestamp, then one field per series. |
| Csv.CsvTable | tikr-definitive-scrapper/tikr_scraper.js:482-493 | The table is the header, then one record per date in axis order, every record `series + 1` wide. |
| Csv.DuplicateNamesCollide | tikr-definitive-scrapper/tikr_scraper.js:475-479 | Two series with the same name show the same column: the later one's values. |
| Csv.DistinctNamesOwnData | tikr-definitive-scrapper/tikr_scraper.js:475-479 | With distinct names, each column reads its own series. |
| Csv.MissingIsEmpty | tikr-definitive-scrapper/tikr_scraper.js:489-490 | A series with no point at a date gives an empty field. A value of 0 is written as "0". |
| Csv.DoubleQuotesLength | tikr-definitive-scrapper/tikr_scraper.js:499 | Doubling the quotes lengthens the text by exactly its number of quotes. |
| Csv.Escape | tikr-definitive-scrapper/tikr_scraper.js:496-501 | A field without a comma, quote or line break is written unchanged. Any other field is wrapped in quotes with every quote doubled: it gains two characters plus one per quote, and reads back as itself. |
| Csv.BareRoundTrip | tikr-definitive-scrapper/tikr_scraper.js:500 | A field left unquoted reads back as itself. |
| Csv.QuotedRoundTrip | tikr-definitive-scrapper/tikr_scraper.js:499 | A quoted field with doubled quotes reads back as itself. |
| Csv.FieldRoundTrip | tikr-definitive-scrapper/tikr_scraper.js:496-501 | Every field `csvEscape` writes reads back as itself, whatever follows it. |
| Csv.RecordRoundTrip | tikr-definitive-scrapper/tikr_scraper.js:502-503 | A comma-joined record of escaped fields reads back as its fields. |
| Csv.RecordsRoundTrip | tikr-definitive-scrapper/tikr_scraper.js:502-504 | Newline-joined records read back as the table. |
| Csv.ToCsv | tikr-definitive-scrapper/tikr_scraper.js:502-504 | Round trip: the exported text reads back as exactly the header and data records. |
| Csv.FileName | tikr-definitive-scrapper/tikr_scraper.js:507-509 | The file name is the ticker (or "TIKR"), `_`, the tab (or "data"), then `_chart.csv`. |
| Csv.DownloadCsv | tikr-definitive-scrapper/tikr_scraper.js:463-564 | A file is written exactly when the chart's series are a non-empty array. It reports the series count and the date count. The Highcharts export is used exactly when there are no series but a chart is present. |
| Csv.DownloadReadsBack | tikr-definitive-scrapper/tikr_scraper.js:502-533 | The saved text reads back as the header plus as many records as the reported row count, each `series + 1` wide. |
| Orchestrator.PickBest | tikr-definitive-scrapper/tikr_scraper.js:199-208 | A poll settles on the first table of maximal row count when that count exceeds two. Otherwise, exactly when no table has more than two rows, it settles on none. |
| Orchestrator.FirstLongest | tikr-definitive-scrapper/tikr_scraper.js:201-204 | The index of the first table of maximal row count. |
| Orchestrator.BestTable | tikr-definitive-scrapper/tikr_scraper.js:199-208 | The running-best scan as written computes exactly `PickBest`. |
| Orchestrator.WaitForTable | tikr-definitive-scrapper/tikr_scraper.js:192-215 | `waitForTable` returns the first poll that found a table. It returns none exactly when no poll did. |
| Orchestrator.ScrapedIndices | tikr-definitive-scrapper/tikr_scraper.js:234-238 | The kept tables are listed in page order, each with more than two rows and a non-empty Markdown. |
| Orchestrator.ScrapedComplete | tikr-definitive-scrapper/tikr_scraper.js:234-238 | No table that qualifies is left out. |
| Orchestrator.ScrapeBlocks | tikr-definitive-scrapper/tikr_scraper.js:238 | The blocks are the Markdown of the kept tables, in order, none empty. |
| Orchestrator.ScrapeAll | tikr-definitive-scrapper/tikr_scraper.js:233-240 | The page's Markdown is empty exactly when no table qualifies. |
| Orchestrator.PickedIsScraped | tikr-definitive-scrapper/tikr_scraper.js:283-289 | When the awaited table has a surviving row, the scraped page text is not empty. |
| Orchestrator.Observe | tikr-definitive-scrapper/tikr_scraper.js:269-289 | A job ends in a navigation timeout exactly when navigation failed, and in "no table" exactly when no poll found one. Otherwise it ends with the scrape of the poll that found one. |
| Orchestrator.Lookups | tikr-definitive-scrapper/tikr_scraper.js:257-258 | Each key is looked up in the catalogue, in order. |
| Orchestrator.Current | tikr-definitive-scrapper/tikr_scraper.js:266 | A progress event names the job's label for a catalogue job. It names none for an inherited member, whose `undefined` label the JSON round trip drops. |
| Orchestrator.ProgressMsg | tikr-definitive-scrapper/tikr_scraper.js:266 | A progress event carries its type, `done`, `total` and run id. It has `current` exactly when there is a label. |
| Orchestrator.DoneMsg | tikr-definitive-scrapper/tikr_scraper.js:295 | The final event carries its type, the full text and the run id. |
| Orchestrator.Section | tikr-definitive-scrapper/tikr_scraper.js:273-290 | Each job's chunk opens with its `##` heading and ends with a line break. |
| Orchestrator.JobActions | tikr-definitive-scrapper/tikr_scraper.js:269-281 | A job first navigates to its route. The period toggle follows exactly when navigation arrived and the section has a toggle, and it selects quarterly exactly when the period is "quarterly". |
| Orchestrator.Header | tikr-definitive-scrapper/tikr_scraper.js:249-253 | The report opens with exactly four lines: `# <ticker> – <name>`, the price and extraction time, the period and the number of job keys, then the `---` rule. |
| Orchestrator.Known | tikr-definitive-scrapper/tikr_scraper.js:261-264 | The recognised key positions all name a job. |
| Orchestrator.KnownIncreasing | tikr-definitive-scrapper/tikr_scraper.js:257 | Recognised keys are handled in request order. |
| Orchestrator.KnownComplete | tikr-definitive-scrapper/tikr_scraper.js:261-264 | Only unknown keys are skipped. |
| Orchestrator.Jobs | tikr-definitive-scrapper/tikr_scraper.js:257-292 | The loop yields one progress report and one chunk per recognised key. |
| Orchestrator.JobsReports | tikr-definitive-scrapper/tikr_scraper.js:259-266 | The k-th report belongs to the k-th recognised key. Its `done` is that key's 1-based position among all keys, unknown ones included. |
| Orchestrator.JobsChunks | tikr-definitive-scrapper/tikr_scraper.js:269-290 | The k-th chunk is the section of the k-th recognised key, with that key's outcome. |
| Orchestrator.Events | tikr-definitive-scrapper/tikr_scraper.js:266 | One progress event per report, in order, out of the total number of keys. |
| Orchestrator.Run | tikr-definitive-scrapper/tikr_scraper.js:242-297 | A run publishes one progress event per recognised key, then exactly one final event with the report text and the page metadata. |
| Orchestrator.ObservedSectionInReport | tikr-definitive-scrapper/tikr_scraper.js:255-297 | For every recognised key of a run, its section, with the text its outcome calls for, appears in the final report. A navigation that arrived followed by a poll that found a table contributes the scrape of that poll. |
| Orchestrator.RunOne | tikr-definitive-scrapper/tikr_scraper.js:258-290 | One pass of the loop body as written: an unknown key does nothing. A recognised key emits its progress event, its chunk and its actions. |
| Orchestrator.Pass | tikr-definitive-scrapper/tikr_scraper.js:257-292 | One pass, given the `done` counter the loop has just bumped, extends the outputs so far to those of one more key. |
| Orchestrator.RunJobs | tikr-definitive-scrapper/tikr_scraper.js:255-292 | The loop as written, whose `done` counter is bumped before the lookup and is the count the progress event carries, produces exactly the events, chunks and actions of the declarative definition. |
| Orchestrator.PeriodOnlyAfterNavigation | tikr-definitive-scrapper/tikr_scraper.js:272-281 | Every period toggle comes right after a successful navigation to a section that has the toggle. |
| Orchestrator.JobNavigation | tikr-definitive-scrapper/tikr_scraper.js:269 | A recognised job navigates exactly once, to its own route. |
| Orchestrator.NavigationsFollowKeys | tikr-definitive-scrapper/tikr_scraper.js:257-269 | The run's navigations are the routes of the recognised keys, one each, in order. |
| Orchestrator.ReportLayout | tikr-definitive-scrapper/tikr_scraper.js:249-294 | The report's sections follow the recognised keys in order, each headed by its job's label. |
| ChartAdd.TabToGroup | tikr-definitive-scrapper/tikr_scraper.js:322-324 | `is`, `bs`, `cf` and `r` name the groups 0 to 3. An inherited member name passes the `== null` test. Every other tab is unsupported. |
| ChartAdd.GroupRows | tikr-definitive-scrapper/tikr_scraper.js:330 | A group index in range reads that group. Anything else reads no rows. |
| ChartAdd.NameIndex | tikr-definitive-scrapper/tikr_scraper.js:341-346 | Every index entry comes from a `val` row with a numeric id: that id's text and the row's lower-cased name. |
| ChartAdd.NameOf | tikr-definitive-scrapper/tikr_scraper.js:341-346 | A name is found exactly for an indexed id, and it is one recorded for that id. |
| ChartAdd.NameFor | tikr-definitive-scrapper/tikr_scraper.js:377-378 | `idToName[v] \|\| v` as a template prints it: a non-empty indexed name, or else the id's own text when the name is empty or the id is not indexed. An id that is not indexed but names an inherited member prints that member's text. |
| ChartAdd.RowId | tikr-definitive-scrapper/tikr_scraper.js:366-384 | Every row id starts with `<formula>-`. `val` and `pct` rows use their lower-cased name and id. `dxdt` rows use the latest `val` name and their first id. |
| ChartAdd.Step | tikr-definitive-scrapper/tikr_scraper.js:353-404 | Headings and rows without values change nothing. A data row updates the parent name only if it is `val`. It adds at most one id. It skips only ids in the `current` snapshot, and a skipped row changes neither the chart nor `current`. A commit adds to the chart an id that was not in `current`, and adds it to `current` too only when `current` is the object the store updates. |
| ChartAdd.StepRule | tikr-definitive-scrapper/tikr_scraper.js:357-402 | For every data row: an id already in `current` is appended to the skipped list and nothing is committed. A new id whose commit goes through is counted and added to the chart, and to `current` only when `current` is the store's own object. A new id whose commit fails changes only the parent name. |
| ChartAdd.FoldCounts | tikr-definitive-scrapper/tikr_scraper.js:338-408 | Added plus skipped never exceeds the number of data rows. The chart only grows, by at most the number added. When `current` is the store's own object, it stays equal to the chart and the chart grows by exactly the number added. Otherwise `current` stays the chart as it was before the loop. Every skipped id is in `current`. |
| ChartAdd.FoldChartGrows | tikr-definitive-scrapper/tikr_scraper.js:353-406 | The chart after any prefix of the rows is contained in the chart after all of them. |
| ChartAdd.AllOkCounted | tikr-definitive-scrapper/tikr_scraper.js:353-406 | When every commit goes through, each data row is either added or skipped: the two counts sum to the number of data rows. |
| ChartAdd.LastVal | tikr-definitive-scrapper/tikr_scraper.js:362-364 | The last `val` data row, or none exactly when there is no such row. |
| ChartAdd.ParentIsLastVal | tikr-definitive-scrapper/tikr_scraper.js:349-364 | The parent name the loop holds is the lower-cased name of the last `val` data row so far, or "". |
| ChartAdd.DxdtUsesLastVal | tikr-definitive-scrapper/tikr_scraper.js:373-375 | A `dxdt` row is added under the name of the last `val` data row before it. |
| ChartAdd.EveryCommittedRowInChart | tikr-definitive-scrapper/tikr_scraper.js:349-406 | Every data row whose commit goes through ends in the chart under its row id, built with the name of the last `val` data row up to it. |
| ChartAdd.AddRows | tikr-definitive-scrapper/tikr_scraper.js:338-406 | The loop as written, with `current` read but never assigned except through the store, yields exactly the declarative tally. |
| ChartAdd.ErrorMsg | tikr-definitive-scrapper/tikr_scraper.js:326 | An error result carries `added: 0`, the error text and the run id. |
| ChartAdd.ResultMsg | tikr-definitive-scrapper/tikr_scraper.js:413-420 | A result carries `added`, `skipped`, `total`, `tab` and the run id, and no error. |
| ChartAdd.TableAddAll | tikr-definitive-scrapper/tikr_scraper.js:313-421 | No financial data means no reply and no change. The tab is the URL's `tab` parameter, or "is" when it is missing or empty, and an unsupported tab gets its error. A success reports `total` as the chart's size after the loop. That size is at most the size before plus `added`, and exactly that when the existing chart is updated in place. The chart never shrinks. |
| ChartAdd.AddAllTotals | tikr-definitive-scrapper/tikr_scraper.js:337-420 | On a supported tab with rows, added plus skipped is at most the data rows. `total` is the chart's size after the additions, not a count of table rows: at most the earlier size plus `added`, and exactly that when the chart is updated in place. |
| ChartAdd.RepeatedIdTwice | tikr-definitive-scrapper/tikr_scraper.js:338-408 | Two rows with one id and no `financialsChart.a`: the snapshot `current` is a fresh `{}`, so both are committed and the reply says `added: 2, skipped: 0, total: 1`. With an existing empty chart updated in place, the second row is skipped: `added: 1, skipped: 1, total: 1`. |
| ChartAdd.InheritedTabHasNoRows | tikr-definitive-scrapper/tikr_scraper.js:322-334 | A tab named `toString` gets "No data rows", not the unsupported-tab error. |
| MainBridge.Dispatch | tikr-definitive-scrapper/tikr_scraper.js:568-594 | An unparsable or ill-shaped message starts nothing. `SCRAPE_CMD` starts `run` exactly when its jobs are an array, with period and run id defaulted. The add-all and download commands start their jobs. |
| MainBridge.ScrapeCommandStartsRun | tikr-definitive-scrapper/tikr_scraper.js:578-584 | A scrape command with truthy period and run id starts `run` with exactly its own jobs, period and run id. |
| MainBridge.ScrapeDefaults | tikr-definitive-scrapper/tikr_scraper.js:583 | A falsy period becomes "annual" and a falsy run id becomes `null`. |
| MainBridge.MissingDefaults | tikr-definitive-scrapper/tikr_scraper.js:583 | A missing period becomes "annual" and a missing run id becomes `null`. |
| MainBridge.NonArrayJobsIgnored | tikr-definitive-scrapper/tikr_scraper.js:579-582 | A scrape command whose jobs are not an array is ignored. |
| MainBridge.InjectScraper | tikr-definitive-scrapper/tikr_scraper.js:12-15 | An injection into a page that already has the scraper changes nothing. Otherwise it adds one listener. |
| MainBridge.InjectTimes | tikr-definitive-scrapper/tikr_scraper.js:12-15 | Any number of injections leave exactly one bridge listener. |
| Content.EnablePick | tikr-definitive-scrapper/content.js:141-146 | Enabling pick mode leaves the instance picking, with its listeners on and nothing highlighted. |
| Content.OnMove | tikr-definitive-scrapper/content.js:74-78 | While picking, a move over a table highlights it. Otherwise nothing changes. |
| Content.OnKey | tikr-definitive-scrapper/content.js:100-106 | Escape while picking ends pick mode. Anything else changes nothing. |
| Content.MdResult | tikr-definitive-scrapper/content.js:92 | The relayed result carries its type and the Markdown. |
| Content.OnClick | tikr-definitive-scrapper/content.js:80-98 | A click on a table while picking ends pick mode and relays that table's Markdown. Any other click does nothing. |
| Content.Replace | tikr-definitive-scrapper/content.js:109-114 | A re-registration removes exactly the handler in the window slot, keeps every other registered handler, and adds the new one. |
| Content.Inject | tikr-definitive-scrapper/content.js:109-135 | An injection adds a fresh instance and keeps a single bridge handler and a single message handler. Earlier instances' pick state is untouched. |
| Content.Bridge | tikr-definitive-scrapper/content.js:114-127 | Only a well-shaped object crosses the bridge, and it crosses unchanged. |
| Content.BridgeRelaysOnce | tikr-definitive-scrapper/content.js:114-129 | With one handler, a well-shaped message is relayed exactly once. |
| Content.OnMessage | tikr-definitive-scrapper/content.js:137-184 | `ENABLE_PICK_MODE` enables the latest instance. The three commands are forwarded to the page world unchanged. Anything else is answered as ignored. |
| Content.ClickAll | tikr-definitive-scrapper/content.js:80-98 | A click reaches every instance. It relays the table once per instance that is picking. |
| Content.MoveAll | tikr-definitive-scrapper/content.js:74-78 | A move reaches every instance. |
| Content.KeyAll | tikr-definitive-scrapper/content.js:100-106 | A key press reaches every instance. |
| Content.ApplyCoherent | tikr-definitive-scrapper/content.js:64-72 | Every step keeps each instance coherent, with its listeners registered exactly while it is picking and nothing highlighted otherwise. Every step also keeps a single set of handlers. |
| Content.TwoInstancesPicking | tikr-definitive-scrapper/content.js:109-146 | Inject, enable, inject again, enable again: two instances are picking. |
| Content.ReinjectedPickRelaysTwice | tikr-definitive-scrapper/content.js:80-98 | In the code as written, that sequence followed by one click relays the table twice. |
| Content.InjectFixed | tikr-definitive-scrapper/content.js:109-135 | The corrected injection also ends every earlier instance's pick mode. |
| Content.ApplyFixedKeepsLatest | tikr-definitive-scrapper/content.js:64-72 | With the corrected injection, only the latest instance can be picking. |
| Content.ActiveCountAtMostOne | tikr-definitive-scrapper/content.js:80-98 | When only the last instance can be picking, at most one instance acts on a click. |
| Content.FixedClickRelaysAtMostOnce | tikr-definitive-scrapper/content.js:80-98 | With the corrected injection, after any sequence of steps, one click relays at most one result. |
| Relay.CommandFor | tikr-definitive-scrapper/background.js:60-110 | Each request leaves the matching command pending, with `runId \|\| null`. A scrape also carries `jobs \|\| []` and `period \|\| "annual"`. |
| Relay.Handle | tikr-definitive-scrapper/background.js:47-157 | A request for a truthy tab replaces that tab's pending command and injects. A request without a tab fails and changes nothing. Results are re-broadcast, other messages are ignored, and only the request's own tab can change. |
| Relay.ReadyDeliversOnce | tikr-definitive-scrapper/background.js:112-131 | A ready signal from a tab with a pending command delivers it once and clears it. From any other tab it does nothing. |
| Relay.RequestsIsolateTabs | tikr-definitive-scrapper/background.js:60-110 | A request never touches another tab's pending command. |
| Relay.LastRequestWins | tikr-definitive-scrapper/background.js:45-131 | Two requests before the ready signal: only the second is delivered, and nothing stays pending. |
| Relay.TabZeroIsMissing | tikr-definitive-scrapper/background.js:61-118 | Tab id 0 counts as missing: its requests fail and its ready signal delivers nothing. |
| Relay.TabResolution | tikr-definitive-scrapper/background.js:48-49 | A request's own tab id wins over the sender's. For a ready signal, the sender's tab wins. |
| Relay.SenderTabFallback | tikr-definitive-scrapper/background.js:49 | A request without a tab id is served for the sender's tab. |
| Relay.RequestTab | tikr-definitive-scrapper/background.js:48-49 | `msg?.tabId ?? sender?.tab?.id`: the message's own tab id unless it is absent or `null`, and the sender's tab otherwise. |
| Relay.ReadyTab | tikr-definitive-scrapper/background.js:113 | `tabIdFromSender ?? tabId`: the sender's tab unless it is absent or `null`, then the message's tab id, then the sender's tab again. |
| EndToEnd.RequestThenReady | tikr-definitive-scrapper/background.js:69-131 | A scrape request injects into its tab with `runId \|\| null`, and that tab's ready signal delivers the scrape command. |
| EndToEnd.ReadyFromTab | tikr-definitive-scrapper/background.js:112-131 | The ready signal from a tab with a kept command delivers it. |
| EndToEnd.CommandReachesRun | tikr-definitive-scrapper/content.js:152-166 | The content script forwards the delivered command, and the page world starts `run` with the requested jobs, and with the requested period and run id or, when they are falsy, "annual" and `null`. |
| EndToEnd.ScrapeRequestStartsRun | tikr-definitive-scrapper/background.js:69-82 | From the panel's request to the page world, for any truthy tab: the requested jobs reach `run`, with the period or "annual" and the run id or `null`. |
| EndToEnd.ResultReachesPanel | tikr-definitive-scrapper/content.js:114-127 | A result crosses the bridge once, unchanged, and is re-broadcast without touching any pending command. |
| EndToEnd.RunMessagesReachPanel | tikr-definitive-scrapper/tikr_scraper.js:266-295 | Every event of a run reaches the panel that way. |

## Left out

- **Browser effects.** Logging, toasts, clipboard writes, `sleep` pauses and the Blob download are not modelled. The model returns what would be sent and what would be saved.
- **Navigation and polling time.** The 12-second navigation loop and the 25-second `waitForTable` loop are not modelled in time. Navigation is an input saying whether it arrived. The polls are an input sequence of page snapshots, so a timeout means no snapshot had a table.
- **URL parsing.** `new URL` is a parameter returning origin, path and the query pairs, or failing. Percent-decoding is inside it.
- **Target URL building.** `getIds`, `navigateTo`'s target building and the router push are not modelled. Only the route each job visits is recorded.
- **`setPeriod`.** Button discovery and clicking are recorded as one action carrying the quarterly choice.
- **The DOM and Vue.** They are replaced by their readings:
  - cell `innerText` as strings;
  - tables as rows of cells;
  - the store's financial groups as rows;
  - the chart's row ids as a set;
  - whether `store.commit` succeeded as a parameter.
- **`Date`.** `toISOString` of a timestamp is a parameter. The extraction time in the report header is a parameter.
- **Numbers.** They are integers. A chart point's value is the text `String(v)` gives, or absent.
- **Map keys.** Chart timestamps are compared as integers, and JSON tab ids structurally.
- **Structured clone and the bridge.** The structured clone of extension messaging and the JSON text of the bridge carry values unchanged. `JSON.parse` failure is an input.
- **The `addToChart` mutation.** Its effect on `financialsChart.a` is reduced to one input: whether it changes the existing object in place, so that the `current` snapshot sees later commits. When `financialsChart.a` is absent, `current` is a fresh `{}` that no commit reaches. The Vue reactivity pause is not modelled.
- **Highcharts fallback.** It is reduced to its series count. Its fixed file name and the error message of the "nothing found" case are not modelled.
- **Download component search.** How `downloadCSV` finds the chart component is not modelled. Its `selectedrows` is an input.
- **Lower-casing.** `toLowerCase` is ASCII-only here.
- **Markdown reader.** The reader paired with the serialiser splits cells at unescaped pipes and removes one blank on either side. It does not handle backslashes that are not followed by a pipe.
- **Page event order across instances.** A page event reaches instances in injection order. The browser's listener order is not otherwise modelled.
- **The content handler's `catch`.** This path and the worker's `catch` path for errors other than a missing tab are not modelled: nothing in the modelled handlers throws.
- **The side panel.** `popup.js` and the worker's side-panel setup are not part of this model.
- Meta.GetMeta: name and price are pinned down exactly only for the two title shapes of `Meta.MetaOfTitle` and `Meta.MetaOfPlainTitle`. For other titles the contract states only their general properties.
- ChartAdd.RowId: the `div` and fallback id shapes are stated only through their `<formula>-` prefix.
- ChartAdd.NameIndex: states that every entry comes from a `val` row with a numeric id, not that every such row has an entry.
- Orchestrator.Section: states the heading and the final line break. The note text and the Markdown body are fixed by `Orchestrator.SectionOfObserve`, and their place in the report by `Orchestrator.ObservedSectionInReport`.
- Strings.Collapse: states the shape of the result and, through `Strings.CollapseKeepsNonSpace`, that the non-white-space characters are kept in order. It does not state that a blank stands exactly where the input had a run of white space.
- Strings.Clean: states the clean shape and, through `Strings.CleanKeepsNonSpace`, that the non-white-space characters are kept in order. It does not state where the single blanks stand, so a cleaned text with its inner blanks removed would also satisfy these facts.
- Strings.ToLower: lower-cases ASCII letters only, because the site's row names are ASCII.

## Findings

| source | as written | input that shows it | evidently intended | confidence | as-written member | corrected member |
|---|---|---|---|---|---|---|
| tikr-definitive-scrapper/content.js:109-135 | Each request re-injects the content script (background.js:64). The new instance removes only the previous bridge and message handlers, not the previous instance's `mousemove`, `click` and `keydown` pick listeners or its `picking` flag. | `START_PICK`, then `START_PICK` again, then one click on a table: two instances are picking, and the table's Markdown is relayed twice. | At most one pick-mode instance, so one click relays one result. | not executed | Content.ReinjectedPickRelaysTwice | Content.FixedClickRelaysAtMostOnce |

=== FILE: catalog.dfy ===
/**
  The scraper's job catalogue: the seven report sections a run can visit,
  each a route section, a `tab` query value and a heading label. Job keys
  arrive from outside as arbitrary strings and are looked up on a plain
  object literal, so a key naming a member every object inherits finds that
  member instead of nothing.
 */
module Catalog {
  import opened Options
  import opened Json

  /** A route section, a `tab` query value, and the `label` its report section is headed with. */
  datatype Job = Job(section: string, tab: string, heading: string)

  /** The result of `JOBS[key]`. */
  datatype Lookup =
    | Own(job: Job)
    | Inherited
    | Missing

  /** The catalogue, in declaration order. */
  const Entries: seq<(string, Job)> := [
    ("incomeStatement", Job("financials", "is", "Income Statement")),
    ("balanceSheet", Job("financials", "bs", "Balance Sheet")),
    ("cashFlow", Job("financials", "cf", "Cash Flow")),
    ("ratios", Job("financials", "r", "Ratios")),
    ("multiples", Job("multiples", "multi", "Valuation Multiples")),
    ("analystTargets", Job("multiples", "street", "Analyst Price Targets")),
    ("estimates", Job("estimates", "est", "Consensus Estimates"))
  ]

  predicate IsJobKey(key: string) {
    exists i :: 0 <= i < |Entries| && Entries[i].0 == key
  }

  function Find(entries: seq<(string, Job)>, key: string): (r: Option<Job>)
    ensures r.Some? <==> exists i :: 0 <= i < |entries| && entries[i].0 == key
    ensures r.Some? ==> exists i :: 0 <= i < |entries| && entries[i] == (key, r.value)
  {
    if entries == [] then None
    else if entries[0].0 == key then Some(entries[0].1)
    else Find(entries[1..], key)
  }

  /** `JOBS[key]` */
  function LookupJob(key: string): (r: Lookup)
    ensures r.Own? <==> IsJobKey(key)
    ensures r.Inherited? <==> !IsJobKey(key) && InheritedKey(key)
    ensures r.Own? ==> exists i :: 0 <= i < |Entries| && Entries[i] == (key, r.job)
  {
    match Find(Entries, key)
    case Some(j) => Own(j)
    case None => if InheritedKey(key) then Inherited else Missing
  }

  /** What a run reads from the looked-up value. An inherited member has none
      of the three fields, so each reads `undefined`, which a template
      literal prints as "undefined". */
  function JobOf(l: Lookup): (r: Job)
    requires !l.Missing?
    ensures l.Inherited? ==> r == Job("undefined", "undefined", "undefined")
    ensures l.Own? ==> r == l.job
  {
    if l.Own? then l.job else Job("undefined", "undefined", "undefined")
  }

  /** The catalogue names seven distinct keys, and the period toggle is only
      tried on the five jobs under "financials" or "estimates". */
  lemma CatalogFacts()
    ensures |Entries| == 7
    ensures forall i, j :: 0 <= i < j < |Entries| ==> Entries[i].0 != Entries[j].0
    ensures forall i, j :: 0 <= i < j < |Entries| ==> Entries[i].1.heading != Entries[j].1.heading
    ensures forall i :: 0 <= i < |Entries| ==> !InheritedKey(Entries[i].0)
    ensures forall i :: 0 <= i < |Entries| ==>
              (Entries[i].1.section in {"financials", "estimates"} <==> i in {0, 1, 2, 3, 6})
  {
  }

  /** Each catalogue key finds its own entry. */
  lemma LookupFindsEntry(i: nat)
    requires i < |Entries|
    ensures LookupJob(Entries[i].0) == Own(Entries[i].1)
  {
    CatalogFacts();
  }
}

=== FILE: chartadd.dfy ===
/**
  `tableAddAll`: add every chartable row of the current financial table to
  TIKR's chart. Each data row gets a row id in the shape TIKR's own click
  handlers use; an id already in the chart is skipped, any other is
  committed.

  The store is abstract: the financial data arrives as its groups of rows,
  the chart as the set of row ids it holds, and the commit as insertion of
  the id into that set. Whether a commit throws is an input, per row
  position.
 */
module ChartAdd {
  import opened Strings
  import opened Options
  import opened Json
  import Urls

  /** One row of a financial group: its `formula`, its `name`, its
      `dataitemid` (absent reads as `undefined`) and its own property names. */
  datatype Row = Row(formula: string, name: string, id: Option<Json>, keys: seq<string>)

  /* ---------------- choosing the group ---------------- */

  /** The result of `TAB_TO_GROUP[tab]`. */
  datatype Group =
    | Index(n: nat)
    | InheritedMember
    | NoGroup

  /** `{ is: 0, bs: 1, cf: 2, r: 3 }[tab]`. An inherited member is not
      `null`, so it passes the `== null` test. */
  function TabToGroup(tab: string): (g: Group)
    ensures g.Index? <==> tab in {"is", "bs", "cf", "r"}
    ensures g.Index? ==> g.n < 4
    ensures g.NoGroup? <==> tab !in {"is", "bs", "cf", "r"} && !InheritedKey(tab)
  {
    if tab == "is" then Index(0)
    else if tab == "bs" then Index(1)
    else if tab == "cf" then Index(2)
    else if tab == "r" then Index(3)
    else if InheritedKey(tab) then InheritedMember
    else NoGroup
  }

  /** `fin.financials?.[groupIdx]`: a group index out of range reads
      `undefined`, and so does an inherited member used as a property key. */
  function GroupRows(groups: seq<seq<Row>>, g: Group): (rows: seq<Row>)
    requires !g.NoGroup?
    ensures g.Index? && g.n < |groups| ==> rows == groups[g.n]
    ensures !(g.Index? && g.n < |groups|) ==> rows == []
  {
    if g.Index? && g.n < |groups| then groups[g.n] else []
  }

  /* ---------------- row ids ---------------- */

  /** A property name containing "##": the rows that carry values. */
  predicate Marker(k: string) {
    exists i :: 0 <= i < |k| - 1 && k[i] == '#' && k[i + 1] == '#'
  }

  /** Neither a heading row nor a row without values. */
  predicate IsData(row: Row) {
    row.formula != "h3" && exists i :: 0 <= i < |row.keys| && Marker(row.keys[i])
  }

  /** A template-literal substitution of a possibly-undefined value. */
  function Text(v: Option<Json>): string {
    if v.None? then "undefined" else ToText(v.value)
  }

  /** A `val` row with a numeric id, and the index entry it makes. */
  predicate Names(row: Row, e: (string, string)) {
    row.formula == "val" && row.id.Some? && row.id.value.JNum?
    && e == (IntToString(row.id.value.n), ToLower(row.name))
  }

  /** The id → name index of `idToName`: the lower-cased names of the `val`
      rows whose id is a number, keyed by the id's text, in row order. */
  function NameIndex(rows: seq<Row>): (ix: seq<(string, string)>)
    ensures forall k :: 0 <= k < |ix| ==> exists i :: 0 <= i < |rows| && Names(rows[i], ix[k])
  {
    if rows == [] then []
    else
      var rest := NameIndex(rows[1..]);
      assert forall k :: 0 <= k < |rest| ==> exists i :: 0 <= i < |rows| && Names(rows[i], rest[k]) by {
        forall k | 0 <= k < |rest|
          ensures exists i :: 0 <= i < |rows| && Names(rows[i], rest[k])
        {
          var i :| 0 <= i < |rows[1..]| && Names(rows[1..][i], rest[k]);
          assert rows[1..][i] == rows[i + 1];
        }
      }
      var row := rows[0];
      if row.formula == "val" && row.id.Some? && row.id.value.JNum? then
        var e := (IntToString(row.id.value.n), ToLower(row.name));
        assert Names(rows[0], e);
        [e] + rest
      else rest
  }

  /** The name the index holds for `key`: the last entry wins, as later
      assignments to the same property do. */
  function NameOf(ix: seq<(string, string)>, key: string): (r: Option<string>)
    ensures r.Some? <==> exists k :: 0 <= k < |ix| && ix[k].0 == key
    ensures r.Some? ==> exists k :: 0 <= k < |ix| && ix[k] == (key, r.value)
  {
    if ix == [] then None
    else if ix[|ix| - 1].0 == key then Some(ix[|ix| - 1].1)
    else NameOf(ix[..|ix| - 1], key)
  }

  /** What a template prints for a member every object inherits: the
      prototype itself for `__proto__`, a native function otherwise. */
  function InheritedText(key: string): string {
    if key == "__proto__" then "[object Object]"
    else if key == "constructor" then "function Object() { [native code] }"
    else "function " + key + "() { [native code] }"
  }

  /** `idToName[v] || v` as a template prints it. */
  function NameFor(ix: seq<(string, string)>, v: Json): (r: string)
    ensures NameOf(ix, ToText(v)).Some? && NameOf(ix, ToText(v)).value != "" ==> r == NameOf(ix, ToText(v)).value
    ensures NameOf(ix, ToText(v)).None? && !InheritedKey(ToText(v)) ==> r == ToText(v)
    ensures NameOf(ix, ToText(v)) == Some("") ==> r == ToText(v)
    ensures NameOf(ix, ToText(v)).None? && InheritedKey(ToText(v)) ==> r == InheritedText(ToText(v))
  {
    var key := ToText(v);
    match NameOf(ix, key)
    case Some(nm) => if nm != "" then nm else key
    case None => if InheritedKey(key) then InheritedText(key) else key
  }

  /** The row id a data row is added under, given the name of the latest
      `val` data row. */
  function RowId(row: Row, parent: string, ix: seq<(string, string)>): (r: string)
    ensures |r| > |row.formula| && r[..|row.formula| + 1] == row.formula + "-"
    ensures row.formula in {"val", "pct"} ==> r == row.formula + "-" + ToLower(row.name) + " " + Text(row.id)
    ensures row.formula == "dxdt" && row.id.Some? && row.id.value.JArr? && row.id.value.items != [] ==>
              r == "dxdt-" + parent + " " + ToText(row.id.value.items[0])
  {
    var f := row.formula;
    var r :=
      if f == "val" || f == "pct" then
        f + "-" + ToLower(row.name) + " " + Text(row.id)
      else if f == "dxdt" && row.id.Some? && row.id.value.JArr? then
        var items := row.id.value.items;
        "dxdt-" + parent + " " + Text(if items != [] then Some(items[0]) else None)
      else if f == "div" && row.id.Some? && row.id.value.JArr? && |row.id.value.items| >= 2 then
        var items := row.id.value.items;
        "div-" + NameFor(ix, items[0]) + " " + ToText(items[0]) + "-" + NameFor(ix, items[1]) + " " + ToText(items[1])
      else
        f + "-" + ToLower(row.name) + " " + Text(row.id);
    assert r[..|f| + 1] == f + "-";
    r
  }

  /* ---------------- the loop ---------------- */

  /** What the loop keeps: the latest `val` name, the number added, the ids
      skipped, the ids of the object `current` that the skip test reads, and
      the ids of the chart the store holds. */
  datatype Tally = Tally(parent: string, added: nat, skipped: seq<string>, current: set<string>, chart: set<string>)

  /** A commit of `id`: it was not in `current`, the store's chart gains it,
      and `current` gains it too exactly when it is the object the store
      updates. */
  predicate Commits(t: Tally, r: Tally, id: string, live: bool) {
    && id !in t.current
    && r.chart == t.chart + {id}
    && r.current == (if live then t.current + {id} else t.current)
  }

  /** One row of the loop. `ok` says whether its commit went through, and
      `live` whether commits update the very object `current` refers to:
      they do when `financialsChart.a` existed and the store changes it in
      place, and never when `?? {}` made `current` a fresh object. */
  function Step(t: Tally, row: Row, ix: seq<(string, string)>, ok: bool, live: bool): (r: Tally)
    ensures !IsData(row) ==> r == t
    ensures IsData(row) ==> r.parent == (if row.formula == "val" then ToLower(row.name) else t.parent)
    ensures r.added == t.added || r.added == t.added + 1
    ensures r.skipped == t.skipped || (r.added == t.added && |r.skipped| == |t.skipped| + 1
                                       && r.skipped[..|t.skipped|] == t.skipped && r.skipped[|t.skipped|] in t.current)
    ensures r.added == t.added ==> r.chart == t.chart && r.current == t.current
    ensures r.added == t.added + 1 ==> exists id :: Commits(t, r, id, live)
  {
    if !IsData(row) then t
    else
      var parent := if row.formula == "val" then ToLower(row.name) else t.parent;
      var id := RowId(row, parent, ix);
      if id in t.current then
        var r := Tally(parent, t.added, t.skipped + [id], t.current, t.chart);
        assert r.skipped[..|t.skipped|] == t.skipped;
        r
      else if ok then
        var r := Tally(parent, t.added + 1, t.skipped, if live then t.current + {id} else t.current, t.chart + {id});
        assert Commits(t, r, id, live);
        r
      else Tally(parent, t.added, t.skipped, t.current, t.chart)
  }

  /** The rule of one data row: an id already in `current` is skipped and
      nothing is committed; a new id whose commit goes through is added to
      the chart; a new id whose commit fails changes nothing but the parent
      name. */
  lemma StepRule(t: Tally, row: Row, ix: seq<(string, string)>, ok: bool, live: bool)
    requires IsData(row)
    ensures var p := if row.formula == "val" then ToLower(row.name) else t.parent;
            var id := RowId(row, p, ix);
            var r := Step(t, row, ix, ok, live);
            && (id in t.current ==> r == Tally(p, t.added, t.skipped + [id], t.current, t.chart))
            && (id !in t.current && ok ==>
                  r == Tally(p, t.added + 1, t.skipped, if live then t.current + {id} else t.current, t.chart + {id}))
            && (id !in t.current && !ok ==> r == Tally(p, t.added, t.skipped, t.current, t.chart))
  {
  }

  /** The loop over `rows`, from a chart whose ids `current` also holds at
      the start. */
  function Fold(rows: seq<Row>, ix: seq<(string, string)>, ok: nat -> bool, live: bool, chart: set<string>): (t: Tally)
  {
    if rows == [] then Tally("", 0, [], chart, chart)
    else Step(Fold(rows[..|rows| - 1], ix, ok, live, chart), rows[|rows| - 1], ix, ok(|rows| - 1), live)
  }

  /** The number of data rows. */
  function DataCount(rows: seq<Row>): nat {
    if rows == [] then 0
    else DataCount(rows[..|rows| - 1]) + (if IsData(rows[|rows| - 1]) then 1 else 0)
  }

  /** Added and skipped together never exceed the data rows. The chart only
      grows, and by at most the rows added. When `current` is the object the
      store updates, it stays the chart, nothing is committed twice and the
      chart grows by exactly the rows added; otherwise `current` stays the
      chart as it was before the loop. Every skipped id is in `current`. */
  lemma {:induction false} FoldCounts(rows: seq<Row>, ix: seq<(string, string)>, ok: nat -> bool, live: bool, chart: set<string>)
    ensures Fold(rows, ix, ok, live, chart).added + |Fold(rows, ix, ok, live, chart).skipped| <= DataCount(rows)
    ensures chart <= Fold(rows, ix, ok, live, chart).chart
    ensures Fold(rows, ix, ok, live, chart).current == (if live then Fold(rows, ix, ok, live, chart).chart else chart)
    ensures |Fold(rows, ix, ok, live, chart).chart| <= |chart| + Fold(rows, ix, ok, live, chart).added
    ensures live ==> |Fold(rows, ix, ok, live, chart).chart| == |chart| + Fold(rows, ix, ok, live, chart).added
    ensures forall s :: s in Fold(rows, ix, ok, live, chart).skipped ==> s in Fold(rows, ix, ok, live, chart).current
    decreases |rows|
  {
    if rows != [] {
      var pre := rows[..|rows| - 1];
      FoldCounts(pre, ix, ok, live, chart);
      var t0 := Fold(pre, ix, ok, live, chart);
      var t := Fold(rows, ix, ok, live, chart);
      assert t == Step(t0, rows[|rows| - 1], ix, ok(|rows| - 1), live);
      if t.added == t0.added + 1 {
        var id :| Commits(t0, t, id, live);
        if live {
          assert id !in t0.chart;
        }
      }
      forall s | s in t.skipped
        ensures s in t.current
      {
        if s !in t0.skipped {
          assert s == t.skipped[|t0.skipped|];
        }
      }
    }
  }

  /** The chart of a prefix of the rows is part of the final chart. */
  lemma {:induction false} FoldChartGrows(rows: seq<Row>, j: nat, ix: seq<(string, string)>, ok: nat -> bool,
                                          live: bool, chart: set<string>)
    requires j <= |rows|
    ensures Fold(rows[..j], ix, ok, live, chart).chart <= Fold(rows, ix, ok, live, chart).chart
    decreases |rows|
  {
    if j < |rows| {
      var pre := rows[..|rows| - 1];
      assert pre[..j] == rows[..j];
      FoldChartGrows(pre, j, ix, ok, live, chart);
      var t0 := Fold(pre, ix, ok, live, chart);
      var t := Fold(rows, ix, ok, live, chart);
      assert t == Step(t0, rows[|rows| - 1], ix, ok(|rows| - 1), live);
      if t.added == t0.added + 1 {
        var id :| Commits(t0, t, id, live);
      }
    } else {
      assert rows[..j] == rows;
    }
  }

  /** With every commit going through, each data row is either added or
      skipped: the two counts together are the number of data rows. */
  lemma {:induction false} AllOkCounted(rows: seq<Row>, ix: seq<(string, string)>, ok: nat -> bool, live: bool,
                                        chart: set<string>)
    requires forall i :: 0 <= i < |rows| ==> ok(i)
    ensures Fold(rows, ix, ok, live, chart).added + |Fold(rows, ix, ok, live, chart).skipped| == DataCount(rows)
    decreases |rows|
  {
    if rows != [] {
      var pre := rows[..|rows| - 1];
      AllOkCounted(pre, ix, ok, live, chart);
      var t0 := Fold(pre, ix, ok, live, chart);
      var last := rows[|rows| - 1];
      assert Fold(rows, ix, ok, live, chart) == Step(t0, last, ix, ok(|rows| - 1), live);
      if IsData(last) {
        StepRule(t0, last, ix, ok(|rows| - 1), live);
      }
    }
  }

  /** A data row of formula `val`. */
  predicate ValRow(row: Row) {
    IsData(row) && row.formula == "val"
  }

  /** The last `val` data row, defined by what it is rather than by the loop. */
  function LastVal(rows: seq<Row>): (r: Option<nat>)
    ensures r.Some? ==> r.value < |rows| && ValRow(rows[r.value])
    ensures r.Some? ==> forall j :: r.value < j < |rows| ==> !ValRow(rows[j])
    ensures r.None? <==> forall j :: 0 <= j < |rows| ==> !ValRow(rows[j])
  {
    if rows == [] then None
    else if ValRow(rows[|rows| - 1]) then Some(|rows| - 1)
    else
      var r := LastVal(rows[..|rows| - 1]);
      assert forall j :: 0 <= j < |rows| - 1 ==> rows[..|rows| - 1][j] == rows[j];
      r
  }

  /** The parent name the loop holds after some rows is the lower-cased name
      of the last `val` data row among them, or "" when there is none;
      headings and rows without values never change it. */
  lemma {:induction false} ParentIsLastVal(rows: seq<Row>, ix: seq<(string, string)>, ok: nat -> bool, live: bool, chart: set<string>)
    ensures LastVal(rows).None? ==> Fold(rows, ix, ok, live, chart).parent == ""
    ensures LastVal(rows).Some? ==> Fold(rows, ix, ok, live, chart).parent == ToLower(rows[LastVal(rows).value].name)
    decreases |rows|
  {
    if rows != [] {
      var pre := rows[..|rows| - 1];
      ParentIsLastVal(pre, ix, ok, live, chart);
      assert forall j :: 0 <= j < |rows| - 1 ==> pre[j] == rows[j];
      var last := rows[|rows| - 1];
      if !ValRow(last) {
        assert LastVal(rows) == LastVal(pre);
      }
    }
  }

  /** A `dxdt` data row at position `i` is added under the name of the last
      `val` data row before it. */
  lemma DxdtUsesLastVal(rows: seq<Row>, i: nat, ix: seq<(string, string)>, ok: nat -> bool, live: bool, chart: set<string>)
    requires i < |rows| && IsData(rows[i]) && rows[i].formula == "dxdt"
    requires rows[i].id.Some? && rows[i].id.value.JArr? && rows[i].id.value.items != []
    ensures var parent := Fold(rows[..i + 1], ix, ok, live, chart).parent;
            var name := if LastVal(rows[..i]).Some? then ToLower(rows[LastVal(rows[..i]).value].name) else "";
            parent == name
            && RowId(rows[i], parent, ix) == "dxdt-" + name + " " + ToText(rows[i].id.value.items[0])
  {
    var pre := rows[..i];
    assert rows[..i + 1][..i] == pre;
    ParentIsLastVal(pre, ix, ok, live, chart);
  }

  /** Every data row whose commit goes through ends up in the chart under
      its row id, built with the name of the last `val` data row up to it:
      either it was added, or its id was already in `current` and so in the
      chart. */
  lemma EveryCommittedRowInChart(rows: seq<Row>, i: nat, ix: seq<(string, string)>, ok: nat -> bool, live: bool,
                                 chart: set<string>)
    requires i < |rows| && IsData(rows[i]) && ok(i)
    ensures var lv := LastVal(rows[..i + 1]);
            var parent := if lv.Some? then ToLower(rows[..i + 1][lv.value].name) else "";
            RowId(rows[i], parent, ix) in Fold(rows, ix, ok, live, chart).chart
  {
    var upto := rows[..i + 1];
    var pre := rows[..i];
    assert upto[..i] == pre && upto[i] == rows[i];
    ParentIsLastVal(upto, ix, ok, live, chart);
    FoldCounts(pre, ix, ok, live, chart);
    var t0 := Fold(pre, ix, ok, live, chart);
    assert Fold(upto, ix, ok, live, chart) == Step(t0, rows[i], ix, ok(i), live);
    StepRule(t0, rows[i], ix, ok(i), live);
    FoldChartGrows(rows, i + 1, ix, ok, live, chart);
  }

  /** The loop as written, with the skipped ids collected in a list. */
  method AddRows(rows: seq<Row>, ix: seq<(string, string)>, ok: nat -> bool, live: bool, chart0: set<string>)
    returns (added: nat, skipped: seq<string>, chart: set<string>)
    ensures var t := Fold(rows, ix, ok, live, chart0);
            added == t.added && skipped == t.skipped && chart == t.chart
  {
    var parent := "";
    var current := chart0;
    added, skipped, chart := 0, [], chart0;
    for i := 0 to |rows|
      invariant Tally(parent, added, skipped, current, chart) == Fold(rows[..i], ix, ok, live, chart0)
    {
      assert rows[..i + 1][..i] == rows[..i];
      var row := rows[i];
      if row.formula == "h3" {
        continue;
      }
      if !(exists k :: 0 <= k < |row.keys| && Marker(row.keys[k])) {
        continue;
      }
      if row.formula == "val" {
        parent := ToLower(row.name);
      }
      var id := RowId(row, parent, ix);
      if id in current {
        skipped := skipped + [id];
        continue;
      }
      if ok(i) {
        chart := chart + {id};
        if live {
          current := current + {id};
        }
        added := added + 1;
      }
    }
    assert rows[..|rows|] == rows;
  }

  /* ---------------- the reply ---------------- */

  /** `{ type: "TABLE_ADD_ALL_RESULT", added: 0, error, runId }` */
  function ErrorMsg(error: string, runId: Json): (r: Json)
    ensures HasType(r, "TABLE_ADD_ALL_RESULT")
    ensures Get(r, "added") == Some(JNum(0)) && Get(r, "error") == Some(JStr(error))
    ensures Get(r, "runId") == Some(runId)
  {
    var fields := [("type", JStr("TABLE_ADD_ALL_RESULT")), ("added", JNum(0)), ("error", JStr(error)), ("runId", runId)];
    FieldOfAt(fields, 0, "type");
    FieldOfAt(fields, 1, "added");
    FieldOfAt(fields, 2, "error");
    FieldOfAt(fields, 3, "runId");
    JObj(fields)
  }

  /** `{ type: "TABLE_ADD_ALL_RESULT", added, skipped, total, tab, runId }` */
  function ResultMsg(added: nat, skipped: nat, total: nat, tab: string, runId: Json): (r: Json)
    ensures HasType(r, "TABLE_ADD_ALL_RESULT")
    ensures Get(r, "added") == Some(JNum(added)) && Get(r, "skipped") == Some(JNum(skipped))
    ensures Get(r, "total") == Some(JNum(total)) && Get(r, "tab") == Some(JStr(tab))
    ensures Get(r, "runId") == Some(runId) && Get(r, "error").None?
  {
    var fields := [("type", JStr("TABLE_ADD_ALL_RESULT")), ("added", JNum(added)), ("skipped", JNum(skipped)),
                   ("total", JNum(total)), ("tab", JStr(tab)), ("runId", runId)];
    FieldOfAt(fields, 0, "type");
    FieldOfAt(fields, 1, "added");
    FieldOfAt(fields, 2, "skipped");
    FieldOfAt(fields, 3, "total");
    FieldOfAt(fields, 4, "tab");
    FieldOfAt(fields, 5, "runId");
    FieldOfAbsent(fields, "error");
    JObj(fields)
  }

  /** The reply relayed (none when the store or its financial data is
      missing) and the chart's ids afterwards. */
  datatype AddAll = AddAll(reply: Option<Json>, chart: set<string>)

  /** The chart's ids before the run: `financialsChart.a`, or none when it
      is absent. */
  function Before(chart: Option<set<string>>): set<string> {
    if chart.Some? then chart.value else {}
  }

  /** `tableAddAll(runId)`. `groups` is `financials.a.financials` when the
      store holds financial data, `query` the query pairs of the page's URL,
      `chart` the ids of `financialsChart.a` when it exists, and `inPlace`
      whether the `addToChart` mutation changes that object rather than
      replacing it. */
  function TableAddAll(groups: Option<seq<seq<Row>>>, query: Urls.Query, chart: Option<set<string>>,
                       inPlace: bool, ok: nat -> bool, runId: Json): (r: AddAll)
    ensures groups.None? ==> r == AddAll(None, Before(chart))
    ensures groups.Some? ==> r.reply.Some? && HasType(r.reply.value, "TABLE_ADD_ALL_RESULT")
    ensures var tab := Urls.ParamOr(query, "tab", "is");
            groups.Some? && TabToGroup(tab).NoGroup? ==>
              r == AddAll(Some(ErrorMsg("Tab \"" + tab + "\" not supported", runId)), Before(chart))
    ensures groups.Some? && Get(r.reply.value, "error").None? ==>
              exists added: nat, skipped: nat ::
                && Get(r.reply.value, "added") == Some(JNum(added))
                && Get(r.reply.value, "skipped") == Some(JNum(skipped))
                && Get(r.reply.value, "total") == Some(JNum(|r.chart|))
                && |r.chart| <= |Before(chart)| + added
                && (chart.Some? && inPlace ==> |r.chart| == |Before(chart)| + added)
    ensures Before(chart) <= r.chart
  {
    if groups.None? then AddAll(None, Before(chart))
    else
      var tab := Urls.ParamOr(query, "tab", "is");
      var g := TabToGroup(tab);
      if g.NoGroup? then AddAll(Some(ErrorMsg("Tab \"" + tab + "\" not supported", runId)), Before(chart))
      else
        var rows := GroupRows(groups.value, g);
        if rows == [] then AddAll(Some(ErrorMsg("No data rows", runId)), Before(chart))
        else
          var ix := NameIndex(rows);
          var live := chart.Some? && inPlace;
          var t := Fold(rows, ix, ok, live, Before(chart));
          FoldCounts(rows, ix, ok, live, Before(chart));
          AddAll(Some(ResultMsg(t.added, |t.skipped|, |t.chart|, tab, runId)), t.chart)
  }

  /** On a supported tab with rows, added plus skipped is at most the number
      of data rows, and the reported total is the chart's size after the
      additions, not a count of the table's rows: the earlier size plus the
      rows added when the store updates the existing chart in place, and at
      most that otherwise. */
  lemma AddAllTotals(groups: seq<seq<Row>>, tab: string, chart: Option<set<string>>, inPlace: bool,
                     ok: nat -> bool, runId: Json)
    requires tab != "" && TabToGroup(tab).Index?
    requires TabToGroup(tab).n < |groups| && groups[TabToGroup(tab).n] != []
    ensures var rows := groups[TabToGroup(tab).n];
            var r := TableAddAll(Some(groups), [("tab", tab)], chart, inPlace, ok, runId).reply.value;
            exists added: nat, skipped: nat, total: nat ::
              && Get(r, "added") == Some(JNum(added)) && Get(r, "skipped") == Some(JNum(skipped))
              && added + skipped <= DataCount(rows)
              && Get(r, "total") == Some(JNum(total))
              && total <= |Before(chart)| + added
              && (chart.Some? && inPlace ==> total == |Before(chart)| + added)
              && Get(r, "tab") == Some(JStr(tab))
  {
    var rows := groups[TabToGroup(tab).n];
    var ix := NameIndex(rows);
    var live := chart.Some? && inPlace;
    FoldCounts(rows, ix, ok, live, Before(chart));
    var t := Fold(rows, ix, ok, live, Before(chart));
    AddAllReply(groups, tab, chart, inPlace, ok, runId);
    var r := TableAddAll(Some(groups), [("tab", tab)], chart, inPlace, ok, runId).reply.value;
    assert Get(r, "added") == Some(JNum(t.added)) && Get(r, "skipped") == Some(JNum(|t.skipped|));
  }

  /** On a supported tab with rows, the reply reports the loop's tally. */
  lemma AddAllReply(groups: seq<seq<Row>>, tab: string, chart: Option<set<string>>, inPlace: bool,
                    ok: nat -> bool, runId: Json)
    requires tab != "" && TabToGroup(tab).Index?
    requires TabToGroup(tab).n < |groups| && groups[TabToGroup(tab).n] != []
    ensures var rows := groups[TabToGroup(tab).n];
            var t := Fold(rows, NameIndex(rows), ok, chart.Some? && inPlace, Before(chart));
            TableAddAll(Some(groups), [("tab", tab)], chart, inPlace, ok, runId).reply
              == Some(ResultMsg(t.added, |t.skipped|, |t.chart|, tab, runId))
  {
  }

  /** The loop over two copies of one data row, both commits going through,
      from an empty chart. */
  lemma {:induction false} FoldTwice(row: Row, ix: seq<(string, string)>, ok: nat -> bool, live: bool)
    requires IsData(row) && ok(0) && ok(1)
    ensures var id := RowId(row, if row.formula == "val" then ToLower(row.name) else "", ix);
            var t := Fold([row, row], ix, ok, live, {});
            t.chart == {id}
            && (live ==> t.added == 1 && t.skipped == [id])
            && (!live ==> t.added == 2 && t.skipped == [])
  {
    var rows := [row, row];
    assert rows[..1] == [row] && [row][..0] == [];
    var parent := if row.formula == "val" then ToLower(row.name) else "";
    var id := RowId(row, parent, ix);
    var t1 := Step(Tally("", 0, [], {}, {}), row, ix, true, live);
    assert t1 == Tally(parent, 1, [], if live then {id} else {}, {id});
    assert Fold(rows[..1], ix, ok, live, {}) == t1;
    assert Fold(rows, ix, ok, live, {}) == Step(t1, row, ix, true, live);
  }

  /** Two data rows with the same row id. When `financialsChart.a` is absent,
      `current` is a fresh `{}` no commit reaches, so both rows are committed:
      `added` is 2 while the chart holds one id. When the existing chart is
      updated in place, the second row is skipped instead. */
  lemma RepeatedIdTwice(row: Row, runId: Json)
    requires IsData(row)
    ensures TableAddAll(Some([[row, row]]), [("tab", "is")], None, true, (i: nat) => true, runId).reply
              == Some(ResultMsg(2, 0, 1, "is", runId))
    ensures TableAddAll(Some([[row, row]]), [("tab", "is")], Some({}), true, (i: nat) => true, runId).reply
              == Some(ResultMsg(1, 1, 1, "is", runId))
  {
    var ok := (i: nat) => true;
    var ix := NameIndex([row, row]);
    assert GroupRows([[row, row]], TabToGroup("is")) == [row, row];
    FoldTwice(row, ix, ok, false);
    FoldTwice(row, ix, ok, true);
  }

  /** An inherited tab name passes the group test but reads no rows, so the
      reply is the "No data rows" error rather than the unsupported-tab one. */
  lemma InheritedTabHasNoRows(groups: seq<seq<Row>>, chart: Option<set<string>>, inPlace: bool, ok: nat -> bool, runId: Json)
    ensures TableAddAll(Some(groups), [("tab", "toString")], chart, inPlace, ok, runId)
              == AddAll(Some(ErrorMsg("No data rows", runId)), Before(chart))
  {
    assert InheritedKey("toString");
  }
}

=== FILE: content.dfy ===
/**
  The isolated-world content script: it validates what the page world sends
  over the bridge and relays it, forwards the worker's commands to the page
  world, and runs pick mode, in which a click on a table sends that table as
  Markdown.

  The script is injected again with every command. Each injection is an
  instance with its own pick state; the window keeps the latest instance's
  bridge and message handlers so that the next injection can remove them.
  Page events reach every instance whose pick listeners are registered, in
  instance order.
 */
module Content {
  import opened Options
  import opened Json
  import opened Markdown
  import MainBridge

  /* ---------------- pick mode of one instance ---------------- */

  /** `picking`, `highlighted` (an element, by id) and whether the
      instance's mouse and key listeners are registered. */
  datatype Pick = Pick(picking: bool, highlighted: Option<nat>, listening: bool)

  /** The state `cleanPick` leaves. */
  const Idle: Pick := Pick(false, None, false)

  /** A pick state `cleanPick` and ENABLE_PICK_MODE can produce: listeners
      registered exactly while picking, and nothing highlighted otherwise. */
  predicate Coherent(p: Pick) {
    p.listening == p.picking && (!p.picking ==> p.highlighted.None?)
  }

  /** Whether a page event reaches the instance's handlers and they act. */
  predicate Active(p: Pick) {
    p.listening && p.picking
  }

  /** ENABLE_PICK_MODE: `cleanPick()`, then picking with listeners. */
  function EnablePick(p: Pick): (r: Pick)
    ensures Active(r) && Coherent(r) && r.highlighted.None?
  {
    var cleaned := Idle;
    Pick(true, cleaned.highlighted, true)
  }

  /** `onMove`: highlight the table under the pointer while picking. */
  function OnMove(p: Pick, table: Option<nat>): (r: Pick)
    ensures Coherent(p) ==> Coherent(r)
    ensures r.picking == p.picking && r.listening == p.listening
    ensures Active(p) && table.Some? ==> r.highlighted == table
    ensures !(Active(p) && table.Some?) ==> r == p
  {
    if Active(p) && table.Some? then p.(highlighted := table) else p
  }

  /** `onEsc`: Escape while picking cancels; any other key, or Escape when
      not picking, changes nothing. */
  function OnKey(p: Pick, key: string): (r: Pick)
    ensures Coherent(p) ==> Coherent(r)
    ensures Active(p) && key == "Escape" ==> r == Idle
    ensures !(Active(p) && key == "Escape") ==> r == p
  {
    if Active(p) && key == "Escape" then Idle else p
  }

  /** `{ type: "MD_RESULT", markdown }` */
  function MdResult(md: string): (r: Json)
    ensures HasType(r, "MD_RESULT") && Get(r, "markdown") == Some(JStr(md))
  {
    var fields := [("type", JStr("MD_RESULT")), ("markdown", JStr(md))];
    FieldOfAt(fields, 0, "type");
    FieldOfAt(fields, 1, "markdown");
    JObj(fields)
  }

  /** `onPick`: a click on a table while picking sends that table as
      Markdown and ends pick mode; a click elsewhere, or when not picking,
      does nothing. `table` is the clicked element's table, by its rows. */
  function OnClick(p: Pick, table: Option<Table>): (r: (Pick, Option<Json>))
    ensures Coherent(p) ==> Coherent(r.0)
    ensures Active(p) && table.Some? ==> r == (Idle, Some(MdResult(TableToMd(table.value))))
    ensures !(Active(p) && table.Some?) ==> r == (p, None)
  {
    if Active(p) && table.Some? then (Idle, Some(MdResult(TableToMd(table.value)))) else (p, None)
  }

  /* ---------------- the instances ---------------- */

  datatype Isolated = Isolated(
    bridgeSlot: Option<nat>,      // window.__tikrBridgeHandler
    bridgeOn: set<nat>,           // instances whose bridge handler is registered
    handlerSlot: Option<nat>,     // window.__tikrOnMessage
    handlerOn: set<nat>,          // instances whose message handler is registered
    picks: seq<Pick>)

  const Fresh: Isolated := Isolated(None, {}, None, {}, [])

  /** The registered handlers of a kind: the one in the window slot, or
      none before the first injection. */
  predicate OnlySlot(slot: Option<nat>, on: set<nat>, n: nat) {
    on == (if slot.Some? then {slot.value} else {}) && (slot.Some? ==> slot.value < n)
  }

  /** At most one bridge handler and one message handler, both the latest
      instance's. */
  predicate Single(s: Isolated) {
    && OnlySlot(s.bridgeSlot, s.bridgeOn, |s.picks|)
    && OnlySlot(s.handlerSlot, s.handlerOn, |s.picks|)
    && (s.picks != [] ==> s.bridgeSlot == Some(|s.picks| - 1) && s.handlerSlot == Some(|s.picks| - 1))
    && (s.picks == [] ==> s.bridgeSlot.None? && s.handlerSlot.None?)
  }

  /** Swaps the handler in `slot` for instance `n`'s. */
  function Replace(slot: Option<nat>, on: set<nat>, n: nat): (r: set<nat>)
    ensures n in r
    ensures forall i :: i in r && i != n ==> i in on && Some(i) != slot
    ensures forall i :: i in on && Some(i) != slot ==> i in r
  {
    (if slot.Some? then on - {slot.value} else on) + {n}
  }

  /** One injection as written: remove the previous bridge and message
      handlers, register the new instance's. An earlier instance's pick
      listeners stay as they are. */
  function Inject(s: Isolated): (r: Isolated)
    ensures |r.picks| == |s.picks| + 1 && r.picks[|s.picks|] == Idle
    ensures forall i :: 0 <= i < |s.picks| ==> r.picks[i] == s.picks[i]
    ensures Single(s) ==> Single(r)
  {
    var n := |s.picks|;
    Isolated(Some(n), Replace(s.bridgeSlot, s.bridgeOn, n),
             Some(n), Replace(s.handlerSlot, s.handlerOn, n),
             s.picks + [Idle])
  }

  /** The bridge handlers on one `__tikr_to_bg` event whose detail parsed to
      `parsed`: each registered handler relays a well-shaped message. */
  function Bridge(s: Isolated, parsed: Option<Json>): (out: seq<Json>)
    ensures parsed.None? || !MainBridge.WellShaped(parsed.value) ==> out == []
    ensures forall k :: 0 <= k < |out| ==> out[k] == parsed.value
  {
    if parsed.Some? && MainBridge.WellShaped(parsed.value) then
      seq(|s.bridgeOn|, k => parsed.value)
    else []
  }

  /** With a single handler, a well-shaped message crosses the bridge
      exactly once and unchanged; anything else is dropped. */
  lemma BridgeRelaysOnce(s: Isolated, parsed: Option<Json>)
    requires Single(s) && s.picks != []
    ensures parsed.Some? && MainBridge.WellShaped(parsed.value) ==> Bridge(s, parsed) == [parsed.value]
    ensures !(parsed.Some? && MainBridge.WellShaped(parsed.value)) ==> Bridge(s, parsed) == []
  {
  }

  /** The command types forwarded to the page world. */
  predicate Forwarded(msg: Json) {
    HasType(msg, "SCRAPE_CMD") || HasType(msg, "TABLE_ADD_ALL_CMD") || HasType(msg, "DOWNLOAD_CSV_CMD")
  }

  const Ok: Json := JObj([("ok", JBool(true))])
  const Ignored: Json := JObj([("ok", JBool(true)), ("ignored", JBool(true))])

  /** The handler's answer (none when no handler is registered), the
      messages it sends to the page world, and the state after. */
  datatype Answered = Answered(s: Isolated, reply: Option<Json>, toMain: seq<Json>)

  /** The message handler of the latest instance on a worker message. */
  function OnMessage(s: Isolated, msg: Json): (r: Answered)
    ensures s.handlerSlot.None? ==> r == Answered(s, None, [])
    ensures s.handlerSlot.Some? && s.handlerSlot.value < |s.picks| && HasType(msg, "ENABLE_PICK_MODE") ==>
              r.reply == Some(Ok) && r.toMain == []
              && r.s == s.(picks := s.picks[s.handlerSlot.value := EnablePick(s.picks[s.handlerSlot.value])])
    ensures s.handlerSlot.Some? && Forwarded(msg) ==> r == Answered(s, Some(Ok), [msg])
    ensures s.handlerSlot.Some? && !HasType(msg, "ENABLE_PICK_MODE") && !Forwarded(msg) ==>
              r == Answered(s, Some(Ignored), [])
  {
    if s.handlerSlot.None? then Answered(s, None, [])
    else
      var i := s.handlerSlot.value;
      if HasType(msg, "ENABLE_PICK_MODE") then
        if i < |s.picks| then Answered(s.(picks := s.picks[i := EnablePick(s.picks[i])]), Some(Ok), [])
        else Answered(s, Some(Ok), [])
      else if Forwarded(msg) then Answered(s, Some(Ok), [msg])
      else Answered(s, Some(Ignored), [])
  }

  /** A click reaches every instance in turn. */
  function ClickAll(picks: seq<Pick>, table: Option<Table>): (r: (seq<Pick>, seq<Json>))
    ensures |r.0| == |picks|
    ensures forall i :: 0 <= i < |picks| ==> r.0[i] == OnClick(picks[i], table).0
    ensures forall k :: 0 <= k < |r.1| ==> table.Some? && r.1[k] == MdResult(TableToMd(table.value))
    ensures |r.1| == (if table.Some? then ActiveCount(picks) else 0)
  {
    if picks == [] then ([], [])
    else
      var pre := picks[..|picks| - 1];
      var p := picks[|picks| - 1];
      assert picks == pre + [p];
      var rest := ClickAll(pre, table);
      var last := OnClick(p, table);
      var r := (rest.0 + [last.0], rest.1 + (if last.1.Some? then [last.1.value] else []));
      ClickStep(picks, pre, p, table, rest, r);
      r
  }

  /** One more instance after those a click has already reached: the
      instances after the click. */
  lemma ClickStep(picks: seq<Pick>, pre: seq<Pick>, p: Pick, table: Option<Table>,
                  rest: (seq<Pick>, seq<Json>), r: (seq<Pick>, seq<Json>))
    requires picks == pre + [p]
    requires |rest.0| == |pre| && forall i :: 0 <= i < |pre| ==> rest.0[i] == OnClick(pre[i], table).0
    requires forall k :: 0 <= k < |rest.1| ==> table.Some? && rest.1[k] == MdResult(TableToMd(table.value))
    requires |rest.1| == (if table.Some? then ActiveCount(pre) else 0)
    requires var last := OnClick(p, table);
             r == (rest.0 + [last.0], rest.1 + (if last.1.Some? then [last.1.value] else []))
    ensures |r.0| == |picks|
    ensures forall i :: 0 <= i < |picks| ==> r.0[i] == OnClick(picks[i], table).0
    ensures forall k :: 0 <= k < |r.1| ==> table.Some? && r.1[k] == MdResult(TableToMd(table.value))
    ensures |r.1| == (if table.Some? then ActiveCount(picks) else 0)
  {
    ClickStepPicks(pre, p, table, rest.0, r.0);
    ClickStepRelays(pre, p, table, rest.1, r.1);
  }

  lemma ClickStepPicks(pre: seq<Pick>, p: Pick, table: Option<Table>, rest: seq<Pick>, r: seq<Pick>)
    requires |rest| == |pre| && forall i :: 0 <= i < |pre| ==> rest[i] == OnClick(pre[i], table).0
    requires r == rest + [OnClick(p, table).0]
    ensures |r| == |pre| + 1
    ensures forall i :: 0 <= i < |pre| + 1 ==> r[i] == OnClick((pre + [p])[i], table).0
  {
    assert forall i :: 0 <= i < |pre| ==> r[i] == rest[i] && (pre + [p])[i] == pre[i];
  }

  lemma ClickStepRelays(pre: seq<Pick>, p: Pick, table: Option<Table>, rest: seq<Json>, r: seq<Json>)
    requires forall k :: 0 <= k < |rest| ==> table.Some? && rest[k] == MdResult(TableToMd(table.value))
    requires |rest| == (if table.Some? then ActiveCount(pre) else 0)
    requires var last := OnClick(p, table);
             r == rest + (if last.1.Some? then [last.1.value] else [])
    ensures forall k :: 0 <= k < |r| ==> table.Some? && r[k] == MdResult(TableToMd(table.value))
    ensures |r| == (if table.Some? then ActiveCount(pre + [p]) else 0)
  {
    assert (pre + [p])[..|pre|] == pre;
    assert forall k :: 0 <= k < |rest| ==> r[k] == rest[k];
  }

  /** The number of instances that act on a page event. */
  function ActiveCount(picks: seq<Pick>): nat {
    if picks == [] then 0
    else ActiveCount(picks[..|picks| - 1]) + (if Active(picks[|picks| - 1]) then 1 else 0)
  }

  /** A mouse move or a key press reaches every instance in turn. */
  function MoveAll(picks: seq<Pick>, table: Option<nat>): (r: seq<Pick>)
    ensures |r| == |picks| && forall i :: 0 <= i < |picks| ==> r[i] == OnMove(picks[i], table)
  {
    seq(|picks|, i requires 0 <= i < |picks| => OnMove(picks[i], table))
  }

  function KeyAll(picks: seq<Pick>, key: string): (r: seq<Pick>)
    ensures |r| == |picks| && forall i :: 0 <= i < |picks| ==> r[i] == OnKey(picks[i], key)
  {
    seq(|picks|, i requires 0 <= i < |picks| => OnKey(picks[i], key))
  }

  /** What can happen to the isolated world. */
  datatype Op =
    | Injected
    | Message(msg: Json)
    | Moved(target: Option<nat>)
    | Clicked(table: Option<Table>)
    | KeyDown(key: string)

  /** One step, with the MD_RESULT messages it relays; `fixed` selects the
      injection that also ends an earlier instance's pick mode. */
  function Apply(s: Isolated, op: Op, fixed: bool): (r: (Isolated, seq<Json>))
  {
    match op
    case Injected => (if fixed then InjectFixed(s) else Inject(s), [])
    case Message(msg) => (OnMessage(s, msg).s, [])
    case Moved(t) => (s.(picks := MoveAll(s.picks, t)), [])
    case Clicked(t) =>
      var c := ClickAll(s.picks, t);
      (s.(picks := c.0), c.1)
    case KeyDown(k) => (s.(picks := KeyAll(s.picks, k)), [])
  }

  /** Every instance stays coherent, whichever injection is used. */
  lemma ApplyCoherent(s: Isolated, op: Op, fixed: bool)
    requires forall i :: 0 <= i < |s.picks| ==> Coherent(s.picks[i])
    requires Single(s)
    ensures Single(Apply(s, op, fixed).0)
    ensures forall i :: 0 <= i < |Apply(s, op, fixed).0.picks| ==> Coherent(Apply(s, op, fixed).0.picks[i])
  {
    if op.Clicked? {
      var c := ClickAll(s.picks, op.table);
      forall i | 0 <= i < |c.0|
        ensures Coherent(c.0[i])
      {
        assert Coherent(s.picks[i]);
      }
    }
  }

  /* ---------------- re-injection during pick mode ---------------- */

  /** An injection that also cleans every earlier instance's pick state,
      as storing `cleanPick` next to the two handlers would allow. */
  function InjectFixed(s: Isolated): (r: Isolated)
    ensures |r.picks| == |s.picks| + 1
    ensures forall i :: 0 <= i < |r.picks| ==> r.picks[i] == Idle
    ensures Single(s) ==> Single(r)
  {
    var i := Inject(s);
    i.(picks := seq(|i.picks|, k => Idle))
  }

  /** Only the latest instance can be in pick mode. */
  predicate OnlyLatestPicks(s: Isolated) {
    forall i :: 0 <= i < |s.picks| && (s.picks[i].listening || s.picks[i].picking) ==> i == |s.picks| - 1
  }

  lemma {:induction false} ActiveCountAtMostOne(picks: seq<Pick>)
    requires forall i :: 0 <= i < |picks| && Active(picks[i]) ==> i == |picks| - 1
    ensures ActiveCount(picks) <= 1
    ensures ActiveCount(picks) == 1 ==> Active(picks[|picks| - 1])
    decreases |picks|
  {
    if picks != [] {
      var pre := picks[..|picks| - 1];
      assert forall i :: 0 <= i < |pre| ==> pre[i] == picks[i];
      ActiveCountNone(pre);
    }
  }

  lemma {:induction false} ActiveCountNone(picks: seq<Pick>)
    requires forall i :: 0 <= i < |picks| ==> !Active(picks[i])
    ensures ActiveCount(picks) == 0
    decreases |picks|
  {
    if picks != [] {
      var pre := picks[..|picks| - 1];
      assert forall i :: 0 <= i < |pre| ==> pre[i] == picks[i];
      ActiveCountNone(pre);
    }
  }

  /** With the fixed injection every step keeps pick mode to the latest
      instance. */
  lemma ApplyFixedKeepsLatest(s: Isolated, op: Op)
    requires Single(s) && OnlyLatestPicks(s)
    ensures OnlyLatestPicks(Apply(s, op, true).0)
  {
    var r := Apply(s, op, true).0;
    if op.Message? && s.handlerSlot.Some? && HasType(op.msg, "ENABLE_PICK_MODE") {
      assert s.handlerSlot.value == |s.picks| - 1;
    } else if op.Clicked? {
      forall i | 0 <= i < |r.picks| && (r.picks[i].listening || r.picks[i].picking)
        ensures i == |r.picks| - 1
      {
        assert r.picks[i] == OnClick(s.picks[i], op.table).0;
      }
    }
  }

  /** From a fresh isolated world, with the fixed injection, a click on a
      table relays at most one MD_RESULT. */
  lemma {:induction false} FixedClickRelaysAtMostOnce(ops: seq<Op>, table: Table)
    ensures var s := RunOps(Fresh, ops, true);
            Single(s) && OnlyLatestPicks(s)
            && |Apply(s, Clicked(Some(table)), true).1| <= 1
    decreases |ops|
  {
    var s := RunOps(Fresh, ops, true);
    if ops != [] {
      FixedClickRelaysAtMostOnce(ops[..|ops| - 1], table);
      ApplyFixedKeepsLatest(RunOps(Fresh, ops[..|ops| - 1], true), ops[|ops| - 1]);
      ApplyCoherentSingle(RunOps(Fresh, ops[..|ops| - 1], true), ops[|ops| - 1], true);
    }
    ActiveCountAtMostOne(s.picks);
  }

  /** `Single` alone is kept by every step. */
  lemma ApplyCoherentSingle(s: Isolated, op: Op, fixed: bool)
    requires Single(s)
    ensures Single(Apply(s, op, fixed).0)
  {
  }

  /** The steps in order. */
  function RunOps(s: Isolated, ops: seq<Op>, fixed: bool): (r: Isolated)
    ensures |r.picks| >= |s.picks|
  {
    if ops == [] then s else Apply(RunOps(s, ops[..|ops| - 1], fixed), ops[|ops| - 1], fixed).0
  }

  /** The ENABLE_PICK_MODE message. */
  const Enable: Json := JObj([("type", JStr("ENABLE_PICK_MODE"))])

  /** Injected, pick mode enabled, injected again, enabled again: two
      instances picking. */
  lemma TwoInstancesPicking()
    ensures RunOps(Fresh, [Injected, Message(Enable), Injected, Message(Enable)], false).picks
              == [Pick(true, None, true), Pick(true, None, true)]
  {
    var ops := [Injected, Message(Enable), Injected, Message(Enable)];
    assert HasType(Enable, "ENABLE_PICK_MODE") by {
      FieldOfAt([("type", JStr("ENABLE_PICK_MODE"))], 0, "type");
    }
    var s1 := Inject(Fresh);
    var s2 := OnMessage(s1, Enable).s;
    var s3 := Inject(s2);
    var s4 := OnMessage(s3, Enable).s;
    assert ops[..1][..0] == [] && ops[..2][..1] == ops[..1];
    assert ops[..3][..2] == ops[..2] && ops[..4][..3] == ops[..3] && ops[..4] == ops;
    assert RunOps(Fresh, ops[..1], false) == s1;
    assert RunOps(Fresh, ops[..2], false) == s2;
    assert RunOps(Fresh, ops[..3], false) == s3;
    assert RunOps(Fresh, ops, false) == s4;
  }

  /** As written: pick mode enabled, the script injected again by the next
      request and pick mode enabled again leaves two instances picking, and
      one click on a table relays the table twice. */
  lemma ReinjectedPickRelaysTwice(table: Table)
    ensures var s := RunOps(Fresh, [Injected, Message(Enable), Injected, Message(Enable)], false);
            Apply(s, Clicked(Some(table)), false).1 == [MdResult(TableToMd(table)), MdResult(TableToMd(table))]
  {
    TwoInstancesPicking();
    var on := Pick(true, None, true);
    assert ActiveCount([on, on]) == 2 by {
      assert [on][..0] == [];
      assert ActiveCount([on]) == 1;
      assert [on, on][..1] == [on];
    }
    var c := ClickAll([on, on], Some(table));
    assert |c.1| == 2;
  }
}

=== FILE: csv.dfy ===
/**
  The primary path of `downloadCSV`: the chart's series become a CSV text
  whose first column is the day of each distinct timestamp (ascending) and
  whose other columns are the series, in input order. Fields are quoted as in
  section 2 of RFC 4180, with "\n" as the line terminator.

  The partner of the encoder is `ParseCsv`, a reader for exactly that
  dialect; the round-trip lemma says the text reads back as the table.
 */
module Csv {
  import opened Strings
  import opened Options

  /** A chart value: `null`/`undefined`, or the text `String(v)` gives. */
  datatype Value = Absent | Present(text: string)

  datatype Point = Point(x: int, y: Value)

  datatype Series = Series(name: string, data: seq<Point>)

  /* ---------------- the date axis ---------------- */

  predicate StrictlyIncreasing(xs: seq<int>) {
    forall i, j :: 0 <= i < j < |xs| ==> xs[i] < xs[j]
  }

  /** Every timestamp of every series, in iteration order, repeats included. */
  function Stamps(series: seq<Series>): (r: seq<int>)
    ensures forall t :: t in r <==> exists i, j :: 0 <= i < |series| && 0 <= j < |series[i].data| && series[i].data[j].x == t
  {
    if series == [] then []
    else
      var first := seq(|series[0].data|, j requires 0 <= j < |series[0].data| => series[0].data[j].x);
      var rest := Stamps(series[1..]);
      var r := first + rest;
      assert forall t :: t in r <==> exists i, j :: 0 <= i < |series| && 0 <= j < |series[i].data| && series[i].data[j].x == t by {
        forall t | t in r
          ensures exists i, j :: 0 <= i < |series| && 0 <= j < |series[i].data| && series[i].data[j].x == t
        {
          if t in first {
            var j :| 0 <= j < |first| && first[j] == t;
            assert series[0].data[j].x == t;
          } else {
            assert t in rest;
            var i, j :| 0 <= i < |series[1..]| && 0 <= j < |series[1..][i].data| && series[1..][i].data[j].x == t;
            assert series[i + 1] == series[1..][i];
          }
        }
        forall t | exists i, j :: 0 <= i < |series| && 0 <= j < |series[i].data| && series[i].data[j].x == t
          ensures t in r
        {
          var i, j :| 0 <= i < |series| && 0 <= j < |series[i].data| && series[i].data[j].x == t;
          if i == 0 {
            assert first[j] == t;
          } else {
            assert series[1..][i - 1] == series[i];
            assert t in rest;
          }
        }
      }
      r
  }

  /** Inserts `v` into a strictly increasing sequence unless it is already there. */
  function Insert(xs: seq<int>, v: int): (r: seq<int>)
    requires StrictlyIncreasing(xs)
    ensures StrictlyIncreasing(r)
    ensures forall t :: t in r <==> t in xs || t == v
  {
    if xs == [] then [v]
    else if v < xs[0] then [v] + xs
    else if v == xs[0] then xs
    else
      var rest := Insert(xs[1..], v);
      assert forall t :: t in xs <==> t == xs[0] || t in xs[1..];
      assert forall j :: 0 <= j < |rest| ==> xs[0] < rest[j] by {
        forall j | 0 <= j < |rest|
          ensures xs[0] < rest[j]
        {
          assert rest[j] in rest;
          if rest[j] != v {
            var k :| 0 <= k < |xs[1..]| && xs[1..][k] == rest[j];
            assert xs[k + 1] == rest[j];
          }
        }
      }
      [xs[0]] + rest
  }

  /** `[...new Set(xs)].sort((a, b) => a - b)` */
  function SortDistinct(xs: seq<int>): (r: seq<int>)
    ensures StrictlyIncreasing(r)
    ensures forall t :: t in r <==> t in xs
  {
    if xs == [] then []
    else
      var rest := SortDistinct(xs[1..]);
      assert forall t :: t in xs <==> t == xs[0] || t in xs[1..];
      Insert(rest, xs[0])
  }

  /** The strictly increasing enumeration of a set is unique, so any way of
      sorting the distinct timestamps yields this axis. */
  lemma {:induction false} SortedUnique(a: seq<int>, b: seq<int>)
    requires StrictlyIncreasing(a) && StrictlyIncreasing(b)
    requires forall t :: t in a <==> t in b
    ensures a == b
    decreases |a|
  {
    assert a != [] ==> a[0] in a;
    assert b != [] ==> b[0] in b;
    if a != [] && b != [] {
      assert a[0] == b[0] by {
        var k :| 0 <= k < |b| && b[k] == a[0];
        assert b[0] <= a[0];
        var m :| 0 <= m < |a| && a[m] == b[0];
        assert a[0] <= b[0];
      }
      forall t
        ensures t in a[1..] <==> t in b[1..]
      {
        if t in a[1..] {
          var k :| 1 <= k < |a| && a[k] == t;
          assert a[0] < t;
          assert t in b;
        }
        if t in b[1..] {
          var k :| 1 <= k < |b| && b[k] == t;
          assert b[0] < t;
          assert t in a;
        }
      }
      SortedUnique(a[1..], b[1..]);
      assert a == [a[0]] + a[1..] && b == [b[0]] + b[1..];
    }
  }

  /** The date axis: every timestamp of every series once, ascending. */
  function Dates(series: seq<Series>): (r: seq<int>)
    ensures StrictlyIncreasing(r)
    ensures forall t :: t in r <==> exists i, j :: 0 <= i < |series| && 0 <= j < |series[i].data| && series[i].data[j].x == t
  {
    SortDistinct(Stamps(series))
  }

  /* ---------------- the value lookup ---------------- */

  /** The points `dataMap` keeps for `name`: `dataMap.set(s.name, …)` runs
      for every series in order, so the last series with that name wins. */
  function DataFor(series: seq<Series>, name: string): seq<Point> {
    if series == [] then []
    else if series[|series| - 1].name == name then series[|series| - 1].data
    else DataFor(series[..|series| - 1], name)
  }

  /** The points kept for `name` are those of the last series called
      `name`, and none when no series is. */
  lemma {:induction false} DataForIsLastNamed(series: seq<Series>, name: string)
    ensures LastNamed(series, name).None? ==> DataFor(series, name) == []
    ensures LastNamed(series, name).Some? ==> DataFor(series, name) == series[LastNamed(series, name).value].data
    decreases |series|
  {
    if series != [] && series[|series| - 1].name != name {
      DataForIsLastNamed(series[..|series| - 1], name);
    }
  }

  /** The position of the last series called `name`, defined by what it is. */
  function LastNamed(series: seq<Series>, name: string): (r: Option<nat>)
    ensures r.Some? ==> r.value < |series| && series[r.value].name == name
    ensures r.Some? ==> forall k :: r.value < k < |series| ==> series[k].name != name
    ensures r.None? <==> forall k :: 0 <= k < |series| ==> series[k].name != name
  {
    if series == [] then None
    else if series[|series| - 1].name == name then Some(|series| - 1)
    else
      var r := LastNamed(series[..|series| - 1], name);
      assert forall k :: 0 <= k < |series| - 1 ==> series[..|series| - 1][k] == series[k];
      r
  }

  /** `m.get(ts)` on the per-series map: the last point at `ts` wins, and no
      point reads as `undefined`. */
  function ValueAt(data: seq<Point>, ts: int): (r: Value)
    ensures (forall j :: 0 <= j < |data| ==> data[j].x != ts) ==> r == Absent
    ensures (exists j :: 0 <= j < |data| && data[j].x == ts) ==>
              exists j :: 0 <= j < |data| && data[j].x == ts && data[j].y == r &&
                forall k :: j < k < |data| ==> data[k].x != ts
  {
    if data == [] then Absent
    else if data[|data| - 1].x == ts then data[|data| - 1].y
    else
      var p := data[..|data| - 1];
      var r := ValueAt(p, ts);
      assert forall k :: 0 <= k < |p| ==> p[k] == data[k];
      assert (exists j :: 0 <= j < |data| && data[j].x == ts) ==>
               exists j :: 0 <= j < |data| && data[j].x == ts && data[j].y == r &&
                 forall k :: j < k < |data| ==> data[k].x != ts
      by {
        if exists j :: 0 <= j < |data| && data[j].x == ts {
          var j0 :| 0 <= j0 < |data| && data[j0].x == ts;
          assert p[j0].x == ts;
          var j :| 0 <= j < |p| && p[j].x == ts && p[j].y == r && forall k :: j < k < |p| ==> p[k].x != ts;
          assert data[j].x == ts && data[j].y == r;
          forall k | j < k < |data|
            ensures data[k].x != ts
          {
            if k < |p| {
              assert p[k].x != ts;
            }
          }
        }
      }
      r
  }

  /** `v != null ? v : ""`: only a missing value is blank; a present one,
      even a falsy "0" or "", is written as it is. */
  function Render(v: Value): (r: string)
    ensures v.Absent? ==> r == ""
    ensures v.Present? ==> r == v.text
  {
    match v
    case Absent => ""
    case Present(t) => t
  }

  /** The field for column `j` (a series) at timestamp `ts`. */
  function Field(series: seq<Series>, j: nat, ts: int): string
    requires j < |series|
  {
    Render(ValueAt(DataFor(series, series[j].name), ts))
  }

  /** The header record: "Date", then every series name in input order. */
  function HeaderRow(series: seq<Series>): (r: seq<string>)
    ensures |r| == |series| + 1 && r[0] == "Date"
    ensures forall j :: 0 <= j < |series| ==> r[j + 1] == series[j].name
  {
    ["Date"] + seq(|series|, j requires 0 <= j < |series| => series[j].name)
  }

  /** The record for timestamp `ts`: its day, then one field per series. */
  function DataRow(series: seq<Series>, isoDay: int -> string, ts: int): (r: seq<string>)
    ensures |r| == |series| + 1 && r[0] == isoDay(ts)
    ensures forall j :: 0 <= j < |series| ==> r[j + 1] == Field(series, j, ts)
  {
    [isoDay(ts)] + seq(|series|, j requires 0 <= j < |series| => Field(series, j, ts))
  }

  /** The unescaped table: header, then one row per date. */
  function CsvTable(series: seq<Series>, isoDay: int -> string): (r: seq<seq<string>>)
    ensures |r| == |Dates(series)| + 1
    ensures r[0] == HeaderRow(series)
    ensures forall i :: 0 <= i < |Dates(series)| ==> r[i + 1] == DataRow(series, isoDay, Dates(series)[i])
    ensures forall i :: 0 <= i < |r| ==> |r[i]| == |series| + 1
  {
    var dates := Dates(series);
    [HeaderRow(series)] + seq(|dates|, i requires 0 <= i < |dates| => DataRow(series, isoDay, dates[i]))
  }

  /** Two series with the same name show the same column: the later one's
      values, whatever the earlier one held. */
  lemma DuplicateNamesCollide(series: seq<Series>, j: nat, k: nat, ts: int)
    requires j < |series| && k < |series|
    requires series[j].name == series[k].name
    ensures Field(series, j, ts) == Field(series, k, ts)
  {
  }

  /** With distinct names, each column shows its own series. */
  lemma {:induction false} DistinctNamesOwnData(series: seq<Series>, j: nat)
    requires j < |series|
    requires forall a, b :: 0 <= a < b < |series| ==> series[a].name != series[b].name
    ensures DataFor(series, series[j].name) == series[j].data
    decreases |series|
  {
    if j != |series| - 1 {
      DistinctNamesOwnData(series[..|series| - 1], j);
    }
  }

  /** A series with no point at `ts` gives an empty field, not "0" or "null";
      a present value, "0" included, is written as it is. */
  lemma MissingIsEmpty(series: seq<Series>, j: nat, ts: int)
    requires j < |series|
    requires forall a, b :: 0 <= a < b < |series| ==> series[a].name != series[b].name
    ensures (forall p :: 0 <= p < |series[j].data| ==> series[j].data[p].x != ts) ==> Field(series, j, ts) == ""
    ensures (forall p :: 0 <= p < |series[j].data| ==> series[j].data[p] == Point(ts, Present("0")) || series[j].data[p].x != ts)
            && (exists p :: 0 <= p < |series[j].data| && series[j].data[p].x == ts)
            ==> Field(series, j, ts) == "0"
  {
    DistinctNamesOwnData(series, j);
  }

  /* ---------------- encoding ---------------- */

  predicate NeedsQuotes(s: string) {
    ',' in s || '"' in s || '\n' in s
  }

  /** The number of `"` in a text. */
  function Quotes(s: string): nat {
    if s == [] then 0 else (if s[0] == '"' then 1 else 0) + Quotes(s[1..])
  }

  /** `s.replace(/"/g, '""')` */
  function DoubleQuotes(s: string): string {
    if s == [] then []
    else if s[0] == '"' then "\"\"" + DoubleQuotes(s[1..])
    else [s[0]] + DoubleQuotes(s[1..])
  }

  /** Doubling adds one character per quote. */
  lemma {:induction false} DoubleQuotesLength(s: string)
    ensures |DoubleQuotes(s)| == |s| + Quotes(s)
  {
    if s != [] {
      DoubleQuotesLength(s[1..]);
    }
  }

  /** `csvEscape`: a field without a comma, a quote or a line break is
      written as it is; any other is wrapped in quotes with each of its
      quotes doubled, which a CSV reader takes back to the field itself. */
  function Escape(s: string): (r: string)
    ensures !NeedsQuotes(s) ==> r == s
    ensures NeedsQuotes(s) ==> |r| == |s| + Quotes(s) + 2 && r[0] == '"' && r[|r| - 1] == '"'
    ensures NeedsQuotes(s) ==> ParseField(r) == Some((s, []))
  {
    if NeedsQuotes(s) then
      var r := "\"" + DoubleQuotes(s) + "\"";
      DoubleQuotesLength(s);
      QuotedRoundTrip(s, []);
      assert r[1..] == DoubleQuotes(s) + "\"" + [];
      r
    else s
  }

  function EncodeRow(fields: seq<string>): string {
    Join(seq(|fields|, i requires 0 <= i < |fields| => Escape(fields[i])), ",")
  }

  function Encode(table: seq<seq<string>>): string {
    Join(seq(|table|, i requires 0 <= i < |table| => EncodeRow(table[i])), "\n")
  }

  /** The CSV text `downloadCSV` saves. It reads back as its table: the
      header, then one record per date, fields unquoted. */
  function ToCsv(series: seq<Series>, isoDay: int -> string): (r: string)
    ensures ParseCsv(r) == Some(CsvTable(series, isoDay))
  {
    RecordsRoundTrip(CsvTable(series, isoDay));
    Encode(CsvTable(series, isoDay))
  }

  /* ---------------- the reader (partner) ---------------- */

  /** An unquoted field runs to the next `,` or line end. */
  function ParseBare(s: string): (r: (string, string))
    ensures |r.1| <= |s|
  {
    if s == [] || s[0] == ',' || s[0] == '\n' then ([], s)
    else
      var (f, rest) := ParseBare(s[1..]);
      ([s[0]] + f, rest)
  }

  /** The body of a quoted field, after its opening quote; `""` stands for `"`. */
  function ParseQuoted(s: string): (r: Option<(string, string)>)
    ensures r.Some? ==> |r.value.1| < |s|
  {
    if s == [] then None
    else if s[0] == '"' then
      if |s| >= 2 && s[1] == '"' then
        match ParseQuoted(s[2..])
        case None => None
        case Some((f, rest)) => Some(("\"" + f, rest))
      else Some(([], s[1..]))
    else
      match ParseQuoted(s[1..])
      case None => None
      case Some((f, rest)) => Some(([s[0]] + f, rest))
  }

  function ParseField(s: string): (r: Option<(string, string)>)
    ensures r.Some? ==> |r.value.1| <= |s|
  {
    if s != [] && s[0] == '"' then ParseQuoted(s[1..]) else Some(ParseBare(s))
  }

  function ParseRecord(s: string): (r: Option<(seq<string>, string)>)
    ensures r.Some? ==> |r.value.1| <= |s|
    decreases |s|
  {
    match ParseField(s)
    case None => None
    case Some((f, rest)) =>
      if rest != [] && rest[0] == ',' then
        match ParseRecord(rest[1..])
        case None => None
        case Some((fs, rest')) => Some(([f] + fs, rest'))
      else Some(([f], rest))
  }

  /** Reads records separated by "\n" up to the end of the text. */
  function ParseCsv(s: string): Option<seq<seq<string>>>
    decreases |s|
  {
    match ParseRecord(s)
    case None => None
    case Some((rec, rest)) =>
      if rest == [] then Some([rec])
      else if rest[0] == '\n' then
        match ParseCsv(rest[1..])
        case None => None
        case Some(recs) => Some([rec] + recs)
      else None
  }

  predicate EndsField(rest: string) {
    rest == [] || rest[0] == ',' || rest[0] == '\n'
  }

  lemma {:induction false} BareRoundTrip(f: string, rest: string)
    requires !NeedsQuotes(f) && EndsField(rest)
    ensures ParseBare(f + rest) == (f, rest)
  {
    if f != [] {
      assert (f + rest)[1..] == f[1..] + rest;
      BareRoundTrip(f[1..], rest);
      assert [f[0]] + f[1..] == f;
    } else {
      assert f + rest == rest;
    }
  }

  lemma {:induction false} QuotedRoundTrip(f: string, rest: string)
    requires rest == [] || rest[0] != '"'
    ensures ParseQuoted(DoubleQuotes(f) + "\"" + rest) == Some((f, rest))
  {
    var s := DoubleQuotes(f) + "\"" + rest;
    if f == [] {
      assert s == "\"" + rest && s[1..] == rest;
    } else if f[0] == '"' {
      QuotedRoundTrip(f[1..], rest);
      assert s == "\"\"" + (DoubleQuotes(f[1..]) + "\"" + rest);
      assert s[2..] == DoubleQuotes(f[1..]) + "\"" + rest;
      assert "\"" + f[1..] == f;
    } else {
      QuotedRoundTrip(f[1..], rest);
      assert s == [f[0]] + (DoubleQuotes(f[1..]) + "\"" + rest);
      assert s[1..] == DoubleQuotes(f[1..]) + "\"" + rest;
      assert [f[0]] + f[1..] == f;
    }
  }

  /** A quoted field reads back as itself, whatever follows it. */
  lemma QuotedFieldRoundTrip(f: string, rest: string)
    requires EndsField(rest)
    ensures ParseField("\"" + DoubleQuotes(f) + "\"" + rest) == Some((f, rest))
  {
    var s := "\"" + DoubleQuotes(f) + "\"" + rest;
    assert s[1..] == DoubleQuotes(f) + "\"" + rest;
    QuotedRoundTrip(f, rest);
  }

  /** A field written by `Escape` reads back as itself. */
  lemma FieldRoundTrip(f: string, rest: string)
    requires EndsField(rest)
    ensures ParseField(Escape(f) + rest) == Some((f, rest))
  {
    if NeedsQuotes(f) {
      QuotedFieldRoundTrip(f, rest);
    } else {
      BareRoundTrip(f, rest);
      if f == [] {
        assert f + rest == rest;
      }
    }
  }

  /** An encoded record of two or more fields: the first field, a comma,
      the rest. */
  lemma EncodeRowCons(fields: seq<string>)
    requires |fields| >= 2
    ensures EncodeRow(fields) == Escape(fields[0]) + "," + EncodeRow(fields[1..])
  {
    var esc := seq(|fields|, i requires 0 <= i < |fields| => Escape(fields[i]));
    assert seq(|fields[1..]|, i requires 0 <= i < |fields[1..]| => Escape(fields[1..][i])) == esc[1..];
  }

  lemma {:induction false} RecordRoundTrip(fields: seq<string>, rest: string)
    requires fields != []
    requires rest == [] || rest[0] == '\n'
    ensures ParseRecord(EncodeRow(fields) + rest) == Some((fields, rest))
    decreases |fields|
  {
    if |fields| == 1 {
      assert EncodeRow(fields) == Escape(fields[0]);
      FieldRoundTrip(fields[0], rest);
      assert fields == [fields[0]];
    } else {
      var tail := EncodeRow(fields[1..]);
      EncodeRowCons(fields);
      var after := "," + (tail + rest);
      ConcatAssoc(Escape(fields[0]) + ",", tail, rest);
      ConcatAssoc(Escape(fields[0]), ",", tail + rest);
      FieldRoundTrip(fields[0], after);
      ConcatParts(",", tail + rest);
      RecordRoundTrip(fields[1..], rest);
      assert [fields[0]] + fields[1..] == fields;
    }
  }

  /** The first record of a text of two or more rows, and the rest. */
  lemma EncodeCons(table: seq<seq<string>>)
    requires |table| >= 2
    ensures Encode(table) == EncodeRow(table[0]) + ("\n" + Encode(table[1..]))
  {
    var lines := seq(|table|, i requires 0 <= i < |table| => EncodeRow(table[i]));
    assert seq(|table[1..]|, i requires 0 <= i < |table[1..]| => EncodeRow(table[1..][i])) == lines[1..];
  }

  lemma ParseCsvCons(s: string, rec: seq<string>, tail: string, recs: seq<seq<string>>)
    requires ParseRecord(s + ("\n" + tail)) == Some((rec, "\n" + tail))
    requires ParseCsv(tail) == Some(recs)
    ensures ParseCsv(s + ("\n" + tail)) == Some([rec] + recs)
  {
    assert ("\n" + tail)[1..] == tail;
  }

  lemma {:induction false} RecordsRoundTrip(table: seq<seq<string>>)
    requires table != []
    requires forall i :: 0 <= i < |table| ==> table[i] != []
    ensures ParseCsv(Encode(table)) == Some(table)
    decreases |table|
  {
    if |table| == 1 {
      assert Encode(table) == EncodeRow(table[0]);
      RecordRoundTrip(table[0], []);
      assert EncodeRow(table[0]) + [] == EncodeRow(table[0]);
      assert table == [table[0]];
    } else {
      var tail := Encode(table[1..]);
      EncodeCons(table);
      RecordRoundTrip(table[0], "\n" + tail);
      RecordsRoundTrip(table[1..]);
      ParseCsvCons(EncodeRow(table[0]), table[0], tail, table[1..]);
      assert [table[0]] + table[1..] == table;
    }
  }

  /* ---------------- the download command ---------------- */

  /** What one `downloadCSV` run ends with. */
  datatype Download =
    | CsvFile(text: string, seriesCount: nat, rowCount: nat, filename: string)
    | HighchartsExport(seriesCount: nat)
    | NoChartData

  /** `${meta.ticker || "TIKR"}_${tab}_chart.csv`, where the tab parameter
      falls back to "data" when absent or empty: the ticker (or "TIKR"), a
      `_`, the tab (or "data"), then "_chart.csv". */
  function FileName(ticker: string, tab: Option<string>): (r: string)
    ensures var t := if ticker == [] then "TIKR" else ticker;
            |r| > |t| && r[..|t| + 1] == t + "_"
    ensures var p := if tab.None? || tab.value == [] then "data" else tab.value;
            |r| >= |p| + 10 && r[|r| - |p| - 10..] == p + "_chart.csv"
    ensures |r| == (if ticker == [] then 4 else |ticker|) + (if tab.None? || tab.value == [] then 4 else |tab.value|) + 11
  {
    var t := if ticker == [] then "TIKR" else ticker;
    var p := if tab.None? || tab.value == [] then "data" else tab.value;
    var r := t + "_" + p + "_chart.csv";
    assert r == (t + "_") + (p + "_chart.csv");
    ConcatParts(t + "_", p + "_chart.csv");
    r
  }

  /** `downloadCSV`: the chart component's `selectedrows` when that is a
      non-empty array (`selected`), else Highcharts' own export when a chart
      with `downloadCSV` is on the page (`highcharts` holds its series
      count), else nothing. */
  function DownloadCsv(selected: Option<seq<Series>>, highcharts: Option<nat>, ticker: string,
                       tab: Option<string>, isoDay: int -> string): (r: Download)
    ensures r.CsvFile? <==> selected.Some? && selected.value != []
    ensures r.HighchartsExport? <==> (selected.None? || selected.value == []) && highcharts.Some?
    ensures r.CsvFile? ==> r.seriesCount == |selected.value| && r.rowCount == |Dates(selected.value)|
                           && r.filename == FileName(ticker, tab)
    ensures r.HighchartsExport? ==> r.seriesCount == highcharts.value
  {
    if selected.Some? && selected.value != [] then
      var series := selected.value;
      CsvFile(ToCsv(series, isoDay), |series|, |Dates(series)|, FileName(ticker, tab))
    else if highcharts.Some? then HighchartsExport(highcharts.value)
    else NoChartData
  }

  /** The saved file reads back as a header naming every series in order,
      then exactly as many records as the reported row count, each a date
      followed by one field per series. */
  lemma DownloadReadsBack(selected: Option<seq<Series>>, highcharts: Option<nat>, ticker: string,
                          tab: Option<string>, isoDay: int -> string)
    ensures var d := DownloadCsv(selected, highcharts, ticker, tab, isoDay);
            d.CsvFile? ==>
              exists t :: ParseCsv(d.text) == Some(t)
                && |t| == d.rowCount + 1
                && t[0] == HeaderRow(selected.value)
                && forall i :: 0 <= i < |t| ==> |t[i]| == d.seriesCount + 1
  {
    var d := DownloadCsv(selected, highcharts, ticker, tab, isoDay);
    if d.CsvFile? {
      var t := CsvTable(selected.value, isoDay);
      assert ParseCsv(d.text) == Some(t);
    }
  }
}

=== FILE: endtoend.dfy ===
/**
  The pieces put together along the path of a scrape: the panel's request
  reaches the worker, waits there until the tab's content script is ready,
  crosses to the page world and starts `run`; every message `run` produces
  crosses back over the bridge and is re-broadcast to the panel.

  The structured clone of the messaging layer and the JSON text of the
  bridge are taken to carry a value unchanged.
 */
module EndToEnd {
  import opened Options
  import opened Json
  import Relay
  import Content
  import MainBridge
  import Orchestrator

  /** `{ type: "SCRAPE_START", tabId, jobs, period, runId }` from the panel. */
  function ScrapeStart(tab: Json, jobs: seq<Json>, period: Json, runId: Json): Json {
    JObj([("type", JStr("SCRAPE_START")), ("tabId", tab), ("jobs", JArr(jobs)), ("period", period), ("runId", runId)])
  }

  lemma ScrapeStartFields(tab: Json, jobs: seq<Json>, period: Json, runId: Json)
    ensures var m := ScrapeStart(tab, jobs, period, runId);
            && Relay.TypeOf(m) == "SCRAPE_START"
            && Get(m, "tabId") == Some(tab) && Get(m, "jobs") == Some(JArr(jobs))
            && Get(m, "period") == Some(period) && Get(m, "runId") == Some(runId)
  {
    var fields := [("type", JStr("SCRAPE_START")), ("tabId", tab), ("jobs", JArr(jobs)), ("period", period), ("runId", runId)];
    FieldOfAt(fields, 0, "type");
    FieldOfAt(fields, 1, "tabId");
    FieldOfAt(fields, 2, "jobs");
    FieldOfAt(fields, 3, "period");
    FieldOfAt(fields, 4, "runId");
  }

  /** The command the worker keeps for a scrape request. */
  function ScrapeCommand(tab: Json, jobs: seq<Json>, period: Json, runId: Json): Json {
    Relay.CommandFor("SCRAPE_START", ScrapeStart(tab, jobs, period, runId))
  }

  /** The worker's side: the request injects the scripts, and the tab's
      ready signal delivers the kept command to that tab. */
  lemma RequestThenReady(pending: Relay.Pending, tab: Json, jobs: seq<Json>, period: Json, runId: Json)
    requires Truthy(Some(tab))
    ensures var h1 := Relay.Handle(pending, ScrapeStart(tab, jobs, period, runId), None);
            var h2 := Relay.Handle(h1.pending, Relay.Ready, Some(tab));
            && h1.effects == [Relay.Inject(tab, OrElse(Some(runId), JNull))]
            && h2.effects == [Relay.Deliver(tab, ScrapeCommand(tab, jobs, period, runId))]
  {
    var m := ScrapeStart(tab, jobs, period, runId);
    var cmd := ScrapeCommand(tab, jobs, period, runId);
    ScrapeStartFields(tab, jobs, period, runId);
    assert Relay.IsRequest(Relay.TypeOf(m));
    assert Relay.RequestTab(m, None) == Some(tab);
    var h1 := Relay.Handle(pending, m, None);
    assert h1 == Relay.Handled(pending[tab := cmd], Relay.Ok, [Relay.Inject(tab, OrElse(Some(runId), JNull))]);
    ReadyFromTab(h1.pending, tab);
  }

  /** The ready signal from a tab with a kept command delivers it. */
  lemma ReadyFromTab(pending: Relay.Pending, tab: Json)
    requires Truthy(Some(tab)) && tab in pending
    ensures Relay.Handle(pending, Relay.Ready, Some(tab)).effects == [Relay.Deliver(tab, pending[tab])]
  {
    assert Relay.TypeOf(Relay.Ready) == "CONTENT_READY";
    assert Relay.ReadyTab(Relay.Ready, Some(tab)) == Some(tab);
    Relay.ReadyDeliversOnce(pending, Relay.Ready, Some(tab));
  }

  /** The tab's side: the content script forwards the command and the page
      world starts `run` with the requested jobs, and with the requested
      period and run id or, when those are falsy, "annual" and `null`. */
  lemma CommandReachesRun(tab: Json, jobs: seq<Json>, period: Json, runId: Json, s: Content.Isolated)
    requires Content.Single(s) && s.picks != []
    ensures var cmd := ScrapeCommand(tab, jobs, period, runId);
            && Content.OnMessage(s, cmd).toMain == [cmd]
            && MainBridge.Dispatch(Some(cmd))
                 == MainBridge.StartRun(jobs, OrElse(Some(period), JStr("annual")), OrElse(Some(runId), JNull))
  {
    ScrapeStartFields(tab, jobs, period, runId);
    var cmd := ScrapeCommand(tab, jobs, period, runId);
    assert Content.Forwarded(cmd);
    assert MainBridge.WellShaped(cmd);
  }

  /** A scrape request for a tab, followed by that tab's ready signal, makes
      the latest content script forward the command, and the page world
      starts `run` with the requested jobs, and with the requested period and
      run id or their defaults "annual" and `null`. */
  lemma ScrapeRequestStartsRun(pending: Relay.Pending, tab: Json, jobs: seq<Json>, period: Json, runId: Json,
                               s: Content.Isolated)
    requires Truthy(Some(tab))
    requires Content.Single(s) && s.picks != []
    ensures var h1 := Relay.Handle(pending, ScrapeStart(tab, jobs, period, runId), None);
            var h2 := Relay.Handle(h1.pending, Relay.Ready, Some(tab));
            exists cmd ::
              && h1.effects == [Relay.Inject(tab, OrElse(Some(runId), JNull))]
              && h2.effects == [Relay.Deliver(tab, cmd)]
              && Content.OnMessage(s, cmd).toMain == [cmd]
              && MainBridge.Dispatch(Some(cmd))
                   == MainBridge.StartRun(jobs, OrElse(Some(period), JStr("annual")), OrElse(Some(runId), JNull))
  {
    RequestThenReady(pending, tab, jobs, period, runId);
    CommandReachesRun(tab, jobs, period, runId, s);
    var cmd := ScrapeCommand(tab, jobs, period, runId);
    assert Content.OnMessage(s, cmd).toMain == [cmd];
  }

  /** A result message crosses the bridge once and unchanged, and the
      worker re-broadcasts it without touching what is pending. */
  lemma ResultReachesPanel(m: Json, t: string, s: Content.Isolated, pending: Relay.Pending, sender: Option<Json>)
    requires Relay.IsResult(t) && HasType(m, t)
    requires Content.Single(s) && s.picks != []
    ensures Content.Bridge(s, Some(m)) == [m]
    ensures Relay.Handle(pending, m, sender) == Relay.Handled(pending, Relay.Ok, [Relay.Broadcast(m)])
  {
    assert Relay.TypeOf(m) == t;
    Content.BridgeRelaysOnce(s, Some(m));
  }

  /** Every message of a run reaches the panel that way. */
  lemma RunMessagesReachPanel(keys: seq<Json>, period: Json, runId: Json, title: string, stamp: string,
                              world: nat -> Orchestrator.Outcome, s: Content.Isolated,
                              pending: Relay.Pending, sender: Option<Json>)
    requires Content.Single(s) && s.picks != []
    ensures var events := Orchestrator.Run(keys, period, runId, title, stamp, world).events;
            forall k :: 0 <= k < |events| ==>
              && Content.Bridge(s, Some(events[k])) == [events[k]]
              && Relay.Handle(pending, events[k], sender) == Relay.Handled(pending, Relay.Ok, [Relay.Broadcast(events[k])])
  {
    var events := Orchestrator.Run(keys, period, runId, title, stamp, world).events;
    forall k | 0 <= k < |events|
      ensures Content.Bridge(s, Some(events[k])) == [events[k]]
      ensures Relay.Handle(pending, events[k], sender) == Relay.Handled(pending, Relay.Ok, [Relay.Broadcast(events[k])])
    {
      if k == |events| - 1 {
        ResultReachesPanel(events[k], "SCRAPE_DONE", s, pending, sender);
      } else {
        ResultReachesPanel(events[k], "SCRAPE_PROGRESS", s, pending, sender);
      }
    }
  }
}

=== FILE: json.dfy ===
/**
  The values that cross the extension's messaging boundaries: structured
  clones of JSON-like data. Object fields keep their insertion order; a field
  that is absent reads as `undefined`, written `None` here.
 */
module Json {
  import opened Strings
  import opened Options

  /** JSON-like values. Numbers are modelled as integers: the relay only ever
      looks at tab ids, counts and string tags, never at fractional numbers. */
  datatype Json =
    | JNull
    | JBool(b: bool)
    | JNum(n: int)
    | JStr(s: string)
    | JArr(items: seq<Json>)
    | JObj(fields: seq<(string, Json)>)

  /** `obj[key]` on a plain object; anything else has none of the named fields
      the extension reads (`type`, `tabId`, `jobs`, `period`, `runId`). */
  function Get(v: Json, key: string): (r: Option<Json>)
    ensures r.Some? ==> v.JObj?
  {
    if v.JObj? then FieldOf(v.fields, key) else None
  }

  /** The last binding of `key` wins, as with a repeated key in `JSON.parse`. */
  function FieldOf(fields: seq<(string, Json)>, key: string): (r: Option<Json>)
    ensures r.Some? <==> exists i :: 0 <= i < |fields| && fields[i].0 == key
  {
    if fields == [] then None
    else
      var last := fields[|fields| - 1];
      if last.0 == key then Some(last.1) else FieldOf(fields[..|fields| - 1], key)
  }

  /** The binding a read finds: the one at `i` when no later field reuses the key. */
  lemma {:induction false} FieldOfAt(fields: seq<(string, Json)>, i: nat, key: string)
    requires i < |fields| && fields[i].0 == key
    requires forall j :: i < j < |fields| ==> fields[j].0 != key
    ensures FieldOf(fields, key) == Some(fields[i].1)
    decreases |fields|
  {
    if i != |fields| - 1 {
      FieldOfAt(fields[..|fields| - 1], i, key);
    }
  }

  /** A key whose first letter starts no field name is not found. */
  lemma FieldOfAbsent(fields: seq<(string, Json)>, key: string)
    requires key != []
    requires forall i :: 0 <= i < |fields| ==> fields[i].0 != [] && fields[i].0[0] != key[0]
    ensures FieldOf(fields, key) == None
  {
  }

  /** `msg?.type === t` */
  predicate HasType(v: Json, t: string) {
    Get(v, "type") == Some(JStr(t))
  }

  /** JavaScript truthiness of a possibly-undefined value. */
  predicate Truthy(v: Option<Json>) {
    match v
    case None => false
    case Some(JNull) => false
    case Some(JBool(b)) => b
    case Some(JNum(n)) => n != 0
    case Some(JStr(s)) => s != ""
    case Some(_) => true
  }

  /** `v || fallback` */
  function OrElse(v: Option<Json>, fallback: Json): (r: Json)
    ensures Truthy(v) ==> r == v.value
    ensures !Truthy(v) ==> r == fallback
  {
    if Truthy(v) then v.value else fallback
  }

  /** `v ?? fallback`: only `null` and `undefined` are replaced. */
  function Coalesce(v: Option<Json>, fallback: Option<Json>): (r: Option<Json>)
    ensures v.Some? && v.value != JNull ==> r == v
    ensures (v.None? || v.value == JNull) ==> r == fallback
  {
    if v.Some? && v.value != JNull then v else fallback
  }

  /** `String(v)`, as used by template literals and property-key lookup. */
  function ToText(v: Json): string
    decreases v
  {
    match v
    case JNull => "null"
    case JBool(b) => if b then "true" else "false"
    case JNum(n) => IntToString(n)
    case JStr(s) => s
    case JArr(items) =>
      Join(seq(|items|, i requires 0 <= i < |items| => if items[i] == JNull then "" else ToText(items[i])), ",")
    case JObj(_) => "[object Object]"
  }

  /** The names every plain object inherits from `Object.prototype`; looking
      one of them up on an object literal finds an inherited member, never
      `undefined`. */
  predicate InheritedKey(k: string) {
    k in {"constructor", "__defineGetter__", "__defineSetter__", "hasOwnProperty",
          "__lookupGetter__", "__lookupSetter__", "isPrototypeOf", "propertyIsEnumerable",
          "toString", "valueOf", "__proto__", "toLocaleString"}
  }
}

=== FILE: mainbridge.dfy ===
/**
  The page-world end of the bridge: the `__tikr_to_main` listener that turns
  a forwarded command into a call of `run`, `tableAddAll` or `downloadCSV`,
  and the `window.__tikrScraper` guard that keeps a second injection of the
  script from registering a second listener.

  `JSON.parse` of the event's detail is an input: the value it yields, or
  nothing when it throws.
 */
module MainBridge {
  import opened Options
  import opened Json

  /** What the listener starts. */
  datatype Start =
    | StartRun(jobs: seq<Json>, period: Json, runId: Json)
    | StartAddAll(runId: Json)
    | StartDownload(runId: Json)
    | Ignore

  /** `!msg || typeof msg !== "object" || typeof msg.type !== "string"` fails:
      an object (arrays have no `type`) with a string `type`. */
  predicate WellShaped(msg: Json) {
    msg.JObj? && Get(msg, "type").Some? && Get(msg, "type").value.JStr?
  }

  /** The listener on one event whose detail parsed to `parsed`. */
  function Dispatch(parsed: Option<Json>): (r: Start)
    ensures parsed.None? ==> r.Ignore?
    ensures parsed.Some? && !WellShaped(parsed.value) ==> r.Ignore?
    ensures r.StartRun? <==> parsed.Some? && HasType(parsed.value, "SCRAPE_CMD")
                             && Get(parsed.value, "jobs").Some? && Get(parsed.value, "jobs").value.JArr?
    ensures r.StartRun? ==> r.jobs == Get(parsed.value, "jobs").value.items
                            && r.period == OrElse(Get(parsed.value, "period"), JStr("annual"))
                            && r.runId == OrElse(Get(parsed.value, "runId"), JNull)
    ensures r.StartAddAll? <==> parsed.Some? && HasType(parsed.value, "TABLE_ADD_ALL_CMD")
    ensures r.StartDownload? <==> parsed.Some? && HasType(parsed.value, "DOWNLOAD_CSV_CMD")
    ensures (r.StartAddAll? || r.StartDownload?) ==> r.runId == OrElse(Get(parsed.value, "runId"), JNull)
  {
    if parsed.None? || !WellShaped(parsed.value) then Ignore
    else
      var msg := parsed.value;
      var t := Get(msg, "type").value.s;
      if t == "SCRAPE_CMD" then
        match Get(msg, "jobs")
        case Some(JArr(jobs)) => StartRun(jobs, OrElse(Get(msg, "period"), JStr("annual")), OrElse(Get(msg, "runId"), JNull))
        case _ => Ignore
      else if t == "TABLE_ADD_ALL_CMD" then StartAddAll(OrElse(Get(msg, "runId"), JNull))
      else if t == "DOWNLOAD_CSV_CMD" then StartDownload(OrElse(Get(msg, "runId"), JNull))
      else Ignore
  }

  /** A command object with the given type and fields after it. */
  function Command(t: string, rest: seq<(string, Json)>): Json {
    JObj([("type", JStr(t))] + rest)
  }

  /** A scrape command as the relay builds it reaches `run` with its own jobs,
      period and run id, whatever those are, as long as the period and the
      run id are truthy. */
  lemma ScrapeCommandStartsRun(jobs: seq<Json>, period: Json, runId: Json)
    requires Truthy(Some(period)) && Truthy(Some(runId))
    ensures Dispatch(Some(Command("SCRAPE_CMD", [("jobs", JArr(jobs)), ("period", period), ("runId", runId)])))
              == StartRun(jobs, period, runId)
  {
    var fields := [("type", JStr("SCRAPE_CMD")), ("jobs", JArr(jobs)), ("period", period), ("runId", runId)];
    assert [("type", JStr("SCRAPE_CMD"))] + [("jobs", JArr(jobs)), ("period", period), ("runId", runId)] == fields;
    FieldOfAt(fields, 0, "type");
    FieldOfAt(fields, 1, "jobs");
    FieldOfAt(fields, 2, "period");
    FieldOfAt(fields, 3, "runId");
  }

  /** A falsy period becomes "annual", a falsy run id `null`. */
  lemma ScrapeDefaults(jobs: seq<Json>)
    ensures Dispatch(Some(Command("SCRAPE_CMD", [("jobs", JArr(jobs)), ("period", JStr("")), ("runId", JNum(0))])))
              == StartRun(jobs, JStr("annual"), JNull)
  {
    var f1 := [("type", JStr("SCRAPE_CMD")), ("jobs", JArr(jobs)), ("period", JStr("")), ("runId", JNum(0))];
    assert [("type", JStr("SCRAPE_CMD"))] + [("jobs", JArr(jobs)), ("period", JStr("")), ("runId", JNum(0))] == f1;
    FieldOfAt(f1, 0, "type");
    FieldOfAt(f1, 1, "jobs");
    FieldOfAt(f1, 2, "period");
    FieldOfAt(f1, 3, "runId");
  }

  /** A missing period becomes "annual", a missing run id `null`. */
  lemma MissingDefaults(jobs: seq<Json>)
    ensures Dispatch(Some(Command("SCRAPE_CMD", [("jobs", JArr(jobs))])))
              == StartRun(jobs, JStr("annual"), JNull)
  {
    var f2 := [("type", JStr("SCRAPE_CMD")), ("jobs", JArr(jobs))];
    assert [("type", JStr("SCRAPE_CMD"))] + [("jobs", JArr(jobs))] == f2;
    FieldOfAt(f2, 0, "type");
    FieldOfAt(f2, 1, "jobs");
    FieldOfAbsent(f2, "period");
    FieldOfAbsent(f2, "runId");
  }

  /** A scrape command whose jobs are not an array starts nothing. */
  lemma NonArrayJobsIgnored(msg: Json)
    requires HasType(msg, "SCRAPE_CMD")
    requires Get(msg, "jobs").None? || !Get(msg, "jobs").value.JArr?
    ensures Dispatch(Some(msg)) == Ignore
  {
  }

  /** The page world's script state: whether `window.__tikrScraper` is set,
      and how many `__tikr_to_main` listeners are registered. */
  datatype MainWorld = MainWorld(present: bool, listeners: nat)

  /** One injection of the script: it stops at once when the scraper is
      already present, and otherwise registers its listener and publishes
      itself. */
  function InjectScraper(w: MainWorld): (r: MainWorld)
    ensures r.present
    ensures w.present ==> r == w
    ensures !w.present ==> r.listeners == w.listeners + 1
  {
    if w.present then w else MainWorld(true, w.listeners + 1)
  }

  /** Any number of injections into a fresh page leave exactly one listener,
      so a forwarded command starts its job once. */
  method InjectTimes(n: nat) returns (w: MainWorld)
    requires n >= 1
    ensures w == MainWorld(true, 1)
  {
    w := MainWorld(false, 0);
    var i := 0;
    while i < n
      invariant 0 <= i <= n
      invariant i == 0 ==> w == MainWorld(false, 0)
      invariant i > 0 ==> w == MainWorld(true, 1)
    {
      w := InjectScraper(w);
      i := i + 1;
    }
  }
}

=== FILE: markdown.dfy ===
/**
  Table → Markdown serialisation, as done by `tableToMarkdown` in the page
  world and by its copy `tableToMd` in the isolated world. A table is its
  `<tr>` rows, each the `innerText` of its `th`/`td` cells. The output is a
  pipe table in the shape of section 4.10 ("Tables (extension)") of the
  GitHub-Flavored Markdown specification: header row, delimiter row of `---`,
  body rows.

  The partner of the serialiser is `ParseMarkdown`, a reader of such pipe
  tables; the round-trip lemma says the text reads back as the uniformly
  padded table of cleaned cells.
 */
module Markdown {
  import opened Strings
  import opened Options
  import opened Json

  /** Rows of cell texts, in document order. */
  type Table = seq<seq<string>>

  /* ---------------- cell normalisation ---------------- */

  /** `norm` of the page world: collapse white space, trim, escape pipes. */
  function MainNorm(s: string): string {
    EscapePipes(Clean(s))
  }

  /** What the isolated-world `esc`/`norm` turn their argument into before
      anything else: `null`/`undefined` give "", everything else `String(v)`. */
  function ContentText(v: Option<Json>): string {
    if v.None? || v.value == JNull then "" else ToText(v.value)
  }

  /** `esc` of the isolated world: escape pipes, then trim. */
  function ContentEsc(v: Option<Json>): string {
    Trim(EscapePipes(ContentText(v)))
  }

  /** Escaping a cleaned cell leaves nothing for `esc`'s trim to remove. */
  lemma EscOfClean(c: string)
    requires NoSpaceEnds(c)
    ensures ContentEsc(Some(JStr(c))) == EscapePipes(c)
  {
    assert ContentText(Some(JStr(c))) == c;
    var e := EscapePipes(c);
    EscapeKeepsEnds(c);
    TrimNoOp(e);
  }

  /** `norm` of the isolated world. The extra trim after escaping never
      changes a cleaned cell, and absent values become "". */
  function ContentNorm(v: Option<Json>): (r: string)
    ensures r == EscapePipes(Clean(ContentText(v)))
    ensures v.None? || v == Some(JNull) ==> r == ""
  {
    var cleaned := Clean(ContentText(v));
    EscOfClean(cleaned);
    CleanEmpty();
    ContentEsc(Some(JStr(cleaned)))
  }

  /** On the strings `innerText` yields, the two normalisers agree. */
  lemma ContentNormAgrees(s: string)
    ensures ContentNorm(Some(JStr(s))) == MainNorm(s)
  {
  }

  function MapRow(row: seq<string>, f: string -> string): (r: seq<string>)
    ensures |r| == |row|
    ensures forall j :: 0 <= j < |row| ==> r[j] == f(row[j])
  {
    seq(|row|, j requires 0 <= j < |row| => f(row[j]))
  }

  function MapCells(t: Table, f: string -> string): (r: Table)
    ensures |r| == |t|
    ensures forall i :: 0 <= i < |t| ==> r[i] == MapRow(t[i], f)
  {
    seq(|t|, i requires 0 <= i < |t| => MapRow(t[i], f))
  }

  function ContentCell(s: string): string {
    ContentNorm(Some(JStr(s)))
  }

  /* ---------------- the serialiser ---------------- */

  /** A row survives when it has a cell and not every cell is empty. */
  predicate Keep(cells: seq<string>) {
    |cells| > 0 && exists i :: 0 <= i < |cells| && cells[i] != ""
  }

  /** The rows that survive normalisation, in their original order. */
  function KeptRows(rows: Table): (r: Table)
    ensures |r| <= |rows|
    ensures forall i :: 0 <= i < |r| ==> Keep(r[i])
    ensures forall row :: row in r <==> row in rows && Keep(row)
  {
    if rows == [] then []
    else if Keep(rows[0]) then [rows[0]] + KeptRows(rows[1..])
    else KeptRows(rows[1..])
  }

  /** For each row, whether it survives. */
  function KeepFlags(rows: Table): (f: seq<bool>)
    ensures |f| == |rows| && forall i :: 0 <= i < |rows| ==> f[i] == Keep(rows[i])
  {
    seq(|rows|, i requires 0 <= i < |rows| => Keep(rows[i]))
  }

  /** Filtering a table with one more row at its end. */
  lemma {:induction false} KeptRowsSnoc(rows: Table)
    requires rows != []
    ensures var last := rows[|rows| - 1];
            KeptRows(rows) == KeptRows(rows[..|rows| - 1]) + (if Keep(last) then [last] else [])
    decreases |rows|
  {
    if |rows| > 1 {
      KeptRowsSnoc(rows[1..]);
      assert rows[1..][..|rows| - 2] == rows[..|rows| - 1][1..];
      assert rows[..|rows| - 1][0] == rows[0];
    }
  }

  /** The flags of a table without its last row are the flags' prefix. */
  lemma KeepFlagsPrefix(rows: Table)
    requires rows != []
    ensures KeepFlags(rows)[..|rows| - 1] == KeepFlags(rows[..|rows| - 1])
  {
  }

  /** The positions of flags with one more flag at the end. */
  lemma PositionsSnoc(flags: seq<bool>)
    requires flags != []
    ensures Positions(flags) == Positions(flags[..|flags| - 1]) + (if flags[|flags| - 1] then [|flags| - 1] else [])
  {
  }

  /** Each surviving row sits at the next surviving position. */
  lemma {:induction false} KeptRowsAtPositions(rows: Table)
    ensures var idx := Positions(KeepFlags(rows));
            |KeptRows(rows)| == |idx| && forall k :: 0 <= k < |idx| ==> KeptRows(rows)[k] == rows[idx[k]]
    decreases |rows|
  {
    if rows != [] {
      var n := |rows|;
      var pre := rows[..n - 1];
      KeptRowsAtPositions(pre);
      KeptRowsSnoc(rows);
      KeepFlagsPrefix(rows);
      PositionsSnoc(KeepFlags(rows));
      IndexedAppend(rows, KeptRows(pre), Positions(KeepFlags(pre)), Keep(rows[n - 1]),
                    KeptRows(rows), Positions(KeepFlags(rows)));
    }
  }

  /** Rows read at positions below the last one, extended by the last row
      at the last position or by nothing. */
  lemma IndexedAppend(rows: Table, kept0: Table, idx0: seq<nat>, add: bool, kept: Table, idx: seq<nat>)
    requires rows != [] && |kept0| == |idx0|
    requires forall k :: 0 <= k < |idx0| ==> idx0[k] < |rows| - 1 && kept0[k] == rows[..|rows| - 1][idx0[k]]
    requires kept == kept0 + (if add then [rows[|rows| - 1]] else [])
    requires idx == idx0 + (if add then [|rows| - 1] else [])
    ensures |kept| == |idx| && forall k :: 0 <= k < |idx| ==> kept[k] == rows[idx[k]]
  {
  }

  /** The surviving rows are the rows at the surviving positions, in table
      order and each once, and no surviving row is left out. */
  lemma KeptRowsInOrder(rows: Table)
    ensures var idx := Positions(KeepFlags(rows));
            |KeptRows(rows)| == |idx| && forall k :: 0 <= k < |idx| ==> KeptRows(rows)[k] == rows[idx[k]]
    ensures forall i :: 0 <= i < |rows| && Keep(rows[i]) ==> i in Positions(KeepFlags(rows))
  {
    KeptRowsAtPositions(rows);
    forall i | 0 <= i < |rows| && Keep(rows[i])
      ensures i in Positions(KeepFlags(rows))
    {
      PositionsComplete(KeepFlags(rows), i);
    }
  }

  /** `Math.max(...rows.map((r) => r.length))` */
  function Width(rows: Table): (w: nat)
    requires rows != []
    ensures forall i :: 0 <= i < |rows| ==> |rows[i]| <= w
    ensures exists i :: 0 <= i < |rows| && |rows[i]| == w
  {
    if |rows| == 1 then |rows[0]|
    else
      var w' := Width(rows[1..]);
      assert forall i :: 1 <= i < |rows| ==> rows[i] == rows[1..][i - 1];
      if |rows[0]| >= w' then |rows[0]| else w'
  }

  /** A row padded on the right with empty cells to width `w`. */
  function Pad(row: seq<string>, w: nat): (r: seq<string>)
    requires |row| <= w
    ensures |r| == w
    ensures forall j :: 0 <= j < w ==> r[j] == (if j < |row| then row[j] else "")
  {
    row + seq(w - |row|, _ => "")
  }

  /** The delimiter row. */
  function Separator(w: nat): (r: seq<string>)
    ensures |r| == w && forall j :: 0 <= j < w ==> r[j] == "---"
  {
    seq(w, _ => "---")
  }

  /** The rows of the emitted lines: padded header, separator, padded body. */
  function Lines(rows: Table): (r: Table)
    requires rows != []
    ensures |r| == |rows| + 1
    ensures r[0] == Pad(rows[0], Width(rows)) && r[1] == Separator(Width(rows))
    ensures forall k :: 1 <= k < |rows| ==> r[k + 1] == Pad(rows[k], Width(rows))
  {
    var w := Width(rows);
    [Pad(rows[0], w), Separator(w)] + seq(|rows| - 1, i requires 0 <= i < |rows| - 1 => Pad(rows[i + 1], w))
  }

  /** The cell matrix of the emitted lines: every line `Width` cells wide,
      the separator all `---`, and row `k` of the input at line 0 (`k` = 0)
      or `k` + 1, padded with "". */
  lemma LinesCells(rows: Table)
    requires rows != []
    ensures forall i :: 0 <= i < |Lines(rows)| ==> |Lines(rows)[i]| == Width(rows)
    ensures forall j :: 0 <= j < Width(rows) ==> Lines(rows)[1][j] == "---"
    ensures forall k, j :: 0 <= k < |rows| && 0 <= j < Width(rows) ==>
              Lines(rows)[if k == 0 then 0 else k + 1][j] == (if j < |rows[k]| then rows[k][j] else "")
  {
    var r := Lines(rows);
    forall i | 0 <= i < |r|
      ensures |r[i]| == Width(rows)
    {
      if i >= 2 {
        assert r[i] == Pad(rows[i - 1], Width(rows));
      }
    }
  }

  /** `` `| ${r.join(" | ")} |` `` */
  function RenderLine(cells: seq<string>): string {
    "| " + Join(cells, " | ") + " |"
  }

  function Render(lines: Table): string {
    Join(seq(|lines|, i requires 0 <= i < |lines| => RenderLine(lines[i])), "\n")
  }

  /** The common body of `tableToMarkdown` and `tableToMd`, given the
      normalised cells. */
  function Serialize(cells: Table): string {
    var kept := KeptRows(cells);
    if kept == [] then "" else Render(Lines(kept))
  }

  /** `tableToMarkdown` (page world). */
  function TableToMarkdown(t: Table): (r: string)
    ensures r == "" <==> KeptRows(MapCells(t, MainNorm)) == []
  {
    var kept := KeptRows(MapCells(t, MainNorm));
    if kept == [] then Serialize(MapCells(t, MainNorm))
    else RenderNonEmpty(Lines(kept)); Serialize(MapCells(t, MainNorm))
  }

  /** `tableToMd` (isolated world): empty exactly when no row survives its
      own normalisation and filter. */
  function TableToMd(t: Table): (r: string)
    ensures r == "" <==> KeptRows(MapCells(t, ContentCell)) == []
  {
    var kept := KeptRows(MapCells(t, ContentCell));
    if kept == [] then Serialize(MapCells(t, ContentCell))
    else RenderNonEmpty(Lines(kept)); Serialize(MapCells(t, ContentCell))
  }

  /** The isolated-world copy produces exactly the page-world text. */
  lemma TableToMdAgrees(t: Table)
    ensures TableToMd(t) == TableToMarkdown(t)
  {
    forall i, j | 0 <= i < |t| && 0 <= j < |t[i]|
      ensures MapCells(t, ContentCell)[i][j] == MapCells(t, MainNorm)[i][j]
    {
      ContentNormAgrees(t[i][j]);
    }
    forall i | 0 <= i < |t|
      ensures MapCells(t, ContentCell)[i] == MapCells(t, MainNorm)[i]
    {
    }
    assert MapCells(t, ContentCell) == MapCells(t, MainNorm);
  }

  /** The shape promised for every non-empty result: one line per surviving
      row plus the separator, each line `Width` cells wide, the separator all
      `---`, and every surviving row in place, padded on the right with "". */
  lemma MarkdownShape(t: Table)
    requires KeptRows(MapCells(t, MainNorm)) != []
    ensures var kept := KeptRows(MapCells(t, MainNorm));
            var lines := Lines(kept);
            && TableToMarkdown(t) == Render(lines)
            && |lines| == |kept| + 1
            && (forall i :: 0 <= i < |lines| ==> |lines[i]| == Width(kept))
            && lines[1] == Separator(Width(kept))
            && (forall k :: 0 <= k < |kept| ==> |kept[k]| <= Width(kept))
            && (exists k :: 0 <= k < |kept| && |kept[k]| == Width(kept))
  {
    var kept := KeptRows(MapCells(t, MainNorm));
    LinesCells(kept);
  }

  /* ---------------- the reader (partner) ---------------- */

  /** Splits a row at its cell delimiters: a `|` not preceded by a backslash.
      `esc` says whether the previous character was a backslash. */
  function SplitCells(s: string, esc: bool): (r: seq<string>)
    ensures |r| >= 1
  {
    if s == [] then [[]]
    else
      var rest := SplitCells(s[1..], s[0] == '\\');
      if s[0] == '|' && !esc then [[]] + rest else [[s[0]] + rest[0]] + rest[1..]
  }

  /** The cells of one row: the text between the outer pipes, each piece
      trimmed and unescaped. */
  function ParseRow(line: string): seq<string> {
    Inner(SplitCells(line, false))
  }

  /** A cell's text from the piece between its delimiters. */
  function CellText(piece: string): string {
    UnescapePipes(Trim(piece))
  }

  /** The pieces between the first and the last delimiter, trimmed and
      unescaped. */
  function Inner(p: seq<string>): seq<string> {
    if |p| < 2 then [] else MapRow(p[1..|p| - 1], CellText)
  }

  /** Reads a pipe table back into its rows of cells ("" reads as no rows). */
  function ParseMarkdown(text: string): Table {
    if text == "" then []
    else
      var ls := SplitOn(text, '\n');
      seq(|ls|, i requires 0 <= i < |ls| => ParseRow(ls[i]))
  }

  /** Cells as they appear in the emitted text. */
  predicate WellFormedCell(c: string) {
    && '\n' !in c
    && NoSpaceEnds(c)
    && (forall i :: 0 <= i < |c| && c[i] == '|' ==> i > 0 && c[i - 1] == '\\')
  }

  predicate NoDelim(x: string, esc: bool) {
    (x != [] && x[0] == '|' ==> esc) &&
    forall i :: 1 <= i < |x| && x[i] == '|' ==> x[i - 1] == '\\'
  }

  function EndEsc(x: string, esc: bool): bool {
    if x == [] then esc else x[|x| - 1] == '\\'
  }

  /** One step of the splitter, on a text that starts with `c`. */
  lemma SplitCellsCons(c: char, s: string, esc: bool)
    ensures SplitCells([c] + s, esc)
              == if c == '|' && !esc then [[]] + SplitCells(s, c == '\\')
                 else [[c] + SplitCells(s, c == '\\')[0]] + SplitCells(s, c == '\\')[1..]
  {
    assert ([c] + s)[0] == c && ([c] + s)[1..] == s;
  }

  lemma NoDelimTail(x: string, esc: bool)
    requires x != [] && NoDelim(x, esc)
    ensures NoDelim(x[1..], x[0] == '\\')
    ensures EndEsc(x[1..], x[0] == '\\') == EndEsc(x, esc)
  {
    var x' := x[1..];
    if x' != [] && x'[0] == '|' {
      assert x[1] == '|';
    }
    forall i | 1 <= i < |x'| && x'[i] == '|'
      ensures x'[i - 1] == '\\'
    {
      assert x[i + 1] == '|';
    }
  }

  lemma {:induction false} SplitPrefix(x: string, y: string, esc: bool)
    requires NoDelim(x, esc)
    ensures var rest := SplitCells(y, EndEsc(x, esc));
            SplitCells(x + y, esc) == [x + rest[0]] + rest[1..]
  {
    if x == [] {
      var r := SplitCells(y, esc);
      assert x + y == y && x + r[0] == r[0];
      assert r == [r[0]] + r[1..];
    } else {
      var x' := x[1..];
      var b := x[0] == '\\';
      NoDelimTail(x, esc);
      SplitPrefix(x', y, b);
      var r2 := SplitCells(y, EndEsc(x, esc));
      var mid := SplitCells(x' + y, b);
      assert mid[0] == x' + r2[0] && mid[1..] == r2[1..];
      ConsTail(x, y);
      SplitCellsCons(x[0], x' + y, esc);
      assert SplitCells(x + y, esc) == [[x[0]] + mid[0]] + mid[1..];
      ConsTail(x, r2[0]);
    }
  }

  lemma ConsTail(x: string, y: string)
    requires x != []
    ensures x + y == [x[0]] + (x[1..] + y)
  {
  }

  /** The text of a row after its leading `|`. */
  function Tail(cells: seq<string>): string {
    if cells == [] then [] else " " + cells[0] + " |" + Tail(cells[1..])
  }

  lemma {:induction false} JoinTail(cells: seq<string>)
    requires cells != []
    ensures " " + Join(cells, " | ") + " |" == Tail(cells)
    decreases |cells|
  {
    if |cells| > 1 {
      JoinTail(cells[1..]);
      assert " " + Join(cells, " | ") + " |"
          == " " + cells[0] + " |" + (" " + Join(cells[1..], " | ") + " |");
    }
  }

  function Padded(cells: seq<string>): seq<string> {
    seq(|cells|, i requires 0 <= i < |cells| => " " + cells[i] + " ")
  }

  lemma {:induction false} SplitTail(cells: seq<string>)
    requires forall i :: 0 <= i < |cells| ==> WellFormedCell(cells[i])
    ensures SplitCells(Tail(cells), false) == Padded(cells) + [[]]
    decreases |cells|
  {
    if cells != [] {
      var c := cells[0];
      var x := " " + c + " ";
      assert NoDelim(x, false) by {
        forall i | 1 <= i < |x| && x[i] == '|'
          ensures x[i - 1] == '\\'
        {
          assert 1 <= i <= |c| && c[i - 1] == '|';
        }
      }
      SplitTail(cells[1..]);
      var y := "|" + Tail(cells[1..]);
      assert Tail(cells) == x + y;
      SplitPrefix(x, y, false);
      assert EndEsc(x, false) == false;
      assert y[0] == '|' && y[1..] == Tail(cells[1..]);
      assert SplitCells(y, false) == [[]] + SplitCells(Tail(cells[1..]), false);
      assert x + [] == x;
      assert Padded(cells) == [x] + Padded(cells[1..]);
    }
  }

  lemma TrimPadded(c: string)
    requires NoSpaceEnds(c)
    ensures Trim(" " + c + " ") == c
  {
    if c == [] {
      assert " " + c + " " == "  ";
      assert "  "[1..] == " " && " "[1..] == [];
    } else {
      TrimAround(" ", c, " ");
    }
  }

  lemma SplitRendered(cells: seq<string>)
    requires cells != []
    requires forall i :: 0 <= i < |cells| ==> WellFormedCell(cells[i])
    ensures SplitCells(RenderLine(cells), false) == [[]] + Padded(cells) + [[]]
  {
    JoinTail(cells);
    assert RenderLine(cells) == "|" + Tail(cells);
    SplitTail(cells);
    assert ("|" + Tail(cells))[1..] == Tail(cells);
  }

  /** The cells a row yields are its pieces between the outer delimiters. */
  lemma InnerPieces(pieces: seq<string>)
    ensures Inner([[]] + pieces + [[]]) == MapRow(pieces, CellText)
  {
    var p: seq<string> := [[]] + pieces + [[]];
    assert p[1..|p| - 1] == pieces;
  }

  lemma RowRoundTrip(cells: seq<string>)
    requires cells != []
    requires forall i :: 0 <= i < |cells| ==> WellFormedCell(cells[i])
    ensures ParseRow(RenderLine(cells)) == MapRow(cells, UnescapePipes)
  {
    SplitRendered(cells);
    var pieces := Padded(cells);
    InnerPieces(pieces);
    var got := MapRow(pieces, CellText);
    var want := MapRow(cells, UnescapePipes);
    forall i | 0 <= i < |cells|
      ensures got[i] == want[i]
    {
      assert pieces[i] == " " + cells[i] + " ";
      TrimPadded(cells[i]);
    }
    assert got == want;
  }

  lemma {:induction false} JoinStartsWith(parts: seq<string>, sep: string)
    requires parts != []
    ensures |Join(parts, sep)| >= |parts[0]|
  {
  }

  lemma RenderNonEmpty(lines: Table)
    requires lines != []
    ensures Render(lines) != ""
  {
    var ls := seq(|lines|, i requires 0 <= i < |lines| => RenderLine(lines[i]));
    JoinStartsWith(ls, "\n");
  }

  /** Reading the rendered text recovers every line's cells, unescaped. */
  lemma RenderRoundTrip(lines: Table)
    requires lines != []
    requires forall i :: 0 <= i < |lines| ==> lines[i] != []
    requires forall i, j :: 0 <= i < |lines| && 0 <= j < |lines[i]| ==> WellFormedCell(lines[i][j])
    ensures ParseMarkdown(Render(lines)) == MapCells(lines, UnescapePipes)
  {
    var ls := seq(|lines|, i requires 0 <= i < |lines| => RenderLine(lines[i]));
    forall i | 0 <= i < |lines|
      ensures '\n' !in ls[i]
    {
      JoinNoChar(lines[i], " | ", '\n');
    }
    SplitJoin(ls, '\n');
    RenderNonEmpty(lines);
    forall i | 0 <= i < |lines|
      ensures ParseRow(ls[i]) == MapCells(lines, UnescapePipes)[i]
    {
      RowRoundTrip(lines[i]);
    }
  }

  /* ---------------- the round trip of the whole serialiser ---------------- */

  lemma KeepEscaped(row: seq<string>)
    ensures Keep(MapRow(row, EscapePipes)) == Keep(row)
  {
    var e := MapRow(row, EscapePipes);
    if Keep(row) {
      var j :| 0 <= j < |row| && row[j] != "";
      assert e[j] != "";
    }
    if Keep(e) {
      var j :| 0 <= j < |e| && e[j] != "";
      assert row[j] != "";
    }
  }

  lemma MapCellsCons(row: seq<string>, rest: Table, f: string -> string)
    ensures MapCells([row] + rest, f) == [MapRow(row, f)] + MapCells(rest, f)
  {
    var a := MapCells([row] + rest, f);
    var b := [MapRow(row, f)] + MapCells(rest, f);
    forall i | 0 <= i < |a|
      ensures a[i] == b[i]
    {
      if i > 0 {
        assert ([row] + rest)[i] == rest[i - 1];
      }
    }
  }

  lemma KeptRowsCons(c: Table)
    requires c != []
    ensures KeptRows(c) == (if Keep(c[0]) then [c[0]] + KeptRows(c[1..]) else KeptRows(c[1..]))
  {
  }

  lemma {:induction false} KeptEscaped(c: Table)
    ensures KeptRows(MapCells(c, EscapePipes)) == MapCells(KeptRows(c), EscapePipes)
    decreases |c|
  {
    if c != [] {
      var e := MapCells(c, EscapePipes);
      KeepEscaped(c[0]);
      assert e[0] == MapRow(c[0], EscapePipes);
      assert e[1..] == MapCells(c[1..], EscapePipes);
      KeptEscaped(c[1..]);
      KeptRowsCons(e);
      KeptRowsCons(c);
      if Keep(c[0]) {
        MapCellsCons(c[0], KeptRows(c[1..]), EscapePipes);
      }
    }
  }

  lemma PadEscaped(row: seq<string>, w: nat)
    requires |row| <= w
    ensures Pad(MapRow(row, EscapePipes), w) == MapRow(Pad(row, w), EscapePipes)
  {
    assert EscapePipes("") == "";
    var a := Pad(MapRow(row, EscapePipes), w);
    var b := MapRow(Pad(row, w), EscapePipes);
    forall j | 0 <= j < w
      ensures a[j] == b[j]
    {
    }
  }

  lemma SeparatorEscaped(w: nat)
    ensures MapRow(Separator(w), EscapePipes) == Separator(w)
  {
    assert EscapePipes("---") == "---";
  }

  lemma WidthMapped(k: Table, f: string -> string)
    requires k != []
    ensures MapCells(k, f) != [] && Width(MapCells(k, f)) == Width(k)
  {
    var e := MapCells(k, f);
    var i :| 0 <= i < |k| && |k[i]| == Width(k);
    var j :| 0 <= j < |e| && |e[j]| == Width(e);
    assert |e[i]| == |k[i]| && |e[j]| == |k[j]|;
  }

  lemma LinesEscaped(k: Table)
    requires k != []
    ensures MapCells(k, EscapePipes) != []
    ensures Lines(MapCells(k, EscapePipes)) == MapCells(Lines(k), EscapePipes)
  {
    var e := MapCells(k, EscapePipes);
    WidthMapped(k, EscapePipes);
    var w := Width(k);
    var a := Lines(e);
    var b := MapCells(Lines(k), EscapePipes);
    forall i | 0 <= i < |a|
      ensures a[i] == b[i]
    {
      if i == 0 {
        PadEscaped(k[0], w);
      } else if i == 1 {
        SeparatorEscaped(w);
      } else {
        assert a[i] == Pad(e[i - 1], w);
        PadEscaped(k[i - 1], w);
      }
    }
  }

  /** Every cell is free of newlines and of white space at its ends. */
  predicate Tidy(t: Table) {
    forall i, j :: 0 <= i < |t| && 0 <= j < |t[i]| ==> NoSpaceEnds(t[i][j]) && '\n' !in t[i][j]
  }

  lemma {:induction false} KeptTidy(c: Table)
    requires Tidy(c)
    ensures Tidy(KeptRows(c))
    decreases |c|
  {
    if c != [] {
      assert Tidy(c[1..]) by {
        forall i, j | 0 <= i < |c[1..]| && 0 <= j < |c[1..][i]|
          ensures NoSpaceEnds(c[1..][i][j]) && '\n' !in c[1..][i][j]
        {
          assert c[1..][i] == c[i + 1];
        }
      }
      KeptTidy(c[1..]);
    }
  }

  lemma PadTidy(row: seq<string>, w: nat)
    requires |row| <= w
    requires forall j :: 0 <= j < |row| ==> NoSpaceEnds(row[j]) && '\n' !in row[j]
    ensures forall j :: 0 <= j < w ==> NoSpaceEnds(Pad(row, w)[j]) && '\n' !in Pad(row, w)[j]
  {
  }

  lemma LinesTidy(k: Table)
    requires k != [] && Tidy(k)
    ensures Tidy(Lines(k))
  {
    var lines := Lines(k);
    var w := Width(k);
    forall i | 0 <= i < |lines|
      ensures forall j :: 0 <= j < |lines[i]| ==> NoSpaceEnds(lines[i][j]) && '\n' !in lines[i][j]
    {
      if i != 1 {
        var row := if i == 0 then 0 else i - 1;
        assert lines[i] == Pad(k[row], w);
        PadTidy(k[row], w);
      }
    }
  }

  lemma NormIsEscapedClean(t: Table)
    ensures MapCells(t, MainNorm) == MapCells(MapCells(t, Clean), EscapePipes)
  {
    var c := MapCells(t, Clean);
    forall i | 0 <= i < |t|
      ensures MapCells(t, MainNorm)[i] == MapCells(c, EscapePipes)[i]
    {
    }
  }

  lemma EscapedLinesRoundTrip(lines: Table)
    requires lines != [] && Tidy(lines)
    requires forall i :: 0 <= i < |lines| ==> lines[i] != []
    ensures ParseMarkdown(Render(MapCells(lines, EscapePipes))) == lines
  {
    var el := MapCells(lines, EscapePipes);
    forall i, j | 0 <= i < |el| && 0 <= j < |el[i]|
      ensures WellFormedCell(el[i][j])
    {
      EscapeKeepsEnds(lines[i][j]);
    }
    RenderRoundTrip(el);
    forall i | 0 <= i < |lines|
      ensures MapCells(el, UnescapePipes)[i] == lines[i]
    {
      forall j | 0 <= j < |lines[i]|
        ensures UnescapePipes(el[i][j]) == lines[i][j]
      {
        UnescapeEscape(lines[i][j]);
      }
    }
  }

  /** The emitted text is the rendering of the padded lines of the cleaned
      surviving rows, each cell escaped. */
  lemma TextOfCleaned(t: Table)
    requires KeptRows(MapCells(t, Clean)) != []
    ensures TableToMarkdown(t) == Render(MapCells(Lines(KeptRows(MapCells(t, Clean))), EscapePipes))
  {
    var c := MapCells(t, Clean);
    var kept := KeptRows(c);
    NormIsEscapedClean(t);
    KeptEscaped(c);
    assert KeptRows(MapCells(t, MainNorm)) == MapCells(kept, EscapePipes);
    LinesEscaped(kept);
  }

  lemma LinesNonEmpty(k: Table)
    requires k != [] && Keep(k[0])
    ensures forall i :: 0 <= i < |Lines(k)| ==> Lines(k)[i] != []
  {
    assert |k[0]| > 0;
  }

  /** The padded lines of the cleaned surviving rows are tidy, and none is
      empty. */
  lemma CleanedLinesTidy(t: Table)
    requires KeptRows(MapCells(t, Clean)) != []
    ensures Tidy(Lines(KeptRows(MapCells(t, Clean))))
    ensures forall i :: 0 <= i < |Lines(KeptRows(MapCells(t, Clean)))| ==> Lines(KeptRows(MapCells(t, Clean)))[i] != []
  {
    var c := MapCells(t, Clean);
    var kept := KeptRows(c);
    assert Tidy(c);
    KeptTidy(c);
    LinesTidy(kept);
    LinesNonEmpty(kept);
  }

  /** The round trip of the serialiser: reading the emitted text back gives
      the table of cleaned cells, minus the rows that normalise to nothing,
      with the separator row, every row padded to the widest. */
  lemma MarkdownRoundTrip(t: Table)
    ensures var kept := KeptRows(MapCells(t, Clean));
            ParseMarkdown(TableToMarkdown(t)) == (if kept == [] then [] else Lines(kept))
  {
    var kept := KeptRows(MapCells(t, Clean));
    if kept != [] {
      TextOfCleaned(t);
      CleanedLinesTidy(t);
      EscapedLinesRoundTrip(Lines(kept));
    } else {
      NormIsEscapedClean(t);
      KeptEscaped(MapCells(t, Clean));
      assert KeptRows(MapCells(t, MainNorm)) == [];
    }
  }
}

=== FILE: meta.dfy ===
/**
  `getMeta`: the ticker, company name and price read off the page title,
  which TIKR writes as `<price> <company name> (<ticker>) | TIKR`.

  The partner is the title shape itself: `MetaOfTitle` says that a title
  built from a price, a name and a ticker gives those three back, and
  `MetaOfPlainTitle` does the same for a title without a ticker.
 */
module Meta {
  import opened Strings

  datatype PageMeta = PageMeta(ticker: string, name: string, price: string, title: string)

  /** `/[$€£]|US\$/i.test(word)`: the second alternative is covered by the first. */
  predicate HasCurrency(word: string) {
    '$' in word || '€' in word || '£' in word
  }

  /** The characters `.` does not match in a JavaScript regular expression. */
  predicate LineTerminator(c: char) {
    c == '\n' || c == '\r' || c == '\U{2028}' || c == '\U{2029}'
  }

  /** The pattern `\|\s*TIKR.*$` (case-insensitive) matches starting at `i`:
      a pipe, any white space, the four letters in any ASCII case, then no
      line break up to the end of the text. */
  predicate SuffixAt(s: string, i: nat) {
    && i < |s| && s[i] == '|'
    && var k := i + 1 + Lead(s[i + 1..]);
       && k + 4 <= |s|
       && ToLower(s[k..k + 4]) == "tikr"
       && forall j :: k + 4 <= j < |s| ==> !LineTerminator(s[j])
  }

  /** The first match at or after `i`, cut away with everything after it. */
  function StripFrom(s: string, i: nat): (r: string)
    requires i <= |s|
    ensures |r| <= |s| && r == s[..|r|]
    ensures |r| < |s| ==> i <= |r| && SuffixAt(s, |r|)
    ensures forall j :: i <= j < |r| ==> !SuffixAt(s, j)
    ensures |r| == |s| ==> forall j :: i <= j < |s| ==> !SuffixAt(s, j)
    decreases |s| - i
  {
    if i == |s| then s
    else if SuffixAt(s, i) then s[..i]
    else StripFrom(s, i + 1)
  }

  /** `name.replace(/\|\s*TIKR.*$/i, "")`: a non-global replace removes the
      leftmost match only, and since the match runs to the end that is
      everything from its pipe on. */
  function StripSuffix(s: string): (r: string)
    ensures |r| <= |s| && r == s[..|r|]
    ensures |r| < |s| ==> SuffixAt(s, |r|)
    ensures forall j :: 0 <= j < |r| ==> !SuffixAt(s, j)
    ensures |r| == |s| ==> forall j :: 0 <= j < |s| ==> !SuffixAt(s, j)
  {
    StripFrom(s, 0)
  }

  /** The ticker: the text between the last `)` and the last `(` before it,
      trimmed, provided that `(` is not the first character. */
  function Ticker(t: string): (r: string)
    ensures NoSpaceEnds(r)
    ensures '(' !in r
    ensures ')' !in t || '(' !in t ==> r == []
  {
    var close := LastIndexOf(t, ')');
    var open := if close > 0 then LastIndexOf(t[..close], '(') else -1;
    if open > 0 && close > open then
      var mid := t[open + 1..close];
      assert t[..close][open + 1..] == mid;
      assert t[open] == t[..close][open] == '(' && t[close] == ')';
      var r := Trim(mid);
      assert '(' !in r by {
        forall i | 0 <= i < |r|
          ensures r[i] != '('
        {
          assert r[i] == mid[Lead(mid) + i];
        }
      }
      r
    else ""
  }

  /** `o` and `c` are the parens the ticker is read between: `c` is the last
      `)`, `o` the last `(` before it, and `o` is not the first character. */
  predicate TickerSpan(t: string, o: int, c: int) {
    && 0 < o < c < |t| && t[o] == '(' && t[c] == ')'
    && (forall j :: c < j < |t| ==> t[j] != ')')
    && (forall j :: o < j < c ==> t[j] != '(')
  }

  /** A `c` at `k` with none after it is the last one. */
  lemma LastAt(s: string, c: char, k: int)
    requires 0 <= k < |s| && s[k] == c
    requires forall j :: k < j < |s| ==> s[j] != c
    ensures LastIndexOf(s, c) == k
  {
    var after := s[k + 1..];
    assert s == s[..k] + [c] + after;
    assert c !in after by {
      forall i | 0 <= i < |after|
        ensures after[i] != c
      {
        assert after[i] == s[k + 1 + i];
      }
    }
    LastIndexOfAt(s[..k], after, c);
  }

  /** The last `c` has none after it. */
  lemma NoneAfterLast(s: string, c: char)
    requires LastIndexOf(s, c) >= 0
    ensures forall j :: LastIndexOf(s, c) < j < |s| ==> s[j] != c
  {
    var k := LastIndexOf(s, c);
    forall j | k < j < |s|
      ensures s[j] != c
    {
      assert s[j] == s[k + 1..][j - k - 1];
    }
  }

  /** A ticker span is the pair of parens `Ticker` reads between. */
  lemma SpanIsLast(t: string, o: int, c: int)
    requires TickerSpan(t, o, c)
    ensures LastIndexOf(t, ')') == c && LastIndexOf(t[..c], '(') == o
  {
    LastAt(t, ')', c);
    LastAt(t[..c], '(', o);
  }

  /** The parens `Ticker` reads between, when it reads any, form a span. */
  lemma LastIsSpan(t: string)
    requires var close := LastIndexOf(t, ')');
             close > 0 && LastIndexOf(t[..close], '(') > 0
    ensures var close := LastIndexOf(t, ')');
            TickerSpan(t, LastIndexOf(t[..close], '('), close)
  {
    var close := LastIndexOf(t, ')');
    var pre := t[..close];
    var open := LastIndexOf(pre, '(');
    NoneAfterLast(t, ')');
    NoneAfterLast(pre, '(');
    assert t[open] == pre[open];
    forall j | open < j < close
      ensures t[j] != '('
    {
      assert t[j] == pre[j];
    }
  }

  /** Every ticker span is the one `getMeta` finds. */
  lemma SpansAreLast(t: string)
    ensures forall o, c :: TickerSpan(t, o, c) ==> LastIndexOf(t, ')') == c && LastIndexOf(t[..c], '(') == o
  {
    forall o, c | TickerSpan(t, o, c)
      ensures LastIndexOf(t, ')') == c && LastIndexOf(t[..c], '(') == o
    {
      SpanIsLast(t, o, c);
    }
  }

  /** The ticker is the trimmed text between the parens of the ticker span,
      and empty when the title has no such span. */
  lemma TickerIsSpan(t: string)
    ensures forall o, c :: TickerSpan(t, o, c) ==> Ticker(t) == Trim(t[o + 1..c])
    ensures (forall o, c :: !TickerSpan(t, o, c)) ==> Ticker(t) == []
  {
    SpansAreLast(t);
    var close := LastIndexOf(t, ')');
    if close > 0 && LastIndexOf(t[..close], '(') > 0 {
      LastIsSpan(t);
    }
  }

  /** No `(` between the first character and the last `)` means no ticker:
      a `(` at the very start, one only after the last `)`, or none at all. */
  lemma NoOpenNoTicker(t: string)
    requires forall i :: 0 < i < LastIndexOf(t, ')') ==> t[i] != '('
    ensures Ticker(t) == []
  {
    var close := LastIndexOf(t, ')');
    if close > 0 {
      assert forall j :: 0 <= j < close ==> t[j] == t[..close][j];
    }
  }

  /** The title before the `(` of the ticker span, trimmed; the whole title,
      trimmed, when there is no span. */
  function BeforeParen(t: string): (r: string)
    ensures NoSpaceEnds(r)
    ensures forall o, c :: TickerSpan(t, o, c) ==> r == Trim(t[..o])
    ensures (forall o, c :: !TickerSpan(t, o, c)) ==> r == Trim(t)
  {
    var close := LastIndexOf(t, ')');
    var open := if close > 0 then LastIndexOf(t[..close], '(') else -1;
    SpansAreLast(t);
    if open > 0 then
      LastIsSpan(t);
      Trim(t[..open])
    else Trim(t)
  }

  /** The price and the name from the title text before the ticker: the first
      blank-separated word is the price when a blank follows it and it holds a
      currency sign; the rest, trimmed and without the site suffix, is the name. */
  function PriceAndName(beforeParen: string): (r: (string, string))
    ensures NoSpaceEnds(r.1)
    ensures r.0 != [] ==> HasCurrency(r.0) && ' ' !in r.0
    ensures r.0 != [] ==> exists k :: 0 <= k < |beforeParen| && beforeParen[..k] == r.0 && beforeParen[k] == ' '
  {
    var parts := SplitOn(beforeParen, ' ');
    SplitFirst(beforeParen, ' ');
    var priced := |parts| >= 2 && HasCurrency(parts[0]);
    var price := if priced then parts[0] else "";
    var name := if priced then Trim(beforeParen[|price|..]) else beforeParen;
    (price, Trim(StripSuffix(name)))
  }

  /** `getMeta()` on `document.title`. */
  function GetMeta(t: string): (m: PageMeta)
    ensures m.title == t
    ensures m.ticker == Ticker(t)
    ensures NoSpaceEnds(m.name)
    ensures m.price != [] ==> HasCurrency(m.price) && ' ' !in m.price
  {
    var pn := PriceAndName(BeforeParen(t));
    PageMeta(Ticker(t), pn.1, pn.0, t)
  }

  /** `s.split(" ")` has a second element exactly when `s` holds a blank, and
      its first element is everything before the first blank. */
  lemma {:induction false} SplitFirst(s: string, c: char)
    ensures |SplitOn(s, c)| >= 2 <==> c in s
    ensures c in s ==> SplitOn(s, c)[0] == s[..IndexOf(s, c)]
    ensures c !in s ==> SplitOn(s, c)[0] == s
  {
    if s != [] {
      SplitFirst(s[1..], c);
      if s[0] != c {
        assert c in s <==> c in s[1..];
        if c in s[1..] {
          assert s[..IndexOf(s, c)] == [s[0]] + s[1..][..IndexOf(s[1..], c)];
        } else {
          assert [s[0]] + s[1..] == s;
        }
      }
    }
  }

  /** A name without a pipe has nothing for the suffix pattern to remove. */
  lemma NoPipeNoSuffix(name: string)
    requires '|' !in name
    ensures StripSuffix(name) == name
  {
  }

  /** The ticker is what sits between the last parens, trimmed, and what
      comes before is everything ahead of the `(`. */
  lemma TickerOfTitle(t: string, head: string, ticker: string, suffix: string)
    requires t == head + "(" + ticker + ")" + suffix
    requires head != []
    requires '(' !in ticker && ')' !in ticker
    requires ')' !in suffix
    ensures Ticker(t) == Trim(ticker)
    ensures BeforeParen(t) == Trim(head)
  {
    var close := |head| + 1 + |ticker|;
    assert LastIndexOf(t, ')') == close by {
      assert t == (head + "(" + ticker) + [')'] + suffix;
      LastIndexOfAt(head + "(" + ticker, suffix, ')');
    }
    var pre := t[..close];
    assert LastIndexOf(pre, '(') == |head| by {
      assert pre == head + ['('] + ticker;
      LastIndexOfAt(head, ticker, '(');
    }
    assert t[|head| + 1..close] == ticker;
    assert t[..|head|] == head;
    assert close > 0;
    assert |head| > 0 && close > |head|;
  }

  /** A leading price word followed by a name splits into the two. */
  lemma PricedSplit(price: string, name: string)
    requires HasCurrency(price) && forall i :: 0 <= i < |price| ==> !IsSpace(price[i])
    requires name != [] && NoSpaceEnds(name) && '|' !in name
    ensures PriceAndName(price + " " + name) == (price, name)
  {
    var bp := price + " " + name;
    assert bp == price + [' '] + name;
    IndexOfAt(price, name, ' ');
    SplitFirst(bp, ' ');
    assert SplitOn(bp, ' ')[0] == price;
    assert bp[|price|..] == " " + name + [];
    TrimAround(" ", name, []);
    NoPipeNoSuffix(name);
    TrimNoOp(name);
  }

  /** A priced title `<price> <name> (<ticker>)<suffix>` gives back its parts,
      whatever follows the closing paren as long as it has none of its own. */
  lemma MetaOfTitle(price: string, name: string, ticker: string, suffix: string)
    requires HasCurrency(price) && forall i :: 0 <= i < |price| ==> !IsSpace(price[i])
    requires name != [] && NoSpaceEnds(name) && '|' !in name
    requires NoSpaceEnds(ticker) && '(' !in ticker && ')' !in ticker
    requires ')' !in suffix
    ensures var t := price + " " + name + " (" + ticker + ")" + suffix;
            GetMeta(t) == PageMeta(ticker, name, price, t)
  {
    var t := price + " " + name + " (" + ticker + ")" + suffix;
    TitleParts(t, price + " " + name, ticker, suffix);
    PricedSplit(price, name);
  }

  lemma TitleParts(t: string, bp: string, ticker: string, suffix: string)
    requires t == bp + " (" + ticker + ")" + suffix
    requires bp != [] && NoSpaceEnds(bp)
    requires NoSpaceEnds(ticker) && '(' !in ticker && ')' !in ticker
    requires ')' !in suffix
    ensures Ticker(t) == ticker
    ensures BeforeParen(t) == bp
  {
    TickerOfTitle(t, bp + " ", ticker, suffix);
    TrimNoOp(ticker);
    TrimBlank(bp);
  }

  /** A trailing blank is all `trim` removes from a text without others. */
  lemma TrimBlank(s: string)
    requires s != [] && NoSpaceEnds(s)
    ensures Trim(s + " ") == s
  {
    assert [] + s + " " == s + " ";
    TrimAround([], s, " ");
  }

  /** The first word of a plain title lies inside the name, so it has no
      currency sign either. */
  lemma PlainFirstWord(t: string, name: string)
    requires t == name + " | TIKR"
    requires !HasCurrency(name)
    ensures |SplitOn(t, ' ')| >= 2
    ensures !HasCurrency(SplitOn(t, ' ')[0])
  {
    SplitFirst(t, ' ');
    assert t == name + [' '] + "| TIKR";
    var k := IndexOf(t, ' ');
    assert k <= |name| by {
      assert t[|name|] == ' ';
    }
    assert t[..k] == name[..k];
  }

  lemma SuffixLead()
    ensures Lead(" TIKR") == 1
  {
    TrimStartSpaces(" ", "TIKR");
    assert " TIKR" == " " + "TIKR";
  }

  /** The text " | TIKR" at the end matches the suffix pattern at its pipe. */
  lemma SiteSuffixAt(t: string, i: nat)
    requires i <= |t| && t[i..] == "| TIKR"
    ensures SuffixAt(t, i)
  {
    var rest := t[i + 1..];
    assert rest == t[i..][1..];
    SuffixLead();
    var k := i + 2;
    assert t[k..k + 4] == "TIKR";
    assert ToLower("TIKR") == "tikr";
  }

  /** The site suffix starts at the pipe after the name. */
  lemma PlainSuffix(t: string, name: string)
    requires t == name + " | TIKR"
    requires '|' !in name
    ensures StripSuffix(t) == name + " "
  {
    var i := |name| + 1;
    ConcatParts(name, " | TIKR");
    var tail := t[|name|..];
    assert t[i..] == tail[1..];
    SiteSuffixAt(t, i);
    var r := StripSuffix(t);
    forall j | 0 <= j < i
      ensures t[j] != '|'
    {
      if j < |name| {
        assert t[j] == t[..|name|][j] && name[j] in name;
      } else {
        assert t[j] == tail[0];
      }
    }
    assert |r| <= i;
    assert |r| < |t| && t[|r|] == '|';
    assert |r| == i;
    assert t[..i] == name + " ";
  }

  /** Without a currency sign in the first word, the title (less its site
      suffix) is all name. */
  lemma PlainSplit(name: string)
    requires name != [] && NoSpaceEnds(name)
    requires '|' !in name && !HasCurrency(name)
    ensures PriceAndName(name + " | TIKR") == ("", name)
  {
    var t := name + " | TIKR";
    PlainFirstWord(t, name);
    PlainSuffix(t, name);
    TrimAround([], name, " ");
    assert [] + name + " " == name + " ";
  }

  /** A title with no ticker and no price, `<name> | TIKR`, gives back the
      name with the site suffix removed. */
  lemma MetaOfPlainTitle(name: string)
    requires name != [] && NoSpaceEnds(name)
    requires ')' !in name && '|' !in name && !HasCurrency(name)
    ensures GetMeta(name + " | TIKR") == PageMeta("", name, "", name + " | TIKR")
  {
    var t := name + " | TIKR";
    assert ')' !in t;
    TrimNoOp(t);
    assert BeforeParen(t) == t;
    PlainSplit(name);
  }
}

=== FILE: options.dfy ===
/** An optional value; `None` stands for JavaScript's `null`/`undefined` where
    the source uses either as "no value". */
module Options {
  datatype Option<+T> = None | Some(value: T)
}

=== FILE: orchestrator.dfy ===
/**
  The page-world scrape run: choosing the biggest table while waiting for the
  page to render, turning every sizeable table of the page into Markdown, and
  `run`, which walks the requested job keys and assembles the report.

  Navigation, the period toggle and the polling clock are not executed here:
  each job position gets a `JobWorld` saying whether navigation reached its
  target and which tables each successive poll of the page saw before the
  wait timed out.
 */
module Orchestrator {
  import opened Strings
  import opened Options
  import opened Json
  import opened Markdown
  import opened Catalog
  import opened Meta

  /* ---------------- waiting for a table ---------------- */

  /** The table one poll of `waitForTable` settles on: the first table with
      strictly more rows than every earlier one, kept only above two rows. */
  function PickBest(tables: seq<Table>): (r: Option<nat>)
    ensures r.Some? ==> r.value < |tables| && |tables[r.value]| > 2
    ensures r.Some? ==> forall j :: 0 <= j < |tables| ==> |tables[j]| <= |tables[r.value]|
    ensures r.Some? ==> forall j :: 0 <= j < r.value ==> |tables[j]| < |tables[r.value]|
    ensures r.None? <==> forall j :: 0 <= j < |tables| ==> |tables[j]| <= 2
  {
    var i := FirstLongest(tables);
    if tables != [] && |tables[i]| > 2 then Some(i) else None
  }

  /** The index of the first table of maximal row count (0 for no tables). */
  function FirstLongest(tables: seq<Table>): (i: nat)
    ensures tables != [] ==> i < |tables|
    ensures tables != [] ==> forall j :: 0 <= j < |tables| ==> |tables[j]| <= |tables[i]|
    ensures tables != [] ==> forall j :: 0 <= j < i ==> |tables[j]| < |tables[i]|
    decreases |tables|
  {
    if |tables| <= 1 then 0
    else
      var i := FirstLongest(tables[..|tables| - 1]);
      if |tables[|tables| - 1]| > |tables[i]| then |tables| - 1 else i
  }

  /** The scan as written: a running best and its row count, replaced only
      on a strictly larger count, starting from none and zero. */
  method BestTable(tables: seq<Table>) returns (best: Option<nat>)
    ensures best == PickBest(tables)
  {
    var bestR := 0;
    var b: Option<nat> := None;
    var i := 0;
    while i < |tables|
      invariant 0 <= i <= |tables|
      invariant b.None? <==> bestR == 0
      invariant b.None? ==> forall j :: 0 <= j < i ==> |tables[j]| == 0
      invariant b.Some? ==> b.value < i && bestR == |tables[b.value]|
      invariant forall j :: 0 <= j < i ==> |tables[j]| <= bestR
      invariant b.Some? ==> forall j :: 0 <= j < b.value ==> |tables[j]| < bestR
    {
      if |tables[i]| > bestR {
        bestR := |tables[i]|;
        b := Some(i);
      }
      i := i + 1;
    }
    if b.Some? && bestR > 2 {
      best := b;
    } else {
      best := None;
    }
    UniqueFirstLongest(tables, b, best);
  }

  /** Any index with the three properties of `PickBest` is its answer. */
  lemma UniqueFirstLongest(tables: seq<Table>, b: Option<nat>, best: Option<nat>)
    requires b.Some? ==> b.value < |tables|
                         && (forall j :: 0 <= j < |tables| ==> |tables[j]| <= |tables[b.value]|)
                         && (forall j :: 0 <= j < b.value ==> |tables[j]| < |tables[b.value]|)
    requires b.None? ==> forall j :: 0 <= j < |tables| ==> |tables[j]| == 0
    requires best == (if b.Some? && |tables[b.value]| > 2 then b else None)
    ensures best == PickBest(tables)
  {
    var p := PickBest(tables);
    if best.Some? && p.Some? {
      assert !(best.value < p.value) && !(p.value < best.value);
    }
  }

  /** `waitForTable`: the first poll that saw a table of more than two rows,
      or none when the wait ran out first. */
  function WaitForTable(polls: seq<seq<Table>>): (r: Option<nat>)
    ensures r.Some? ==> r.value < |polls| && PickBest(polls[r.value]).Some?
    ensures r.Some? ==> forall k :: 0 <= k < r.value ==> PickBest(polls[k]).None?
    ensures r.None? <==> forall k :: 0 <= k < |polls| ==> PickBest(polls[k]).None?
  {
    if polls == [] then None
    else if PickBest(polls[0]).Some? then Some(0)
    else
      match WaitForTable(polls[1..])
      case None => None
      case Some(k) => Some(k + 1)
  }

  /* ---------------- scraping a page ---------------- */

  /** A table `scrapeAllTablesOnPage` keeps: more than two rows, and some
      Markdown to show for them. */
  predicate Scraped(t: Table) {
    |t| > 2 && TableToMarkdown(t) != ""
  }

  /** The positions of the kept tables, in page order. */
  function ScrapedIndices(tables: seq<Table>): (idx: seq<nat>)
    ensures forall k :: 0 <= k < |idx| ==> idx[k] < |tables| && Scraped(tables[idx[k]])
    ensures forall k, m :: 0 <= k < m < |idx| ==> idx[k] < idx[m]
  {
    Positions(ScrapedFlags(tables))
  }

  function ScrapedFlags(tables: seq<Table>): (f: seq<bool>)
    ensures |f| == |tables| && forall i :: 0 <= i < |tables| ==> f[i] == Scraped(tables[i])
  {
    seq(|tables|, i requires 0 <= i < |tables| => Scraped(tables[i]))
  }

  /** Every table the scrape keeps has its place among the blocks. */
  lemma ScrapedComplete(tables: seq<Table>, i: nat)
    requires i < |tables| && Scraped(tables[i])
    ensures i in ScrapedIndices(tables)
  {
    PositionsComplete(ScrapedFlags(tables), i);
  }

  /** The Markdown blocks of the kept tables, in page order. */
  function ScrapeBlocks(tables: seq<Table>): (r: seq<string>)
    ensures var idx := ScrapedIndices(tables);
            |r| == |idx| && forall k :: 0 <= k < |r| ==> r[k] == TableToMarkdown(tables[idx[k]])
    ensures forall k :: 0 <= k < |r| ==> r[k] != ""
  {
    var idx := ScrapedIndices(tables);
    seq(|idx|, k requires 0 <= k < |idx| => TableToMarkdown(tables[idx[k]]))
  }

  /** `scrapeAllTablesOnPage`: the blocks separated by a blank line. */
  function ScrapeAll(tables: seq<Table>): (r: string)
    ensures r == "" <==> forall i :: 0 <= i < |tables| ==> !Scraped(tables[i])
  {
    var blocks := ScrapeBlocks(tables);
    JoinEmpty(blocks, "\n\n");
    if blocks == [] then
      assert forall i :: 0 <= i < |tables| ==> !Scraped(tables[i]) by {
        forall i | 0 <= i < |tables| && Scraped(tables[i])
          ensures false
        {
          ScrapedComplete(tables, i);
        }
      }
      Join(blocks, "\n\n")
    else
      Join(blocks, "\n\n")
  }

  /** A join is empty only when there is nothing to join or a single empty part. */
  lemma JoinEmpty(parts: seq<string>, sep: string)
    requires sep != []
    ensures Join(parts, sep) == "" <==> parts == [] || (|parts| == 1 && parts[0] == "")
  {
    if |parts| > 1 {
      assert |Join(parts, sep)| >= |sep|;
    }
  }

  /** A table that a poll picks is also one the scrape keeps, unless none
      of its rows has a non-empty cell. */
  lemma PickedIsScraped(tables: seq<Table>)
    requires PickBest(tables).Some?
    requires KeptRows(MapCells(tables[PickBest(tables).value], MainNorm)) != []
    ensures ScrapeAll(tables) != ""
  {
    var i := PickBest(tables).value;
    assert Scraped(tables[i]);
  }

  /* ---------------- the run ---------------- */

  /** What one job position meets: whether navigation reached the target,
      and the tables seen by each poll of the page until the wait timed out. */
  datatype JobWorld = JobWorld(navOk: bool, polls: seq<seq<Table>>)

  /** How a recognised job ends. */
  datatype Outcome =
    | NavTimeout
    | NoTableFound
    | PageScraped(md: string)

  /** Navigation, then `waitForTable`, then `scrapeAllTablesOnPage` on the
      page as the successful poll saw it. */
  function Observe(w: JobWorld): (o: Outcome)
    ensures o.NavTimeout? <==> !w.navOk
    ensures o.NoTableFound? <==> w.navOk && WaitForTable(w.polls).None?
    ensures o.PageScraped? ==> o.md == ScrapeAll(w.polls[WaitForTable(w.polls).value])
  {
    if !w.navOk then NavTimeout
    else match WaitForTable(w.polls)
      case None => NoTableFound
      case Some(k) => PageScraped(ScrapeAll(w.polls[k]))
  }

  /** The page actions a run takes, in order. */
  datatype Action =
    | Navigate(section: string, tab: string)
    | SetPeriod(quarterly: bool)

  datatype RunResult = RunResult(events: seq<Json>, text: string, actions: seq<Action>)

  /** The job key as the property name `JOBS[key]` looks up. */
  function KeyName(key: Json): string {
    ToText(key)
  }

  /** `JOBS[key]` for every key of the request. */
  function Lookups(keys: seq<Json>): (ls: seq<Lookup>)
    ensures |ls| == |keys|
    ensures forall i :: 0 <= i < |keys| ==> ls[i] == LookupJob(KeyName(keys[i]))
  {
    seq(|keys|, i requires 0 <= i < |keys| => LookupJob(KeyName(keys[i])))
  }

  /** The label a progress event reports for a recognised key: an inherited
      member has no label, and `undefined` is dropped when the event is
      serialised. */
  function Current(l: Lookup): (r: Option<string>)
    ensures r.Some? <==> l.Own?
    ensures l.Own? ==> r == Some(l.job.heading)
  {
    if l.Own? then Some(l.job.heading) else None
  }

  /** `{ type: "SCRAPE_PROGRESS", done, total, current, runId }` after a JSON
      round trip, where an absent label drops the field. */
  function ProgressMsg(done: nat, total: nat, current: Option<string>, runId: Json): (r: Json)
    ensures HasType(r, "SCRAPE_PROGRESS")
    ensures Get(r, "done") == Some(JNum(done)) && Get(r, "total") == Some(JNum(total))
    ensures Get(r, "runId") == Some(runId)
    ensures current.Some? ==> Get(r, "current") == Some(JStr(current.value))
    ensures current.None? ==> Get(r, "current").None?
  {
    var cur: seq<(string, Json)> := if current.Some? then [("current", JStr(current.value))] else [];
    var fields := [("type", JStr("SCRAPE_PROGRESS")), ("done", JNum(done)), ("total", JNum(total))]
                  + cur + [("runId", runId)];
    assert |fields| == 4 + |cur|;
    assert fields[0].0 == "type" && fields[1].0 == "done" && fields[2].0 == "total";
    assert fields[|fields| - 1].0 == "runId";
    assert current.Some? ==> fields[3].0 == "current";
    FieldOfAt(fields, 0, "type");
    FieldOfAt(fields, 1, "done");
    FieldOfAt(fields, 2, "total");
    FieldOfAt(fields, |fields| - 1, "runId");
    if current.Some? then FieldOfAt(fields, 3, "current"); JObj(fields)
    else FieldOfAbsent(fields, "current"); JObj(fields)
  }

  function MetaJson(m: PageMeta): Json {
    JObj([("ticker", JStr(m.ticker)), ("name", JStr(m.name)), ("price", JStr(m.price)), ("title", JStr(m.title))])
  }

  /** `{ type: "SCRAPE_DONE", text, meta, runId }` */
  function DoneMsg(text: string, m: PageMeta, runId: Json): (r: Json)
    ensures HasType(r, "SCRAPE_DONE")
    ensures Get(r, "text") == Some(JStr(text)) && Get(r, "runId") == Some(runId)
  {
    var fields := [("type", JStr("SCRAPE_DONE")), ("text", JStr(text)), ("meta", MetaJson(m)), ("runId", runId)];
    FieldOfAt(fields, 0, "type");
    FieldOfAt(fields, 1, "text");
    FieldOfAt(fields, 3, "runId");
    JObj(fields)
  }

  /** The report's heading lines: ticker and name as a level-one heading,
      the price with the extraction stamp, the period with the number of
      sections requested, and a rule. */
  function Header(m: PageMeta, stamp: string, period: Json, total: nat): (r: seq<string>)
    ensures |r| == 4
    ensures r[0] == "# " + m.ticker + " – " + m.name
    ensures r[1] == "Price: " + m.price + "  |  Extracted: " + stamp
    ensures r[2] == "Period: " + ToText(period) + "  |  Sections: " + NatToString(total)
    ensures r[3] == "---\n"
  {
    [ "# " + m.ticker + " – " + m.name,
      "Price: " + m.price + "  |  Extracted: " + stamp,
      "Period: " + ToText(period) + "  |  Sections: " + NatToString(total),
      "---\n" ]
  }

  const NavFailed: string := "_Navigation failed (timeout)._ \n"
  const NoTable: string := "_No data available (no table found)._ \n"

  /** A chunk that opens with the level-two heading for `heading`. */
  predicate HeadedBy(chunk: string, heading: string) {
    |chunk| > |heading| + 5 && chunk[..|heading| + 5] == "## " + heading + "\n\n"
  }

  /** The chunk one recognised job adds to the report: its heading, then the
      failure note or the page's tables. */
  function Section(heading: string, o: Outcome): (r: string)
    ensures HeadedBy(r, heading) && r[|r| - 1] == '\n'
  {
    var head := "## " + heading + "\n\n";
    var body := match o
      case NavTimeout => NavFailed
      case NoTableFound => NoTable
      case PageScraped(md) => md + "\n";
    assert (head + body)[..|head|] == head;
    head + body
  }

  /** The period toggle applies to the routes that have one. */
  predicate HasPeriodToggle(section: string) {
    section == "financials" || section == "estimates"
  }

  /** The actions for one recognised job: navigate, then, once there, set
      the period where the route has a toggle. */
  function JobActions(job: Job, period: Json, navOk: bool): (r: seq<Action>)
    ensures |r| >= 1 && r[0] == Navigate(job.section, job.tab)
    ensures |r| == 2 <==> navOk && HasPeriodToggle(job.section)
    ensures |r| <= 2
    ensures |r| == 2 ==> r[1] == SetPeriod(period == JStr("quarterly"))
  {
    [Navigate(job.section, job.tab)]
    + (if navOk && HasPeriodToggle(job.section) then [SetPeriod(period == JStr("quarterly"))] else [])
  }

  /** What the jobs loop has produced so far: for each recognised key its
      `done` count and label, its report chunk, and the page actions. */
  datatype Progress = Progress(reports: seq<(nat, Option<string>)>, chunks: seq<string>, actions: seq<Action>)

  /** The positions of the lookups that found a job. */
  function Known(ls: seq<Lookup>): (idx: seq<nat>)
    ensures forall k :: 0 <= k < |idx| ==> idx[k] < |ls| && !ls[idx[k]].Missing?
  {
    if ls == [] then []
    else
      var rest := Known(ls[..|ls| - 1]);
      assert forall i :: 0 <= i < |ls| - 1 ==> ls[..|ls| - 1][i] == ls[i];
      if ls[|ls| - 1].Missing? then rest else rest + [|ls| - 1]
  }

  /** The known positions are listed in increasing order. */
  lemma {:induction false} KnownIncreasing(ls: seq<Lookup>)
    ensures forall k, m :: 0 <= k < m < |Known(ls)| ==> Known(ls)[k] < Known(ls)[m]
    decreases |ls|
  {
    if ls != [] {
      KnownIncreasing(ls[..|ls| - 1]);
    }
  }

  /** Every recognised key has its place among the known positions. */
  lemma {:induction false} KnownComplete(ls: seq<Lookup>, i: nat)
    requires i < |ls| && !ls[i].Missing?
    ensures i in Known(ls)
    decreases |ls|
  {
    if i < |ls| - 1 {
      KnownComplete(ls[..|ls| - 1], i);
    }
  }

  /** Per-key values listed for the known positions stay so listed when
      one more key is looked at: `xs` extends `xs0` by the last key's value
      exactly when that key names a job. */
  lemma KnownExtend<T>(ls: seq<Lookup>, xs0: seq<T>, xs: seq<T>, f: (nat, Lookup) -> T)
    requires ls != []
    requires |xs0| == |Known(ls[..|ls| - 1])|
    requires forall k :: 0 <= k < |xs0| ==>
               xs0[k] == f(Known(ls[..|ls| - 1])[k], ls[..|ls| - 1][Known(ls[..|ls| - 1])[k]])
    requires xs == xs0 + (if ls[|ls| - 1].Missing? then [] else [f(|ls| - 1, ls[|ls| - 1])])
    ensures |xs| == |Known(ls)|
    ensures forall k :: 0 <= k < |Known(ls)| ==> xs[k] == f(Known(ls)[k], ls[Known(ls)[k]])
  {
    var n := |ls|;
    var ls0 := ls[..n - 1];
    var idx0 := Known(ls0);
    var idx := Known(ls);
    assert idx == idx0 + (if ls[n - 1].Missing? then [] else [n - 1]);
    forall k | 0 <= k < |idx|
      ensures xs[k] == f(idx[k], ls[idx[k]])
    {
      if k < |idx0| {
        var j := idx0[k];
        assert idx[k] == j && ls[j] == ls0[j] && xs[k] == xs0[k];
      }
    }
  }

  /** The loop of `run` over the lookups `ls` of the first keys. The world
      says how the job at each key position ends. */
  function Jobs(ls: seq<Lookup>, period: Json, world: nat -> Outcome): (p: Progress)
    ensures |p.reports| == |Known(ls)| && |p.chunks| == |Known(ls)|
  {
    if ls == [] then Progress([], [], [])
    else
      var n := |ls|;
      var p := Jobs(ls[..n - 1], period, world);
      var l := ls[n - 1];
      if l.Missing? then p
      else
        var job := JobOf(l);
        var o := world(n - 1);
        Progress(p.reports + [(n, Current(l))],
                 p.chunks + [Section(job.heading, o)],
                 p.actions + JobActions(job, period, !o.NavTimeout?))
  }

  /** Dropping the last key: the loop's output is that of the shorter list,
      extended by the last key's report, chunk and actions when it names a
      job. */
  lemma JobsLast(ls: seq<Lookup>, period: Json, world: nat -> Outcome)
    requires ls != []
    ensures Jobs(ls, period, world).reports == Jobs(ls[..|ls| - 1], period, world).reports
              + (if ls[|ls| - 1].Missing? then [] else [(|ls|, Current(ls[|ls| - 1]))])
    ensures Jobs(ls, period, world).chunks == Jobs(ls[..|ls| - 1], period, world).chunks
              + (if ls[|ls| - 1].Missing? then [] else [Section(JobOf(ls[|ls| - 1]).heading, world(|ls| - 1))])
    ensures Jobs(ls, period, world).actions == Jobs(ls[..|ls| - 1], period, world).actions
              + (if ls[|ls| - 1].Missing? then [] else JobActions(JobOf(ls[|ls| - 1]), period, !world(|ls| - 1).NavTimeout?))
  {
    var p0 := Jobs(ls[..|ls| - 1], period, world);
    if ls[|ls| - 1].Missing? {
      assert p0.reports + [] == p0.reports && p0.chunks + [] == p0.chunks && p0.actions + [] == p0.actions;
    }
  }

  /** The report the key at 0-based position `i` contributes when it names
      a job. */
  function ReportAt(i: nat, l: Lookup): (nat, Option<string>) {
    (i + 1, Current(l))
  }

  lemma JobsLastReports(ls: seq<Lookup>, period: Json, world: nat -> Outcome)
    requires ls != []
    ensures Jobs(ls, period, world).reports == Jobs(ls[..|ls| - 1], period, world).reports
              + (if ls[|ls| - 1].Missing? then [] else [ReportAt(|ls| - 1, ls[|ls| - 1])])
  {
    JobsLast(ls, period, world);
  }

  /** The `k`-th report belongs to the `k`-th recognised key: its 1-based
      position among all keys as `done`, and its label. A key naming no job
      still counts towards `done`. */
  lemma {:induction false} JobsReports(ls: seq<Lookup>, period: Json, world: nat -> Outcome)
    ensures forall k :: 0 <= k < |Known(ls)| ==>
              Jobs(ls, period, world).reports[k] == (Known(ls)[k] + 1, Current(ls[Known(ls)[k]]))
    decreases |ls|
  {
    if ls != [] {
      var ls0 := ls[..|ls| - 1];
      JobsReports(ls0, period, world);
      JobsLastReports(ls, period, world);
      var xs0 := Jobs(ls0, period, world).reports;
      var idx0 := Known(ls0);
      forall k | 0 <= k < |xs0|
        ensures xs0[k] == ReportAt(idx0[k], ls0[idx0[k]])
      {
      }
      KnownExtend(ls, xs0, Jobs(ls, period, world).reports, ReportAt);
    }
  }

  /** The chunk the key at position `i` contributes when it names a job. */
  function ChunkAt(world: nat -> Outcome, i: nat, l: Lookup): string {
    if l.Missing? then "" else Section(JobOf(l).heading, world(i))
  }

  /** The `k`-th chunk is a section headed by the `k`-th recognised key's
      heading, with that key's outcome. */
  lemma {:induction false} JobsChunks(ls: seq<Lookup>, period: Json, world: nat -> Outcome)
    ensures forall k :: 0 <= k < |Known(ls)| ==>
              Jobs(ls, period, world).chunks[k] == Section(JobOf(ls[Known(ls)[k]]).heading, world(Known(ls)[k]))
    decreases |ls|
  {
    if ls != [] {
      var ls0 := ls[..|ls| - 1];
      JobsChunks(ls0, period, world);
      JobsLast(ls, period, world);
      KnownExtend(ls, Jobs(ls0, period, world).chunks, Jobs(ls, period, world).chunks,
                  (i: nat, l: Lookup) => ChunkAt(world, i, l));
    }
  }

  /** The progress events for the reports, out of `total` keys. */
  function Events(reports: seq<(nat, Option<string>)>, total: nat, runId: Json): (r: seq<Json>)
    ensures |r| == |reports|
    ensures forall k :: 0 <= k < |r| ==> r[k] == ProgressMsg(reports[k].0, total, reports[k].1, runId)
  {
    seq(|reports|, k requires 0 <= k < |reports| => ProgressMsg(reports[k].0, total, reports[k].1, runId))
  }

  /** `run(jobKeys, period, runId)` on a page titled `title`, stamped `stamp`:
      one progress event per recognised key, then the finished report. */
  function Run(keys: seq<Json>, period: Json, runId: Json, title: string, stamp: string,
               world: nat -> Outcome): (r: RunResult)
    ensures |r.events| == |Known(Lookups(keys))| + 1
    ensures forall k :: 0 <= k < |r.events| - 1 ==>
              HasType(r.events[k], "SCRAPE_PROGRESS") && Get(r.events[k], "total") == Some(JNum(|keys|))
    ensures r.events[|r.events| - 1] == DoneMsg(r.text, GetMeta(title), runId)
  {
    var p := Jobs(Lookups(keys), period, world);
    var m := GetMeta(title);
    var text := Join(Header(m, stamp, period, |keys|) + p.chunks, "\n");
    RunResult(Events(p.reports, |keys|, runId) + [DoneMsg(text, m, runId)], text, p.actions)
  }

  /** One more key extends the loop's output by that key's job, if any. */
  lemma JobsStep(ls: seq<Lookup>, i: nat, period: Json, world: nat -> Outcome)
    requires i < |ls|
    ensures Jobs(ls[..i + 1], period, world).reports
              == Jobs(ls[..i], period, world).reports + (if ls[i].Missing? then [] else [(i + 1, Current(ls[i]))])
    ensures Jobs(ls[..i + 1], period, world).chunks
              == Jobs(ls[..i], period, world).chunks + (if ls[i].Missing? then [] else [Section(JobOf(ls[i]).heading, world(i))])
    ensures Jobs(ls[..i + 1], period, world).actions
              == Jobs(ls[..i], period, world).actions
                 + (if ls[i].Missing? then [] else JobActions(JobOf(ls[i]), period, !world(i).NavTimeout?))
  {
    assert ls[..i + 1][..i] == ls[..i];
    JobsLast(ls[..i + 1], period, world);
  }

  lemma EventsAppend(reports: seq<(nat, Option<string>)>, x: (nat, Option<string>), total: nat, runId: Json)
    ensures Events(reports + [x], total, runId) == Events(reports, total, runId) + [ProgressMsg(x.0, total, x.1, runId)]
  {
  }

  /** One pass of the jobs loop as written, for the key at 0-based position
      `i` with the counter already bumped to `done`: a key naming no job and
      a failed navigation both `continue` early. */
  method RunOne(key: Json, i: nat, done: nat, total: nat, period: Json, runId: Json, world: nat -> Outcome)
    returns (events: seq<Json>, chunks: seq<string>, actions: seq<Action>)
    ensures LookupJob(KeyName(key)).Missing? ==> events == [] && chunks == [] && actions == []
    ensures !LookupJob(KeyName(key)).Missing? ==>
              && events == [ProgressMsg(done, total, Current(LookupJob(KeyName(key))), runId)]
              && chunks == [Section(JobOf(LookupJob(KeyName(key))).heading, world(i))]
              && actions == JobActions(JobOf(LookupJob(KeyName(key))), period, !world(i).NavTimeout?)
  {
    events, chunks, actions := [], [], [];
    var l := LookupJob(KeyName(key));
    if l.Missing? {
      return;
    }
    var job := JobOf(l);
    events := [ProgressMsg(done, total, Current(l), runId)];
    actions := [Navigate(job.section, job.tab)];
    var o := world(i);
    if o.NavTimeout? {
      chunks := [Section(job.heading, o)];
      return;
    }
    if HasPeriodToggle(job.section) {
      actions := actions + [SetPeriod(period == JStr("quarterly"))];
    }
    chunks := [Section(job.heading, o)];
  }

  /** The report a recognised key at position `i` adds, none for the rest. */
  function ReportsOf(l: Lookup, i: nat): seq<(nat, Option<string>)> {
    if l.Missing? then [] else [(i + 1, Current(l))]
  }

  /** One pass keeps the loop's outputs equal to those of the keys so far. */
  lemma RunStep(ls: seq<Lookup>, i: nat, total: nat, period: Json, runId: Json, world: nat -> Outcome,
                reports: seq<(nat, Option<string>)>, events: seq<Json>, chunks: seq<string>, actions: seq<Action>,
                e: seq<Json>, c: seq<string>, a: seq<Action>)
    requires i < |ls|
    requires reports == Jobs(ls[..i], period, world).reports
    requires chunks == Jobs(ls[..i], period, world).chunks
    requires actions == Jobs(ls[..i], period, world).actions
    requires events == Events(reports, total, runId)
    requires ls[i].Missing? ==> e == [] && c == [] && a == []
    requires !ls[i].Missing? ==>
               && e == [ProgressMsg(i + 1, total, Current(ls[i]), runId)]
               && c == [Section(JobOf(ls[i]).heading, world(i))]
               && a == JobActions(JobOf(ls[i]), period, !world(i).NavTimeout?)
    ensures reports + ReportsOf(ls[i], i) == Jobs(ls[..i + 1], period, world).reports
    ensures chunks + c == Jobs(ls[..i + 1], period, world).chunks
    ensures actions + a == Jobs(ls[..i + 1], period, world).actions
    ensures events + e == Events(reports + ReportsOf(ls[i], i), total, runId)
  {
    JobsStep(ls, i, period, world);
    if !ls[i].Missing? {
      EventsAppend(reports, (i + 1, Current(ls[i])), total, runId);
    } else {
      assert reports + [] == reports;
    }
  }

  /** One pass of the loop, with what it keeps: the outputs so far extended
      by this pass equal those of one more key. */
  method Pass(keys: seq<Json>, i: nat, done: nat, period: Json, runId: Json, world: nat -> Outcome,
              events: seq<Json>, chunks: seq<string>, actions: seq<Action>)
    returns (e: seq<Json>, c: seq<string>, a: seq<Action>)
    requires i < |keys| && done == i + 1
    requires chunks == Jobs(Lookups(keys)[..i], period, world).chunks
    requires actions == Jobs(Lookups(keys)[..i], period, world).actions
    requires events == Events(Jobs(Lookups(keys)[..i], period, world).reports, |keys|, runId)
    ensures chunks + c == Jobs(Lookups(keys)[..i + 1], period, world).chunks
    ensures actions + a == Jobs(Lookups(keys)[..i + 1], period, world).actions
    ensures events + e == Events(Jobs(Lookups(keys)[..i + 1], period, world).reports, |keys|, runId)
  {
    e, c, a := RunOne(keys[i], i, done, |keys|, period, runId, world);
    var ls := Lookups(keys);
    RunStep(ls, i, |keys|, period, runId, world, Jobs(ls[..i], period, world).reports, events, chunks, actions, e, c, a);
  }

  /** The jobs loop of `run`: a `done` counter bumped before each lookup,
      and the events, report chunks and page actions of every pass in key
      order. */
  method RunJobs(keys: seq<Json>, period: Json, runId: Json, world: nat -> Outcome)
    returns (events: seq<Json>, chunks: seq<string>, actions: seq<Action>)
    ensures events == Events(Jobs(Lookups(keys), period, world).reports, |keys|, runId)
    ensures chunks == Jobs(Lookups(keys), period, world).chunks
    ensures actions == Jobs(Lookups(keys), period, world).actions
  {
    events, chunks, actions := [], [], [];
    var done := 0;
    for i := 0 to |keys|
      invariant done == i
      invariant chunks == Jobs(Lookups(keys)[..i], period, world).chunks
      invariant actions == Jobs(Lookups(keys)[..i], period, world).actions
      invariant events == Events(Jobs(Lookups(keys)[..i], period, world).reports, |keys|, runId)
    {
      done := done + 1;
      var e, c, a := Pass(keys, i, done, period, runId, world, events, chunks, actions);
      events, chunks, actions := events + e, chunks + c, actions + a;
    }
    assert Lookups(keys)[..|keys|] == Lookups(keys);
  }

  /** The period toggles in a list of actions: each comes right after a
      navigation to a route that has one, and asks for quarterly figures
      exactly when the period is the string "quarterly". */
  predicate PeriodsFollowNavigation(a: seq<Action>, period: Json) {
    forall k :: 0 <= k < |a| && a[k].SetPeriod? ==>
      k > 0 && a[k - 1].Navigate? && HasPeriodToggle(a[k - 1].section)
      && a[k].quarterly == (period == JStr("quarterly"))
  }

  /** A run's actions keep the period toggle where it belongs; a job whose
      navigation failed never toggles. */
  lemma {:induction false} PeriodOnlyAfterNavigation(ls: seq<Lookup>, period: Json, world: nat -> Outcome)
    ensures PeriodsFollowNavigation(Jobs(ls, period, world).actions, period)
    decreases |ls|
  {
    if ls != [] {
      var n := |ls|;
      PeriodOnlyAfterNavigation(ls[..n - 1], period, world);
      var p := Jobs(ls[..n - 1], period, world);
      var l := ls[n - 1];
      if !l.Missing? {
        var ja := JobActions(JobOf(l), period, !world(n - 1).NavTimeout?);
        var a := p.actions + ja;
        assert Jobs(ls, period, world).actions == a;
        forall k | 0 <= k < |a| && a[k].SetPeriod?
          ensures k > 0 && a[k - 1].Navigate? && HasPeriodToggle(a[k - 1].section)
                  && a[k].quarterly == (period == JStr("quarterly"))
        {
          if k >= |p.actions| {
            assert a[k] == ja[k - |p.actions|];
            assert k - |p.actions| == 1;
            assert a[k - 1] == ja[0];
          } else {
            assert a[k] == p.actions[k] && a[k - 1] == p.actions[k - 1];
          }
        }
      }
    }
  }

  /** The navigation actions, in order. */
  function Navigations(a: seq<Action>): seq<Action> {
    if a == [] then []
    else Navigations(a[..|a| - 1]) + (if a[|a| - 1].Navigate? then [a[|a| - 1]] else [])
  }

  lemma {:induction false} NavigationsAppend(a: seq<Action>, b: seq<Action>)
    ensures Navigations(a + b) == Navigations(a) + Navigations(b)
    decreases |b|
  {
    if b != [] {
      NavigationsAppend(a, b[..|b| - 1]);
      assert (a + b)[..|a + b| - 1] == a + b[..|b| - 1];
    } else {
      assert a + b == a;
    }
  }

  /** The route a key visits when it names a job. */
  function Route(l: Lookup): Action {
    if l.Missing? then Navigate("", "") else Navigate(JobOf(l).section, JobOf(l).tab)
  }

  /** A recognised job's actions hold exactly one navigation, its route. */
  lemma JobNavigation(job: Job, period: Json, navOk: bool)
    ensures Navigations(JobActions(job, period, navOk)) == [Navigate(job.section, job.tab)]
  {
    var ja := JobActions(job, period, navOk);
    NavigationsAppend([ja[0]], ja[1..]);
    assert [ja[0]] + ja[1..] == ja;
    assert Navigations([ja[0]]) == [ja[0]] by {
      assert [ja[0]][..0] == [];
    }
    if |ja| == 2 {
      assert ja[1..] == [ja[1]];
      assert [ja[1]][..0] == [];
    } else {
      assert ja[1..] == [];
    }
  }

  /** One more key adds its route to the navigations when it names a job. */
  lemma NavigationsStep(ls: seq<Lookup>, period: Json, world: nat -> Outcome)
    requires ls != []
    ensures var n := |ls|;
            Navigations(Jobs(ls, period, world).actions)
              == Navigations(Jobs(ls[..n - 1], period, world).actions)
                 + (if ls[n - 1].Missing? then [] else [Route(ls[n - 1])])
  {
    var n := |ls|;
    JobsLast(ls, period, world);
    var a0 := Jobs(ls[..n - 1], period, world).actions;
    if ls[n - 1].Missing? {
      assert Navigations(a0) + [] == Navigations(a0);
    } else {
      var job := JobOf(ls[n - 1]);
      var ja := JobActions(job, period, !world(n - 1).NavTimeout?);
      NavigationsAppend(a0, ja);
      JobNavigation(job, period, !world(n - 1).NavTimeout?);
    }
  }

  /** Each recognised key navigates exactly once: the navigations are the
      recognised jobs' routes, in key order. */
  lemma {:induction false} NavigationsFollowKeys(ls: seq<Lookup>, period: Json, world: nat -> Outcome)
    ensures |Navigations(Jobs(ls, period, world).actions)| == |Known(ls)|
    ensures forall k :: 0 <= k < |Known(ls)| ==>
              Navigations(Jobs(ls, period, world).actions)[k]
                == Navigate(JobOf(ls[Known(ls)[k]]).section, JobOf(ls[Known(ls)[k]]).tab)
    decreases |ls|
  {
    if ls != [] {
      var ls0 := ls[..|ls| - 1];
      NavigationsFollowKeys(ls0, period, world);
      NavigationsStep(ls, period, world);
      KnownExtend(ls, Navigations(Jobs(ls0, period, world).actions), Navigations(Jobs(ls, period, world).actions),
                  (i: nat, l: Lookup) => Route(l));
    }
  }

  /** The section of a job whose outcome was read off its page. */
  lemma SectionOfObserve(heading: string, w: JobWorld)
    ensures Section(heading, Observe(w))
              == "## " + heading + "\n\n" + (if !w.navOk then NavFailed
                                             else if WaitForTable(w.polls).None? then NoTable
                                             else ScrapeAll(w.polls[WaitForTable(w.polls).value]) + "\n")
  {
  }

  /** The report text is the header followed by the chunks, one per line. */
  lemma RunText(keys: seq<Json>, period: Json, runId: Json, title: string, stamp: string, world: nat -> Outcome)
    ensures Run(keys, period, runId, title, stamp, world).text
              == Join(Header(GetMeta(title), stamp, period, |keys|) + Jobs(Lookups(keys), period, world).chunks, "\n")
  {
  }

  /** With the job outcomes read off the pages, the report holds, for each
      recognised key, its section built from what the page showed: the
      navigation note, the no-table note, or the scrape of the page as the
      successful poll saw it. */
  lemma ObservedSectionInReport(keys: seq<Json>, period: Json, runId: Json, title: string, stamp: string,
                                jw: nat -> JobWorld, world: nat -> Outcome, k: nat)
    requires forall n :: world(n) == Observe(jw(n))
    requires k < |Known(Lookups(keys))|
    ensures var i := Known(Lookups(keys))[k];
            var w := jw(i);
            var body := if !w.navOk then NavFailed
                        else if WaitForTable(w.polls).None? then NoTable
                        else ScrapeAll(w.polls[WaitForTable(w.polls).value]) + "\n";
            Occurs(Run(keys, period, runId, title, stamp, world).text,
                   "## " + JobOf(Lookups(keys)[i]).heading + "\n\n" + body)
  {
    var ls := Lookups(keys);
    var i := Known(ls)[k];
    var chunks := Jobs(ls, period, world).chunks;
    JobsChunks(ls, period, world);
    SectionOfObserve(JobOf(ls[i]).heading, jw(i));
    RunText(keys, period, runId, title, stamp, world);
    ChunkInJoin(Header(GetMeta(title), stamp, period, |keys|), chunks, k);
  }

  /** A chunk of the report occurs in its text. */
  lemma ChunkInJoin(header: seq<string>, chunks: seq<string>, k: nat)
    requires k < |chunks|
    ensures Occurs(Join(header + chunks, "\n"), chunks[k])
  {
    var parts := header + chunks;
    assert parts[|header| + k] == chunks[k];
    JoinHasPart(parts, "\n", |header| + k);
  }

  /** The report's sections follow the recognised keys in order, each
      headed by that job's label. */
  lemma ReportLayout(keys: seq<Json>, period: Json, world: nat -> Outcome)
    ensures |Jobs(Lookups(keys), period, world).chunks| == |Known(Lookups(keys))|
    ensures forall k :: 0 <= k < |Known(Lookups(keys))| ==>
              HeadedBy(Jobs(Lookups(keys), period, world).chunks[k], JobOf(Lookups(keys)[Known(Lookups(keys))[k]]).heading)
  {
    JobsChunks(Lookups(keys), period, world);
  }
}

=== FILE: relay.dfy ===
/**
  The service worker's message handler: it keeps, per tab, the last command
  the side panel asked for until that tab's content script reports ready,
  injects the scripts, and re-broadcasts results to the panel.

  Tab ids are JSON values, compared as `Map` keys compare them. Sending,
  injecting and answering are not performed: the handler returns what it
  would send, inject and answer.
 */
module Relay {
  import opened Options
  import opened Json

  /** `pendingByTabId` */
  type Pending = map<Json, Json>

  /** What one message makes the worker do besides answering. */
  datatype Effect =
    | Inject(tab: Json, runId: Json)
    | Deliver(tab: Json, cmd: Json)
    | Broadcast(msg: Json)

  datatype Handled = Handled(pending: Pending, reply: Json, effects: seq<Effect>)

  const Ok: Json := JObj([("ok", JBool(true))])
  const Ignored: Json := JObj([("ok", JBool(true)), ("ignored", JBool(true))])

  /** `{ ok: false, error: String(e) }` for `throw new Error(message)`. */
  function Failure(message: string): Json {
    JObj([("ok", JBool(false)), ("error", JStr("Error: " + message))])
  }

  /** The panel's requests, each with the command it leaves pending. */
  predicate IsRequest(t: string) {
    t in {"START_PICK", "SCRAPE_START", "DOWNLOAD_CSV", "TABLE_ADD_ALL"}
  }

  /** The messages re-broadcast to the panel. */
  predicate IsResult(t: string) {
    t in {"MD_RESULT", "SCRAPE_PROGRESS", "SCRAPE_DONE", "TABLE_ADD_ALL_RESULT", "DOWNLOAD_CSV_RESULT"}
  }

  /** `msg?.type` when it is a string, "" otherwise (no handled type is ""). */
  function TypeOf(msg: Json): string {
    match Get(msg, "type")
    case Some(JStr(t)) => t
    case _ => ""
  }

  /** `msg?.tabId ?? sender?.tab?.id`: the tab a request is for. The
      message's own `tabId` wins unless it is missing or null. */
  function RequestTab(msg: Json, sender: Option<Json>): (r: Option<Json>)
    ensures Get(msg, "tabId").Some? && Get(msg, "tabId").value != JNull ==> r == Get(msg, "tabId")
    ensures Get(msg, "tabId").None? || Get(msg, "tabId").value == JNull ==> r == sender
  {
    Coalesce(Get(msg, "tabId"), sender)
  }

  /** `tabIdFromSender ?? tabId`: the tab a ready signal comes from. Here the
      sender's tab wins, and the message's `tabId` is used only without one. */
  function ReadyTab(msg: Json, sender: Option<Json>): (r: Option<Json>)
    ensures sender.Some? && sender.value != JNull ==> r == sender
    ensures sender.None? || sender.value == JNull ==>
              (Get(msg, "tabId").Some? && Get(msg, "tabId").value != JNull ==> r == Get(msg, "tabId"))
    ensures sender.None? || sender.value == JNull ==>
              (Get(msg, "tabId").None? || Get(msg, "tabId").value == JNull ==> r == sender)
  {
    Coalesce(sender, RequestTab(msg, sender))
  }

  /** The command a request leaves pending, with its defaults filled in. */
  function CommandFor(t: string, msg: Json): (cmd: Json)
    requires IsRequest(t)
    ensures t == "START_PICK" ==> HasType(cmd, "ENABLE_PICK_MODE")
    ensures t == "SCRAPE_START" ==> HasType(cmd, "SCRAPE_CMD")
    ensures t == "DOWNLOAD_CSV" ==> HasType(cmd, "DOWNLOAD_CSV_CMD")
    ensures t == "TABLE_ADD_ALL" ==> HasType(cmd, "TABLE_ADD_ALL_CMD")
    ensures Get(cmd, "runId") == Some(OrElse(Get(msg, "runId"), JNull))
    ensures t == "SCRAPE_START" ==>
              Get(cmd, "jobs") == Some(OrElse(Get(msg, "jobs"), JArr([])))
              && Get(cmd, "period") == Some(OrElse(Get(msg, "period"), JStr("annual")))
  {
    var runId := OrElse(Get(msg, "runId"), JNull);
    if t == "SCRAPE_START" then
      var fields := [("type", JStr("SCRAPE_CMD")), ("jobs", OrElse(Get(msg, "jobs"), JArr([]))),
                     ("period", OrElse(Get(msg, "period"), JStr("annual"))), ("runId", runId)];
      FieldOfAt(fields, 0, "type");
      FieldOfAt(fields, 1, "jobs");
      FieldOfAt(fields, 2, "period");
      FieldOfAt(fields, 3, "runId");
      JObj(fields)
    else
      var name := if t == "START_PICK" then "ENABLE_PICK_MODE"
                  else if t == "DOWNLOAD_CSV" then "DOWNLOAD_CSV_CMD"
                  else "TABLE_ADD_ALL_CMD";
      var fields := [("type", JStr(name)), ("runId", runId)];
      FieldOfAt(fields, 0, "type");
      FieldOfAt(fields, 1, "runId");
      JObj(fields)
  }

  /** The `onMessage` listener. */
  function Handle(pending: Pending, msg: Json, sender: Option<Json>): (h: Handled)
    ensures var t := TypeOf(msg);
            var tab := RequestTab(msg, sender);
            IsRequest(t) && Truthy(tab) ==>
              h == Handled(pending[tab.value := CommandFor(t, msg)], Ok,
                           [Inject(tab.value, OrElse(Get(msg, "runId"), JNull))])
    ensures IsRequest(TypeOf(msg)) && !Truthy(RequestTab(msg, sender)) ==>
              h.pending == pending && h.effects == [] && h.reply == Failure(TypeOf(msg) + " without tabId")
    ensures IsResult(TypeOf(msg)) ==> h == Handled(pending, Ok, [Broadcast(msg)])
    ensures !IsRequest(TypeOf(msg)) && !IsResult(TypeOf(msg)) && TypeOf(msg) != "CONTENT_READY" ==>
              h == Handled(pending, Ignored, [])
    ensures TypeOf(msg) == "CONTENT_READY" ==> h.reply == Ok
    ensures forall k :: k in pending && k in h.pending && pending[k] != h.pending[k] ==>
              IsRequest(TypeOf(msg)) && Some(k) == RequestTab(msg, sender)
  {
    var t := TypeOf(msg);
    var tab := RequestTab(msg, sender);
    if IsRequest(t) then
      if !Truthy(tab) then Handled(pending, Failure(t + " without tabId"), [])
      else Handled(pending[tab.value := CommandFor(t, msg)], Ok, [Inject(tab.value, OrElse(Get(msg, "runId"), JNull))])
    else if t == "CONTENT_READY" then
      var tId := ReadyTab(msg, sender);
      if Truthy(tId) && tId.value in pending then
        Handled(pending - {tId.value}, Ok, [Deliver(tId.value, pending[tId.value])])
      else Handled(pending, Ok, [])
    else if IsResult(t) then Handled(pending, Ok, [Broadcast(msg)])
    else Handled(pending, Ignored, [])
  }

  /** A ready signal from a tab with a pending command takes it out and
      delivers it, once; from any other tab it delivers nothing. */
  lemma ReadyDeliversOnce(pending: Pending, msg: Json, sender: Option<Json>)
    requires TypeOf(msg) == "CONTENT_READY"
    ensures var tId := ReadyTab(msg, sender);
            var h := Handle(pending, msg, sender);
            if Truthy(tId) && tId.value in pending then
              h.pending == pending - {tId.value} && h.effects == [Deliver(tId.value, pending[tId.value])]
              && tId.value !in h.pending
            else
              h.pending == pending && h.effects == []
  {
  }

  /** A request never touches another tab's pending command. */
  lemma RequestsIsolateTabs(pending: Pending, msg: Json, sender: Option<Json>, other: Json)
    requires IsRequest(TypeOf(msg))
    requires other in pending && Some(other) != RequestTab(msg, sender)
    ensures other in Handle(pending, msg, sender).pending
    ensures Handle(pending, msg, sender).pending[other] == pending[other]
  {
  }

  /** The message a panel sends for a request type, for a tab. */
  function Request(t: string, tab: Json): Json {
    JObj([("type", JStr(t)), ("tabId", tab)])
  }

  /** The ready signal, as a content script sends it. */
  const Ready: Json := JObj([("type", JStr("CONTENT_READY"))])

  lemma RequestFields(t: string, tab: Json)
    ensures TypeOf(Request(t, tab)) == t
    ensures Get(Request(t, tab), "tabId") == Some(tab)
    ensures Get(Request(t, tab), "runId").None?
  {
    var fields := [("type", JStr(t)), ("tabId", tab)];
    FieldOfAt(fields, 0, "type");
    FieldOfAt(fields, 1, "tabId");
  }

  /** Two requests for one tab before its content script is ready: the
      second replaces the first, and the ready signal delivers only the
      second, after which nothing is pending for that tab. */
  lemma LastRequestWins(pending: Pending, t1: string, t2: string, tab: Json)
    requires IsRequest(t1) && IsRequest(t2) && Truthy(Some(tab))
    ensures var h1 := Handle(pending, Request(t1, tab), None);
            var h2 := Handle(h1.pending, Request(t2, tab), None);
            var h3 := Handle(h2.pending, Ready, Some(tab));
            && h3.effects == [Deliver(tab, CommandFor(t2, Request(t2, tab)))]
            && tab !in h3.pending
  {
    RequestFields(t1, tab);
    RequestFields(t2, tab);
    assert TypeOf(Ready) == "CONTENT_READY";
  }

  /** Tab id 0 counts as missing: a request for it fails and a ready signal
      from it delivers nothing, even with a command stored under 0. */
  lemma TabZeroIsMissing(pending: Pending, t: string)
    requires IsRequest(t)
    ensures Handle(pending, Request(t, JNum(0)), None) == Handled(pending, Failure(t + " without tabId"), [])
    ensures Handle(pending, Ready, Some(JNum(0))) == Handled(pending, Ok, [])
  {
    RequestFields(t, JNum(0));
    assert TypeOf(Ready) == "CONTENT_READY";
  }

  /** A request names its tab in the message or, failing that, comes from
      it; a ready signal comes from its sender's tab first. */
  lemma TabResolution(msg: Json, sender: Json)
    requires Get(msg, "tabId").Some? && Get(msg, "tabId").value != JNull && sender != JNull
    ensures RequestTab(msg, Some(sender)) == Get(msg, "tabId")
    ensures ReadyTab(msg, Some(sender)) == Some(sender)
  {
  }

  /** A panel request without a tab id is still served for the tab it came
      from. */
  lemma SenderTabFallback(msg: Json, sender: Json)
    requires Get(msg, "tabId").None? || Get(msg, "tabId").value == JNull
    ensures RequestTab(msg, Some(sender)) == Some(sender)
  {
  }
}

=== FILE: strings.dfy ===
/**
  Text helpers shared by the serialisers: the JavaScript notion of white
  space (the `\s` class and `String.prototype.trim`), run collapsing, pipe
  escaping, joining and splitting. Strings are sequences of UTF-16 code units
  in the source; here they are `seq<char>`.
 */
module Strings {

  /** The characters of the JavaScript `\s` class, which is also the set that
      `trim` removes (WhiteSpace and LineTerminator of ECMA-262). */
  predicate IsSpace(c: char) {
    || c == ' ' || c == '\t' || c == '\n' || c == '\r' || c == '\U{000B}' || c == '\U{000C}'
    || c == '\U{00A0}' || c == '\U{1680}' || ('\U{2000}' <= c <= '\U{200A}')
    || c == '\U{2028}' || c == '\U{2029}' || c == '\U{202F}' || c == '\U{205F}'
    || c == '\U{3000}' || c == '\U{FEFF}'
  }

  predicate NoSpaceEnds(s: string) {
    s == [] || (!IsSpace(s[0]) && !IsSpace(s[|s| - 1]))
  }

  function TrimStart(s: string): (r: string)
    ensures |r| <= |s| && r == s[|s| - |r|..]
    ensures r == [] || !IsSpace(r[0])
    ensures forall i :: 0 <= i < |s| - |r| ==> IsSpace(s[i])
  {
    if s != [] && IsSpace(s[0]) then TrimStart(s[1..]) else s
  }

  function TrimEnd(s: string): (r: string)
    ensures |r| <= |s| && r == s[..|r|]
    ensures r == [] || !IsSpace(r[|r| - 1])
    ensures forall i :: |r| <= i < |s| ==> IsSpace(s[i])
  {
    if s != [] && IsSpace(s[|s| - 1]) then TrimEnd(s[..|s| - 1]) else s
  }

  /** The number of white-space characters `trim` removes from the front. */
  function Lead(s: string): nat {
    |s| - |TrimStart(s)|
  }

  lemma SliceOfSlice(s: string, k: nat, n: nat)
    requires k + n <= |s|
    ensures s[k..][..n] == s[k..k + n]
  {
  }

  /** `String.prototype.trim`: the longest slice with no white space at either end. */
  function Trim(s: string): (r: string)
    ensures NoSpaceEnds(r)
    ensures Lead(s) + |r| <= |s| && r == s[Lead(s)..Lead(s) + |r|]
  {
    var t := TrimStart(s);
    var k := Lead(s);
    assert t == s[k..];
    var r := TrimEnd(t);
    SliceOfSlice(s, k, |r|);
    r
  }

  /** The two halves of a concatenation, cut where they were joined. */
  lemma ConcatParts(a: string, b: string)
    ensures (a + b)[..|a|] == a && (a + b)[|a|..] == b
  {
  }

  lemma ConcatAssoc(a: string, b: string, c: string)
    ensures a + b + c == a + (b + c)
  {
  }

  lemma CleanEmpty()
    ensures Clean([]) == []
  {
    assert Collapse([]) == [];
  }

  lemma TrimNoOp(s: string)
    requires NoSpaceEnds(s)
    ensures Trim(s) == s
  {
  }

  /** `s.replace(/\s+/g, " ")`: every maximal run of white space becomes one blank. */
  function Collapse(s: string): (r: string)
    ensures forall i :: 0 <= i < |r| && IsSpace(r[i]) ==> r[i] == ' '
    ensures forall i :: 0 <= i < |r| - 1 ==> !(r[i] == ' ' && r[i + 1] == ' ')
    ensures s != [] && !IsSpace(s[0]) ==> r != [] && r[0] == s[0]
    decreases |s|
  {
    if s == [] then []
    else if IsSpace(s[0]) then [' '] + Collapse(TrimStart(s))
    else [s[0]] + Collapse(s[1..])
  }

  /** A cell after normalisation: white space collapsed to single blanks and trimmed. */
  predicate IsClean(s: string) {
    && NoSpaceEnds(s)
    && (forall i :: 0 <= i < |s| && IsSpace(s[i]) ==> s[i] == ' ')
    && (forall i :: 0 <= i < |s| - 1 ==> !(s[i] == ' ' && s[i + 1] == ' '))
  }

  /** The characters of `s` that are not white space, in order. */
  function NonSpace(s: string): string {
    if s == [] then [] else (if IsSpace(s[0]) then [] else [s[0]]) + NonSpace(s[1..])
  }

  lemma {:induction false} NonSpaceAppend(a: string, b: string)
    ensures NonSpace(a + b) == NonSpace(a) + NonSpace(b)
    decreases |a|
  {
    if a == [] {
      assert a + b == b;
    } else {
      NonSpaceAppend(a[1..], b);
      assert (a + b)[0] == a[0] && (a + b)[1..] == a[1..] + b;
    }
  }

  lemma {:induction false} NonSpaceOfSpaces(s: string)
    requires forall i :: 0 <= i < |s| ==> IsSpace(s[i])
    ensures NonSpace(s) == []
    decreases |s|
  {
    if s != [] {
      assert forall i :: 0 <= i < |s| - 1 ==> s[1..][i] == s[i + 1];
      NonSpaceOfSpaces(s[1..]);
    }
  }

  /** Dropping leading white space keeps every other character. */
  lemma TrimStartKeepsNonSpace(s: string)
    ensures NonSpace(TrimStart(s)) == NonSpace(s)
  {
    var t := TrimStart(s);
    var k := |s| - |t|;
    assert s == s[..k] + t;
    NonSpaceAppend(s[..k], t);
    NonSpaceOfSpaces(s[..k]);
  }

  /** `trim` removes white space only. */
  lemma TrimKeepsNonSpace(s: string)
    ensures NonSpace(Trim(s)) == NonSpace(s)
  {
    TrimStartKeepsNonSpace(s);
    TrimEndKeepsNonSpace(TrimStart(s));
    assert Trim(s) == TrimEnd(TrimStart(s));
  }

  /** Dropping trailing white space keeps every other character. */
  lemma TrimEndKeepsNonSpace(t: string)
    ensures NonSpace(TrimEnd(t)) == NonSpace(t)
  {
    var r := TrimEnd(t);
    var tail := t[|r|..];
    assert t == r + tail;
    NonSpaceAppend(r, tail);
    NonSpaceOfSpaces(tail);
  }

  /** Collapsing runs of white space keeps every other character, in order. */
  lemma {:induction false} CollapseKeepsNonSpace(s: string)
    ensures NonSpace(Collapse(s)) == NonSpace(s)
    decreases |s|
  {
    if s != [] {
      if IsSpace(s[0]) {
        var t := TrimStart(s);
        CollapseKeepsNonSpace(t);
        TrimStartKeepsNonSpace(s);
        assert ([' '] + Collapse(t))[1..] == Collapse(t);
      } else {
        CollapseKeepsNonSpace(s[1..]);
        assert ([s[0]] + Collapse(s[1..]))[1..] == Collapse(s[1..]);
      }
    }
  }

  /** `s.replace(/\s+/g, " ").trim()` */
  function Clean(s: string): (r: string)
    ensures IsClean(r)
    ensures '\n' !in r
  {
    var c := Collapse(s);
    var r := Trim(c);
    assert forall i :: 0 <= i < |r| ==> r[i] == c[Lead(c) + i];
    assert IsSpace('\n');
    r
  }

  /** Cleaning removes white space only: the other characters of the input
      are kept, in order, and nothing else is added. */
  lemma CleanKeepsNonSpace(s: string)
    ensures NonSpace(Clean(s)) == NonSpace(s)
  {
    CollapseKeepsNonSpace(s);
    TrimKeepsNonSpace(Collapse(s));
  }

  /** `s.replace(/[|]/g, "\\|")` */
  function EscapePipes(s: string): (r: string)
    ensures forall i :: 0 <= i < |r| && r[i] == '|' ==> i > 0 && r[i - 1] == '\\'
    ensures '\n' !in s ==> '\n' !in r
    ensures (r == []) <==> (s == [])
    ensures s != [] ==> r[|r| - 1] == s[|s| - 1]
    ensures s != [] && s[0] != '|' ==> r[0] == s[0]
    ensures s != [] && s[0] == '|' ==> r[0] == '\\'
    ensures r != [] ==> r[0] != '|'
  {
    if s == [] then []
    else if s[0] == '|' then ['\\', '|'] + EscapePipes(s[1..])
    else [s[0]] + EscapePipes(s[1..])
  }

  /** Reading an escaped cell back: every `\|` stands for a literal `|`. */
  function UnescapePipes(s: string): string {
    if s == [] then []
    else if |s| >= 2 && s[0] == '\\' && s[1] == '|' then ['|'] + UnescapePipes(s[2..])
    else [s[0]] + UnescapePipes(s[1..])
  }

  lemma {:induction false} UnescapeEscape(s: string)
    ensures UnescapePipes(EscapePipes(s)) == s
  {
    if s == [] {
    } else if s[0] == '|' {
      UnescapeEscape(s[1..]);
      assert ['\\', '|'] + EscapePipes(s[1..]) == EscapePipes(s);
      assert (['\\', '|'] + EscapePipes(s[1..]))[2..] == EscapePipes(s[1..]);
    } else {
      UnescapeEscape(s[1..]);
      var e := EscapePipes(s[1..]);
      assert EscapePipes(s) == [s[0]] + e;
      assert ([s[0]] + e)[1..] == e;
    }
  }

  /** A cleaned, escaped cell has no white space at its ends, so a further
      `trim` (as the isolated-world copy applies after escaping) changes nothing. */
  lemma EscapeKeepsEnds(s: string)
    requires NoSpaceEnds(s)
    ensures NoSpaceEnds(EscapePipes(s))
  {
    if s != [] {
      assert !IsSpace('\\') && !IsSpace('|');
    }
  }

  /** `parts.join(sep)` */
  function Join(parts: seq<string>, sep: string): string
  {
    if parts == [] then []
    else if |parts| == 1 then parts[0]
    else parts[0] + sep + Join(parts[1..], sep)
  }

  lemma {:induction false} JoinNoChar(parts: seq<string>, sep: string, c: char)
    requires c !in sep
    requires forall i :: 0 <= i < |parts| ==> c !in parts[i]
    ensures c !in Join(parts, sep)
    decreases |parts|
  {
    if |parts| > 1 {
      JoinNoChar(parts[1..], sep, c);
    }
  }

  /** `sub` occurs in `s`. */
  ghost predicate Occurs(s: string, sub: string) {
    exists pre, post :: s == pre + sub + post
  }

  /** Every part of a join occurs in the joined text. */
  lemma {:induction false} JoinHasPart(parts: seq<string>, sep: string, i: nat)
    requires i < |parts|
    ensures Occurs(Join(parts, sep), parts[i])
    decreases |parts|
  {
    var j := Join(parts, sep);
    if |parts| == 1 {
      assert j == [] + parts[0] + [];
    } else if i == 0 {
      assert j == [] + parts[0] + (sep + Join(parts[1..], sep));
    } else {
      JoinHasPart(parts[1..], sep, i - 1);
      var pre, post :| Join(parts[1..], sep) == pre + parts[1..][i - 1] + post;
      assert j == (parts[0] + sep + pre) + parts[i] + post;
    }
  }

  /** `s.split(c)` for a one-character separator. */
  function SplitOn(s: string, c: char): (r: seq<string>)
    ensures |r| >= 1
  {
    if s == [] then [[]]
    else
      var rest := SplitOn(s[1..], c);
      if s[0] == c then [[]] + rest else [[s[0]] + rest[0]] + rest[1..]
  }

  lemma {:induction false} SplitNoSep(x: string, c: char)
    requires c !in x
    ensures SplitOn(x, c) == [x]
  {
    if x != [] {
      SplitNoSep(x[1..], c);
      assert [x[0]] + x[1..] == x;
    }
  }

  lemma {:induction false} SplitAfterPart(x: string, y: string, c: char)
    requires c !in x
    ensures SplitOn(x + [c] + y, c) == [x] + SplitOn(y, c)
  {
    if x == [] {
      assert x + [c] + y == [c] + y;
      assert ([c] + y)[1..] == y;
    } else {
      SplitAfterPart(x[1..], y, c);
      assert (x + [c] + y)[1..] == x[1..] + [c] + y;
      assert [x[0]] + x[1..] == x;
    }
  }

  /** Splitting undoes joining when no part contains the separator. */
  lemma {:induction false} SplitJoin(parts: seq<string>, c: char)
    requires |parts| >= 1
    requires forall i :: 0 <= i < |parts| ==> c !in parts[i]
    ensures SplitOn(Join(parts, [c]), c) == parts
    decreases |parts|
  {
    if |parts| == 1 {
      SplitNoSep(parts[0], c);
    } else {
      SplitJoin(parts[1..], c);
      SplitAfterPart(parts[0], Join(parts[1..], [c]), c);
      assert [parts[0]] + parts[1..] == parts;
    }
  }

  function IndexOf(s: string, c: char): (r: int)
    ensures -1 <= r < |s|
    ensures r >= 0 ==> s[r] == c && c !in s[..r]
    ensures r == -1 ==> c !in s
  {
    if s == [] then -1
    else if s[0] == c then 0
    else
      var k := IndexOf(s[1..], c);
      assert k >= 0 ==> s[1..][..k] == s[1..k + 1];
      if k < 0 then -1 else k + 1
  }

  /** `s.lastIndexOf(c)`: the last position holding `c`, or -1. */
  function LastIndexOf(s: string, c: char): (r: int)
    ensures -1 <= r < |s|
    ensures r >= 0 ==> s[r] == c && c !in s[r + 1..]
    ensures r == -1 ==> c !in s
  {
    if s == [] then -1
    else if s[|s| - 1] == c then |s| - 1
    else
      var k := LastIndexOf(s[..|s| - 1], c);
      assert k >= 0 ==> s[k + 1..] == s[..|s| - 1][k + 1..] + [s[|s| - 1]];
      k
  }

  /** The first `c` is the one right after a prefix without `c`. */
  lemma {:induction false} IndexOfAt(x: string, y: string, c: char)
    requires c !in x
    ensures IndexOf(x + [c] + y, c) == |x|
  {
    if x != [] {
      IndexOfAt(x[1..], y, c);
      assert (x + [c] + y)[1..] == x[1..] + [c] + y;
    }
  }

  /** The last `c` is the one right before a suffix without `c`. */
  lemma {:induction false} LastIndexOfAt(x: string, y: string, c: char)
    requires c !in y
    ensures LastIndexOf(x + [c] + y, c) == |x|
  {
    if y != [] {
      var s := x + [c] + y;
      LastIndexOfAt(x, y[..|y| - 1], c);
      assert s[..|s| - 1] == x + [c] + y[..|y| - 1];
    }
  }

  predicate AllSpace(s: string) {
    forall i :: 0 <= i < |s| ==> IsSpace(s[i])
  }

  lemma {:induction false} TrimStartSpaces(a: string, rest: string)
    requires AllSpace(a)
    requires rest != [] && !IsSpace(rest[0])
    ensures TrimStart(a + rest) == rest
  {
    if a != [] {
      TrimStartSpaces(a[1..], rest);
      assert (a + rest)[1..] == a[1..] + rest;
    } else {
      assert a + rest == rest;
    }
  }

  lemma {:induction false} TrimEndSpaces(rest: string, b: string)
    requires AllSpace(b)
    requires rest != [] && !IsSpace(rest[|rest| - 1])
    ensures TrimEnd(rest + b) == rest
  {
    if b != [] {
      TrimEndSpaces(rest, b[..|b| - 1]);
      assert (rest + b)[..|rest + b| - 1] == rest + b[..|b| - 1];
    } else {
      assert rest + b == rest;
    }
  }

  /** `trim` removes exactly the white space around a text that has none at its ends. */
  lemma TrimAround(a: string, s: string, b: string)
    requires AllSpace(a) && AllSpace(b)
    requires s != [] && NoSpaceEnds(s)
    ensures Trim(a + s + b) == s
  {
    var x := a + s + b;
    assert x == a + (s + b);
    assert (s + b)[0] == s[0];
    TrimStartSpaces(a, s + b);
    assert TrimStart(x) == s + b;
    TrimEndSpaces(s, b);
  }

  function LowerChar(c: char): char {
    if 'A' <= c <= 'Z' then (c as int + 32) as char else c
  }

  /** `toLowerCase` restricted to ASCII letters. */
  function ToLower(s: string): (r: string)
    ensures |r| == |s|
    ensures forall i :: 0 <= i < |s| ==> r[i] == LowerChar(s[i])
  {
    seq(|s|, i requires 0 <= i < |s| => LowerChar(s[i]))
  }

  function DigitChar(d: nat): char
    requires d < 10
  {
    "0123456789"[d]
  }

  /** The decimal text of a natural number, as `String(n)` prints it. */
  function NatToString(n: nat): (r: string)
    ensures |r| >= 1
    ensures forall i :: 0 <= i < |r| ==> '0' <= r[i] <= '9'
    decreases n
  {
    if n < 10 then [DigitChar(n)] else NatToString(n / 10) + [DigitChar(n % 10)]
  }

  function IntToString(n: int): string {
    if n < 0 then "-" + NatToString(-n) else NatToString(n)
  }

  /** The positions holding `true`, in order. */
  function Positions(flags: seq<bool>): (idx: seq<nat>)
    ensures forall k :: 0 <= k < |idx| ==> idx[k] < |flags| && flags[idx[k]]
    ensures forall k, m :: 0 <= k < m < |idx| ==> idx[k] < idx[m]
  {
    if flags == [] then []
    else
      var rest := Positions(flags[..|flags| - 1]);
      assert forall i :: 0 <= i < |flags| - 1 ==> flags[..|flags| - 1][i] == flags[i];
      if flags[|flags| - 1] then rest + [|flags| - 1] else rest
  }

  /** No `true` position is left out. */
  lemma {:induction false} PositionsComplete(flags: seq<bool>, i: nat)
    requires i < |flags| && flags[i]
    ensures i in Positions(flags)
    decreases |flags|
  {
    if i < |flags| - 1 {
      PositionsComplete(flags[..|flags| - 1], i);
    }
  }
}

=== FILE: urls.dfy ===
/**
  `urlsMatch`, which decides whether navigation has reached its target, and
  the query-parameter reads the scraper makes on `location.href`.

  URL parsing (the WHATWG URL standard's parser, with its percent-decoding)
  is not modelled: it is a parameter `parse` that either fails or yields an
  origin, a path and the decoded query pairs in order.
 */
module Urls {
  import opened Options

  type Query = seq<(string, string)>

  datatype Url = Url(origin: string, path: string, query: Query)

  /** `searchParams.get(k)`: the first value bound to `k`, or null. */
  function Param(q: Query, k: string): (r: Option<string>)
    ensures r.None? <==> forall i :: 0 <= i < |q| ==> q[i].0 != k
    ensures r.Some? ==> exists i :: 0 <= i < |q| && q[i] == (k, r.value) &&
                          forall j :: 0 <= j < i ==> q[j].0 != k
  {
    if q == [] then None
    else if q[0].0 == k then Some(q[0].1)
    else
      var r := Param(q[1..], k);
      assert forall j :: 1 <= j < |q| ==> q[1..][j - 1] == q[j];
      r
  }

  /** `searchParams.get(k) || fallback` */
  function ParamOr(q: Query, k: string, fallback: string): (r: string)
    ensures (forall i :: 0 <= i < |q| ==> q[i].0 != k) ==> r == fallback
    ensures r != fallback ==> r != [] && Param(q, k) == Some(r)
    ensures Param(q, k).Some? && Param(q, k).value != [] ==> r == Param(q, k).value
    ensures Param(q, k) == Some([]) ==> r == fallback
  {
    match Param(q, k)
    case None => fallback
    case Some(v) => if v == [] then fallback else v
  }

  /** Every pair of `pa` is what `pb.get` returns for its key. */
  predicate Covered(pa: Query, pb: Query) {
    forall i :: 0 <= i < |pa| ==> Param(pb, pa[i].0) == Some(pa[i].1)
  }

  /** The loop `for (const [k, v] of pa) if (pb.get(k) !== v) return false;`. */
  method CheckCovered(pa: Query, pb: Query) returns (ok: bool)
    ensures ok <==> Covered(pa, pb)
  {
    var i := 0;
    while i < |pa|
      invariant 0 <= i <= |pa|
      invariant forall j :: 0 <= j < i ==> Param(pb, pa[j].0) == Some(pa[j].1)
    {
      if Param(pb, pa[i].0) != Some(pa[i].1) {
        return false;
      }
      i := i + 1;
    }
    return true;
  }

  /** `urlsMatch(a, b)`: when both parse, same origin, same path and each
      query's pairs are what the other query reports for their keys; when
      either fails to parse, plain string equality. */
  function UrlsMatch(parse: string -> Option<Url>, a: string, b: string): (r: bool)
    ensures parse(a).None? || parse(b).None? ==> (r <==> a == b)
    ensures r && parse(a).Some? && parse(b).Some? ==>
              parse(a).value.origin == parse(b).value.origin && parse(a).value.path == parse(b).value.path
    ensures r && parse(a).Some? && parse(b).Some? ==>
              forall k :: Param(parse(a).value.query, k).Some? ==>
                Param(parse(b).value.query, k) == Param(parse(a).value.query, k)
  {
    match (parse(a), parse(b))
    case (Some(ua), Some(ub)) =>
      && ua.origin == ub.origin && ua.path == ub.path
      && Covered(ua.query, ub.query) && Covered(ub.query, ua.query)
    case _ => a == b
  }

  /** The same decision written as the source's sequence of early exits. */
  method UrlsMatchMethod(parse: string -> Option<Url>, a: string, b: string) returns (r: bool)
    ensures r <==> UrlsMatch(parse, a, b)
  {
    var pa := parse(a);
    var pb := parse(b);
    if pa.None? || pb.None? {
      return a == b;
    }
    var ua, ub := pa.value, pb.value;
    if ua.origin != ub.origin || ua.path != ub.path {
      return false;
    }
    var ab := CheckCovered(ua.query, ub.query);
    if !ab {
      return false;
    }
    r := CheckCovered(ub.query, ua.query);
  }

  lemma UrlsMatchSymmetric(parse: string -> Option<Url>, a: string, b: string)
    ensures UrlsMatch(parse, a, b) <==> UrlsMatch(parse, b, a)
  {
  }

  /** A different origin or path never matches, whatever the queries hold. */
  lemma OriginOrPathDiffers(parse: string -> Option<Url>, a: string, b: string)
    requires parse(a).Some? && parse(b).Some?
    requires parse(a).value.origin != parse(b).value.origin || parse(a).value.path != parse(b).value.path
    ensures !UrlsMatch(parse, a, b)
  {
  }

  /** A text that does not parse matches only itself. */
  lemma UnparsableIsTextEquality(parse: string -> Option<Url>, a: string, b: string)
    requires parse(a).None? || parse(b).None?
    ensures UrlsMatch(parse, a, b) <==> a == b
  {
  }

  predicate DistinctKeys(q: Query) {
    forall i, j :: 0 <= i < j < |q| ==> q[i].0 != q[j].0
  }

  function Pairs(q: Query): set<(string, string)> {
    set i | 0 <= i < |q| :: q[i]
  }

  /** With no repeated key, `pb.get(k)` finds a pair of `pa` exactly when the
      pair itself is in `pb`. */
  lemma ParamOfDistinct(q: Query, k: string, v: string)
    requires DistinctKeys(q)
    ensures Param(q, k) == Some(v) <==> (k, v) in Pairs(q)
  {
    if (k, v) in Pairs(q) {
      var i :| 0 <= i < |q| && q[i] == (k, v);
      var r := Param(q, k);
      var m :| 0 <= m < |q| && q[m] == (k, r.value) && forall j :: 0 <= j < m ==> q[j].0 != k;
      assert m == i;
    }
  }

  /** For queries without repeated keys, matching ignores the order of the
      parameters: it is equality of the sets of pairs. */
  lemma DistinctQueriesMatchAsSets(parse: string -> Option<Url>, a: string, b: string)
    requires parse(a).Some? && parse(b).Some?
    requires DistinctKeys(parse(a).value.query) && DistinctKeys(parse(b).value.query)
    ensures UrlsMatch(parse, a, b) <==>
              && parse(a).value.origin == parse(b).value.origin
              && parse(a).value.path == parse(b).value.path
              && Pairs(parse(a).value.query) == Pairs(parse(b).value.query)
  {
    var qa, qb := parse(a).value.query, parse(b).value.query;
    forall i | 0 <= i < |qa|
      ensures Param(qb, qa[i].0) == Some(qa[i].1) <==> qa[i] in Pairs(qb)
    {
      ParamOfDistinct(qb, qa[i].0, qa[i].1);
    }
    forall i | 0 <= i < |qb|
      ensures Param(qa, qb[i].0) == Some(qb[i].1) <==> qb[i] in Pairs(qa)
    {
      ParamOfDistinct(qa, qb[i].0, qb[i].1);
    }
    if Pairs(qa) == Pairs(qb) {
      assert forall i :: 0 <= i < |qa| ==> qa[i] in Pairs(qa);
      assert forall i :: 0 <= i < |qb| ==> qb[i] in Pairs(qb);
    }
    if Covered(qa, qb) && Covered(qb, qa) {
      forall p | p in Pairs(qa)
        ensures p in Pairs(qb)
      {
        var i :| 0 <= i < |qa| && qa[i] == p;
      }
      forall p | p in Pairs(qb)
        ensures p in Pairs(qa)
      {
        var i :| 0 <= i < |qb| && qb[i] == p;
      }
    }
  }

  /** A parsed URL without repeated keys matches itself. */
  lemma DistinctIsReflexive(parse: string -> Option<Url>, a: string)
    requires parse(a).Some? ==> DistinctKeys(parse(a).value.query)
    ensures UrlsMatch(parse, a, a)
  {
    if parse(a).Some? {
      DistinctQueriesMatchAsSets(parse, a, a);
    }
  }

  /** A repeated key with two values makes a URL fail to match itself: the
      second pair disagrees with what `get` returns for its key. */
  lemma RepeatedKeyNotReflexive(parse: string -> Option<Url>, a: string, o: string, p: string)
    requires parse(a) == Some(Url(o, p, [("x", "1"), ("x", "2")]))
    ensures !UrlsMatch(parse, a, a)
  {
    var q: Query := [("x", "1"), ("x", "2")];
    assert Param(q, "x") == Some("1");
    assert q[1] == ("x", "2");
  }
}
